=== FILE: README.md ===
# Position environment servers — a Dafny model

The repository holds two small Python request servers that serve "position
environment" data: books of trades valued on a position date against a
market environment date.

* **`pos_env` API** (root package). It validates a request's common
  parameters (`section`, `time_of_day`, `books`, `pos_date`, `env_date`).
  It expands `section` into the sections to run and validates each
  section's own parameters. Its section registry names those sections. It
  caches finished responses under a SHA-256 key built from the request, with
  a TTL per section. Each request is kept as a `RequestContext` record.
* **`position_server`**. It extracts `env_date`, `pos_date`, `books` and
  `time_of_day` from a GET query or a POST body and validates them. It runs
  the `futures` and `bonds` sections, each wrapped in a status/metadata
  envelope. Results are cached under a key with the books sorted. Warmup
  workers refresh that cache on a schedule. A `curl` command is produced
  to replay a request.

Python values are modelled by `PyValue.Value`. A dict is an
insertion-ordered sequence of members, and lookup takes the first member
with the key. Floats are exact decimals. Results that can fail are
`Wrappers.Result`s carrying the exception the source would raise, with its
kind and message text. Clocks, durations, timestamps, tracebacks and the
SHA-256 hash are parameters.

Files, in dependency order:

* **Shared Python semantics**
  * `wrappers.dfy`: `Option` and `Result`.
  * `strings.dfy`: `str.strip`, `split`, `join`, `lower`, ordering.
  * `sorting.dfy`: `sorted`.
  * `dates.dfy`: `datetime.strptime` with `%Y%m%d`.
  * `pyvalue.dfy`: Python values and dicts.
  * `json.dfy`: `json.dumps`, and `repr()`/`str()` as f-strings use them.
  * `pydantic.dfy`: field coercion and model validation.
* **`position_server`**
  * `position_config.dfy`: its configuration.
  * `position_params.dfy`
  * `position_cache.dfy`
  * `section_runner.dfy`: `sections/base.py`, `futures.py`, `bonds.py` and `orchestrator.py`.
  * `scheduler.dfy`
  * `curl.dfy`: `utils.py`.
* **`pos_env` API**
  * `pos_env_config.dfy`: its configuration.
  * `common_params.dfy`: `validation/common.py`.
  * `section_schemas.dfy`: `validation/sections.py`.
  * `validator.dfy`
  * `registry.dfy`
  * `request_cache.dfy`: `cache/cache.py`.
  * `storage_models.dfy`

## Model

| member | source | states |
|---|---|---|
| PositionParams.CheckDate | position_server/params.py:88-106 | a date passes exactly when it is a non-empty string that `strptime` accepts as `%Y%m%d`; a falsy value is reported missing, a truthy non-string as `must be a string, got T`, and a string `strptime` refuses as a bad format carrying the text |
| PositionParams.CheckBooks | position_server/params.py:108-116 | books pass exactly when they form a non-empty list of strings, each non-blank after stripping; a falsy value is reported missing, a truthy non-list as `BooksNotList` with its type name, and a list with a non-string or blank item as `BooksNotStrings` |
| PositionParams.BadTimeOfDayMessages | position_server/params.py:123-124 | the message quotes the valid times as Python prints the list, `['SOD', 'EOD', 'LIVE']`, and a list value as `['SOD']` |
| Json.PlainStrRepr | position_server/params.py:124 | a str of printable ASCII without quotes or backslashes has a `repr()` that is itself between single quotes, as inside a printed list |
| Json.PlainListStr | position_server/params.py:124 | a list of such strs prints as `[` then each one quoted, joined with `, `, then `]` |
| PositionParams.CheckTimeOfDay | position_server/params.py:119-124 | the time passes exactly when it is one of SOD, EOD, LIVE; a failure names time_of_day and is reported as missing exactly when the value is falsy; any truthy value that is not one of the three gives `BadTimeOfDay` carrying that value |
| PositionParams.ValidateFirstError | position_server/params.py:86-131 | `_validate` fails exactly when one of its four checks does, and the error is the first failing check's, taken in the source order env_date, pos_date, books, time_of_day |
| PositionParams.FirstError | position_server/params.py:86-131 | the first error of a list of checks is absent iff every check passes; otherwise it is some check's error with every earlier check passing |
| PositionParams.Validate | position_server/params.py:86-131 | success iff all four parameters are acceptable; the first bad one, in the order env_date, pos_date, books, time_of_day, is the one reported; a missing or falsy value is reported as missing; the dates and time are returned unchanged and the books stripped in order |
| PositionParams.ValidateWellFormed | position_server/params.py:108-131 | validated parameters are well formed: valid dates, known time of day, non-empty books that are stripped and non-blank |
| PositionParams.ValidateWellFormedIdentity | position_server/params.py:86-131 | validating well-formed parameters gives them back unchanged |
| PositionParams.StripAllStripped | position_server/params.py:117 | stripping books that are already stripped changes nothing |
| PositionParams.ToCacheKey | position_server/params.py:26-33 | the key keeps the dates and time and holds the books sorted, as a permutation of the given books |
| PositionParams.CacheKeyIgnoresBookOrder | position_server/params.py:26-33 | two parameter sets share a key iff their dates and time agree and their books are permutations of each other |
| PositionParams.ToDict | position_server/params.py:35-37 | the dict has the four field names, in declaration order |
| PositionParams.BuildFromDictRoundTrip | position_server/params.py:76-83 | building from the dict of well-formed parameters gives them back |
| PositionParams.SplitBooks | position_server/params.py:47-48 | one book per comma-separated piece, each stripped and comma-free |
| PositionParams.ExtractFromGet | position_server/params.py:40-50 | the result is `_validate` of the four arguments, with `books` split on commas and stripped, or `None` when absent or empty; an absent or empty `books` is reported as missing once the dates pass; accepted books hold no comma |
| PositionParams.GetExtracts | position_server/params.py:40-50 | a GET passes iff both dates are valid, `books` is given and splits into non-blank pieces, and the time of day is known; it then carries the dates and time as given and the split books |
| PositionParams.GetEmptyBookRejected | position_server/params.py:47-50 | a GET `books` with a blank piece (`"A,,B"`) is rejected as not holding non-empty strings |
| PositionParams.GetRoundTrip | position_server/params.py:40-50 | a GET carrying well-formed parameters, with the books joined by commas, extracts to those parameters |
| PositionParams.ExtractFromPost | position_server/params.py:53-73 | malformed JSON, a non-object body and a non-object `section_params` are each rejected; otherwise it succeeds iff the body's four fields validate; on success the result is `_validate`'s parameters with `section_params` as given, null or an object, and a `_validate` error is passed on as it is |
| PositionParams.PostRoundTrip | position_server/params.py:53-73 | a body holding the four fields of well-formed parameters and a null or object `section_params` gives back both |
| Dates.Strptime | position_server/params.py:93-96 | a parsed `%Y%m%d` text has 6 to 8 characters and names a real calendar date |
| Dates.ValidDateChars | position_server/params.py:93-96 | an accepted date holds only digits and at most the day's leading space, and starts and ends with a digit |
| Dates.FormatParses | position_server/params.py:93-96 | parsing the eight-digit rendering of any date gives that date back |
| Sorting.SortBy | position_server/params.py:31 | the result is sorted and is a permutation of the input |
| Sorting.SortByPermutation | position_server/params.py:31 | with distinct keys, two sequences sort equal iff they are permutations of each other |
| PositionCache.Empty | position_server/cache.py:10 | the empty cache is consistent |
| PositionCache.GetFromCache | position_server/cache.py:14-18 | a value comes back iff the key was written |
| PositionCache.WriteToCache | position_server/cache.py:21-25 | the written key holds the sections and time; other keys are untouched; consistency is preserved |
| PositionCache.WriteThenGet | position_server/cache.py:14-25 | reading a key just written gives the written sections |
| PositionCache.WriteIsolated | position_server/cache.py:21-25 | writing one key does not change what another key reads |
| PositionCache.NeverWrittenIsMissing | position_server/cache.py:14-18 | a fresh cache reads nothing |
| PositionCache.GetCacheInfo | position_server/cache.py:28-37 | `size` equals the number of entries; each entry lists a cached key with its time, and every cached key is listed |
| PositionCache.DistinctOrderSize | position_server/cache.py:28-37 | the insertion order lists each key once, so its length is the cache size |
| SectionRunner.FormatExc | position_server/sections/base.py:45-56 | the error stack is the frames followed by the exception line and a newline |
| SectionRunner.EnvelopeFields | position_server/sections/base.py:35-56 | the envelope's `data`, `metadata.last_updated`, `status`, `refresh_duration_ms` and `error_stack` read back as built |
| SectionRunner.RunSection | position_server/sections/base.py:13-56 | the envelope always has data/metadata/error_stack and a status of ok or error; a returned value gives ok with that data and an empty stack; a raised exception gives error with null data and the formatted traceback; the duration is recorded |
| SectionRunner.TimeoutIgnored | position_server/sections/base.py:13-56 | the timeout argument does not affect the envelope |
| SectionRunner.StatusReflectsOutcome | position_server/sections/base.py:29-56 | status is ok iff the fetcher returned |
| SectionRunner.EchoRoundTrip | position_server/sections/futures.py:23-30 | the echoed response carries the parameters, the section's extra value and `placeholder: true` |
| SectionRunner.GetFutures | position_server/sections/futures.py:10-30 | raises the overrides ValueError iff `live_price_overrides` is given and not a dict; otherwise echoes the parameters with `overrides_applied` |
| SectionRunner.GetBonds | position_server/sections/bonds.py:10-30 | raises the ValueError iff `exclude_isins` is given and not a list; otherwise echoes the parameters with `excluded_isins` |
| SectionRunner.FetchersEcho | position_server/sections/futures.py:17-30 | a returning fetcher's data reads back as the parameters; without the optional argument both fetchers return |
| SectionRunner.CallFetcher | position_server/sections/base.py:29-33 | spreading non-dict section parameters, or ones holding a `params` key, raises TypeError; otherwise the fetcher sees them as keyword arguments |
| SectionRunner.FetchAllSections | position_server/orchestrator.py:19-61 | the result maps `futures` then `bonds` to the envelope of running each fetcher with its own section parameters and timeout |
| SectionRunner.WarmupFetchSucceeds | position_server/orchestrator.py:19-61 | with no section parameters both sections report ok and echo the parameters |
| Scheduler.ClockOrder | position_server/scheduler.py:106-114 | on `HH:MM` texts, string order is clock order |
| Scheduler.InTimeWindowMeansMinutes | position_server/scheduler.py:106-114 | the string window test equals the window test on minutes since midnight |
| Scheduler.InitialStatus | position_server/scheduler.py:37-44 | a new worker is starting, outside its window, with no run, duration or error recorded |
| Scheduler.StartWorker | position_server/scheduler.py:63-70 | a config whose parameters fail to build puts the worker in config_error with the message; otherwise the worker is unchanged and gets the parameters |
| Scheduler.EnterIteration | position_server/scheduler.py:72-82 | the window flag is set and the state becomes running inside the window, outside_window otherwise; the last-run fields are kept |
| Scheduler.Iteration | position_server/scheduler.py:72-103 | outside the window only the state changes; a successful fetch stores the sections under the parameters' cache key and records idle, the finish time, the duration and no error; a failure records the error state and message and leaves the last run and the cache alone |
| Scheduler.IterationPreservesConsistent | position_server/scheduler.py:72-103 | an iteration keeps the worker status consistent |
| Scheduler.WarmupIterationCaches | position_server/scheduler.py:84-90 | inside the window a warmup fetch caches two `ok` sections under the parameters' key and leaves the worker idle with no error |
| Scheduler.RunningDuringFetch | position_server/scheduler.py:78-82 | inside the window the worker reports `running` while it fetches |
| Scheduler.WarmupConfigsBuild | position_server/config.py:23-60 | every shipped warmup config builds valid parameters and has `HH:MM` window bounds |
| Scheduler.ConfigFieldsBuild | position_server/config.py:23-60 | a shipped config's fields build to the parameters they spell |
| Scheduler.ShippedParamsWellFormed | position_server/config.py:23-60 | the shipped parameters are well formed |
| Scheduler.ConfigDatesValid | position_server/config.py:26-27 | the shipped dates are valid `%Y%m%d` dates |
| Scheduler.StartAllWorkers | position_server/scheduler.py:30-54 | every config name gets an initial status and nothing else does; the server reports running |
| Curl.BaseUrl | position_server/utils.py:32 | the URL is protocol, `://`, host and path, in that order |
| Curl.QueryFields | position_server/utils.py:35-36 | the query has the four parameter names in field order |
| Curl.Encode | position_server/utils.py:34-38 | an encoded text holds none of the characters that split or end a query value |
| Curl.GenerateCurlCommandAsWritten | position_server/utils.py:23-46 | no parameters or an unsupported method give no command; GET puts the raw parameters in the query; POST sends the parameters and section parameters as a JSON body |
| Curl.RawQuerySplitsAmpersand | position_server/utils.py:34-38 | the unescaped query turns book `A&B` into `books=A` plus a stray argument `B` |
| Curl.GenerateCurlCommand | position_server/utils.py:23-46 | as above, with the GET query percent-encoded |
| Curl.UnquoteEncode | position_server/utils.py:34-38 | decoding an encoded text gives it back |
| Curl.EncodedQueryRoundTrip | position_server/utils.py:34-38 | parsing an encoded query gives back its name/value pairs |
| Curl.PlainQueryIsEncoded | position_server/utils.py:34-38 | when no value needs escaping, the encoded query equals the raw one |
| Curl.ReplayGet | position_server/utils.py:34-38 | replaying the encoded GET command of well-formed parameters whose books hold no control characters extracts those parameters |
| Curl.BlankControls | position_server/params.py:42-45 | each control character in `\x00`-`\x08` or `\x0e`-`\x1f` becomes a space and every other character is kept |
| Curl.CleanSettled | position_server/params.py:42-45 | a stripped value without control characters reaches the handler unchanged |
| Curl.CleanControl | position_server/params.py:42-45 | a control character inside a value reaches the handler as a space |
| Curl.DateSettled | position_server/params.py:42-43 | a valid date reaches the handler unchanged |
| Curl.ArgumentLast | position_server/params.py:42-45 | a repeated query argument reads as its last value |
| CommonValidation.CheckSection | validation/common.py:22-29 | `section` passes iff it is a string that is `all` or a known section, and is kept as given; a failure is one error located at `section`, whose message is `Field required` when it is absent, `Input should be a valid string` for a non-string, and otherwise the `Value error, Invalid section '…'. Must be 'all' or one of: [...]` text of `BadSectionMessage` |
| CommonValidation.CheckTimeOfDay | validation/common.py:17 | `time_of_day` passes iff it is the string Live, Open or Close, kept as given; a failure is one error located at `time_of_day`, whose message is `Field required` when it is absent and `Input should be 'Live', 'Open' or 'Close'` for any other value |
| CommonValidation.NonBlankStripped | validation/common.py:36 | every kept piece is stripped and non-empty |
| CommonValidation.NonBlankStrippedMembers | validation/common.py:36 | a piece is kept iff it is non-blank, and it is kept stripped |
| CommonValidation.BooksBefore | validation/common.py:31-44 | a string is split on commas into its non-blank stripped pieces and a list is taken as given; anything else, and an empty result, are rejected with their messages |
| CommonValidation.ItemErrors | validation/common.py:18 | one error per non-string item, located at its index |
| CommonValidation.CheckBooks | validation/common.py:18-44 | books pass iff the before-validator accepts them and every item is a string; the result is those strings, non-empty; every failure is located under `books` |
| CommonValidation.BooksFromText | validation/common.py:34-36 | comma text gives its non-blank stripped pieces |
| CommonValidation.BooksFromList | validation/common.py:37-38 | a list of strings is accepted unchanged |
| CommonValidation.BlankBooksRefused | validation/common.py:42-43 | an empty or all-blank books text is rejected as empty |
| CommonValidation.CheckDate | validation/common.py:46-53 | a date passes iff it is a string that `strptime` accepts as `%Y%m%d`, kept as given; a failure is one error located at the field, whose message is `Field required` when it is absent, `Input should be a valid string` for a non-string, and otherwise the `Value error, Date must be in format %Y%m%d, got '…'` text of `BadDateMessage` |
| CommonValidation.ValidateCommon | validation/common.py:12-53 | success iff all five fields pass; the errors of the failing fields are listed in field order; accepted values are kept, and the books are those the books validator produces |
| CommonValidation.ErrorsInFieldOrder | validation/common.py:16-20 | when `section` fails, its error is the first one reported |
| Pydantic.ParseFloat | validation/validator.py:133 | the text parses iff, once stripped and without its sign, it is a decimal with at most one point and at least one digit; the value is that decimal, negated after a `-` |
| Pydantic.ParseFloatSigned | validation/validator.py:133 | a `+` sign changes nothing and a `-` sign negates the value |
| Pydantic.ParseFloatOfDigits | validation/validator.py:133 | a digit string parses to its number |
| Pydantic.CoerceFloat | validation/sections.py:10-26 | a float field accepts exactly ints, floats, bools and numeric strings, and keeps floats unchanged |
| Pydantic.CoerceBool | validation/sections.py:29-31 | a bool field accepts bools unchanged; a string iff its lower-case form is a known true or false word, giving that truth value, else "unable to interpret input"; an int only if 0 or 1; a float with a fractional part is "not a valid boolean", and a whole float is read as the int it equals; None, lists and dicts are "not a valid boolean" |
| Pydantic.FloatBoolErrors | validation/sections.py:29-31 | `0.5` is not a valid boolean, `2.0` cannot be interpreted, `1.0` is true |
| Pydantic.CoerceStr | validation/sections.py:23-26 | a str field accepts exactly strings, unchanged |
| Pydantic.ValidateField | validation/sections.py:10-31 | a field passes iff its value is acceptable; a missing required field is reported as required; a missing optional field is None |
| Pydantic.ValidateModel | validation/sections.py:10-31 | success iff every field passes; the result has the schema's field names in order, each holding its validated value; a failure has at least one error |
| Pydantic.ModelErrors | validation/sections.py:10-31 | the errors of a failing model are one per failing field, in field order, each located at its field with that field's message |
| Pydantic.FailingFieldsMembers | validation/sections.py:10-31 | a field is among the failing ones iff it is in the schema and rejects its value |
| Pydantic.AllOptionalAcceptsEmpty | validation/sections.py:10-26 | a model of optional fields accepts `{}` with every field None |
| Pydantic.RequiredFieldMissing | validation/sections.py:29-31 | a missing required field makes validation fail and is reported as required |
| SectionSchemas.SectionParamsMapShape | validation/sections.py:35-40 | the map's keys are the four known sections and each schema has distinct field names |
| SectionSchemas.SchemaFieldNames | validation/sections.py:10-31 | each schema's field names, in order |
| SectionSchemas.EmptyGivesAllNone | validation/sections.py:10-26 | validating `{}` against an all-optional schema gives every field None |
| SectionSchemas.OptionalSectionsAcceptEmpty | validation/sections.py:10-26 | futures, bonds and ir_delta accept `{}`, each giving its fields as None |
| SectionSchemas.NewTradesRequiresFlag | validation/sections.py:29-31 | new_trades without `include_tplus1` fails with exactly one error: that field is required |
| Validator.RawParams | handlers/base.py:21-49 | the request record has `method` and then `query_params` for GET or `body` for POST |
| Validator.SourceOfRequest | validation/validator.py:20-27 | for a handler-built request, the parameters are the GET query or the POST body |
| Validator.ValidateCommonParams | validation/validator.py:14-37 | a non-dict source raises TypeError; otherwise success iff the common parameters pass; on failure the message is the prefix followed by the located errors joined with `; ` |
| Validator.MissingSectionReported | validation/validator.py:29-37 | a GET query without `section` fails with a ValidationError whose message starts `Invalid common parameters: section: Field required` |
| Validator.ResolveSections | validation/validator.py:40-47 | `all` gives every known section in order; any other name gives itself alone |
| Validator.ResolvedSectionsKnown | validation/validator.py:40-47 | a validated section resolves only to known sections |
| Validator.PyFloat | validation/validator.py:133 | `float()` of a string is its parsed value; an int n gives n.0, True and False give 1.0 and 0.0, a float is kept, and None, a list or a dict give no value |
| Validator.ConvertValue | validation/validator.py:130-141 | converting raises (the `lower` AttributeError) exactly for a bool field holding a non-string |
| Validator.PresentNames | validation/validator.py:112-114 | the schema fields the parameters hold, in schema order |
| Validator.ConvertGetParams | validation/validator.py:106-143 | success iff no present bool field holds a non-string, failing with AttributeError otherwise; the result has exactly the present schema fields, in schema order |
| Validator.ConvertedValues | validation/validator.py:111-143 | a bool field becomes whether the lower-cased text is true, 1 or yes; a float field becomes the parsed float, or keeps a text that does not parse; a str field is kept |
| Validator.FilterBeforeConvert | validation/validator.py:85-90 | filtering the query to the schema fields before converting changes nothing |
| Validator.SectionInputOf | validation/validator.py:57-70 | a GET uses its query for every section; otherwise `section_params` of the body, or `{}` when absent; a body that is not a dict raises the `get` AttributeError |
| Validator.CheckSection | validation/validator.py:75-98 | a section with no schema is rejected with its message; an unreadable input or a non-mapping fails; otherwise the section is accepted with the validated model exactly when the model validates, and each model error is reported as `Section 's', field: msg` |
| Validator.Collect | validation/validator.py:72-98 | the loop finishes iff every section is checked without an exception; its error list is empty iff every section is accepted |
| Validator.CollectErrorsInOrder | validation/validator.py:72-101 | the error list is the rejected sections' messages concatenated in section order |
| Validator.CollectKeys | validation/validator.py:72-103 | the validated map has distinct keys: exactly the accepted sections, each holding its model |
| Validator.CollectErrors | validation/validator.py:75-101 | the error list is empty iff every section was accepted: no error stops the loop |
| Validator.ValidateSectionParams | validation/validator.py:50-103 | success iff the input is readable and every section is accepted, with the sections as keys, each mapping to its validated model; an unreadable input raises its error; otherwise ValidationError `Invalid section parameters: ` followed by the rejected sections' messages, in section order, joined with `; ` |
| Validator.NestedAbsentSectionUsesEmpty | validation/validator.py:63-82 | a POST without parameters for a section validates that section against `{}` |
| Validator.QuerySharedAcrossSections | validation/validator.py:58-90 | a GET's query is offered to every section |
| Registry.GetSection | sections/registry.py:27-35 | a registered name gives its section; any other raises KeyError `Unknown section: name` |
| Registry.RegistryNamesItself | sections/registry.py:19-24 | each registered section's own name is its key |
| Registry.RegistryAgreesWithConfig | sections/registry.py:1-24 | the registry, the section-parameter map and the configured section list name the same sections, and each section's parameter model is the mapped schema |
| Registry.ValidSectionsResolve | sections/registry.py:27-35 | every configured section name resolves |
| RequestCache.GetCache | cache/cache.py:22-26 | a TTL's store is created empty if absent and otherwise kept |
| RequestCache.Get | cache/cache.py:28-31 | reading gives the entry under the TTL's store, if any |
| RequestCache.Set | cache/cache.py:33-36 | the TTL store exists afterwards and its keys gain the key; what is read back is stated by SetThenGet and SetLeavesOthers |
| RequestCache.SetThenGet | cache/cache.py:28-36 | reading a key just set under the same TTL gives the value |
| RequestCache.SetLeavesOthers | cache/cache.py:33-36 | setting one key or TTL does not change what others read |
| RequestCache.GetKeepsEntries | cache/cache.py:28-31 | reading does not change any entry |
| RequestCache.Clear | cache/cache.py:38-40 | clearing drops every TTL store |
| RequestCache.ClearForgets | cache/cache.py:38-40 | after clearing nothing is found |
| RequestCache.NormalisedPermutation | cache/cache.py:49 | requests with distinct keys that are permutations of each other normalise equally |
| RequestCache.CacheKeyIgnoresOrder | cache/cache.py:43-50 | the cache key does not depend on the order of the request's members |
| RequestCache.SortKeysObjectPerm | cache/cache.py:43-50 | `sort_keys=True` makes a dict's JSON text independent of its members' order, at every depth |
| RequestCache.GetKeyIgnoresQueryOrder | handlers/base.py:21-35 | a GET's cache key, built from `{"method": "GET", "query_params": {...}}`, does not depend on the order of the query arguments |
| RequestCache.GetTtlForSections | cache/cache.py:53-62 | no sections gives the default TTL; otherwise the TTL of some section that is no greater than any other's |
| RequestCache.TtlValues | cache/cache.py:53-62 | the TTL is always 30 or 60, and 30 when every configured section is requested |
| StorageModels.NewContext | storage/models.py:14-20 | a new record holds its three given fields and the defaults `{}`, empty text, 0 and false |
| StorageModels.ToDict | storage/models.py:22-32 | the dict has distinct keys in the order request_id, timestamp, duration_ms, cached, request_data, response_data, error_stack |
| StorageModels.Subscript | storage/models.py:38-42 | `d[key]` gives the value, or raises KeyError whose argument is the bare key |
| StorageModels.FromDict | storage/models.py:34-45 | the three required keys are demanded in order request_id, timestamp, request_data, and their values are taken from the dict; the rest default when absent |
| StorageModels.FromToDict | storage/models.py:22-45 | reading back a record's dict gives the record |
| StorageModels.FromDictDefaults | storage/models.py:34-45 | a dict with only the required keys gives a record with the defaults |
| PyValue.Put | validation/validator.py:93 | assigning a key keeps the key order and appends a new key |
| PyValue.PutLookup | validation/validator.py:93 | after assignment the key reads the new value and other keys read as before |
| PyValue.PutUnique | validation/validator.py:93 | assignment keeps keys distinct |

## Left out

- Tornado's query parsing is modelled for the replay round trip: splitting on `&` and `=`, `unquote_plus` of ASCII escapes, the last value winning, control characters blanked and the value stripped. Decoding non-ASCII bytes from UTF-8 is not modelled.
- `Validator.RawParams` takes the GET query as the dict `parse_get_params` builds. Its `get_argument` calls, which clean each value as above, are not modelled again.
- `Curl.ReplayGet`: the round trip is stated only for books without control characters. The server blanks such a character, so a book like `A\x01B` reads back as `A B` (`Curl.CleanControl`), and the command does not replay it.
- `Curl.GenerateCurlCommand`: shell and curl are not modelled. The POST body goes between single quotes as `json.dumps` writes it, so a `'` in a book ends the argument early. In a GET, `[ ] { }` are not escaped, and curl reads them as URL globs unless given `-g`. `Curl.ReplayGet` states only what the server parses from the encoded query.
- `Curl.Encode` is the corrected command's own escaping: `&`, `=`, `+`, `%`, `#`, `'` and the space become `%XX`, and every other character is written as it is. Non-ASCII characters are not turned into UTF-8 escapes.
- `Json.Repr`: non-ASCII characters are written as they are. Python escapes the non-printable ones, such as `\x85` or `\u2028`.
- `Pydantic.ParseFloat`: Python `float()` text is modelled as an optionally signed plain decimal of ASCII digits. The exponent form, `inf`/`nan`, `_` separators and non-ASCII Unicode decimal digits are not modelled.
- `Validator.PyFloat`: `float()` of a string goes through `Pydantic.ParseFloat`, so it too takes ASCII digits only. CPython also accepts other Unicode decimal digits, such as Arabic-Indic ones.
- `Validator.NotMapping`: the Python TypeError for `Model(**x)` starts with the callee's qualified name, and the model leaves that out. The same goes for SectionRunner's two TypeErrors: Python writes `get_futures() argument after ** must be a mapping, not T` and `get_futures() got multiple values for keyword argument 'params'`, and the model keeps only the text after the callee's name.
- `SectionRunner.FormatExc`: the traceback frames are a parameter. The traceback text itself is not modelled.
- Threads, locks, `time.sleep`, the interval loop and clock readings are left out. Times and durations are parameters.
- `RequestCache`: TTL expiry and `maxsize` eviction by `cachetools.TTLCache` are not modelled. An entry stays until cleared.
- `RequestCache.CacheKeyIgnoresOrder`: SHA-256 is a parameter. The statement is about the serialised text handed to it, so it covers member order only. It does not cover hash collisions.
- `PositionCache.GetCacheInfo`: entries hold the key tuple itself, not `str()` of it.
- `Json`: floats are written as plain decimals. Python's exponent form for very large or small values is not modelled.
- The request handlers, the orchestrator's event loop and `run_in_executor` are not modelled. Neither is JSON response writing. Only the validation and fetching they delegate to is modelled.
- The pos_env mock sections' `execute` bodies and `storage/file_store.py` are not part of this model. They are mock data and file I/O.
- `uuid` request ids and `now_iso` timestamps are inputs.
- `PositionParams.CheckDate`: strptime is modelled for ASCII digits only. CPython also accepts other Unicode decimal digits.
- `Dates.Strptime`: `%Y`, `%m` and `%d` match ASCII digits only. CPython's `_strptime` builds them from `\d`, which also matches other Unicode decimal digits.
- `CommonValidation.CheckDate`: it uses `Dates.Strptime`, so a date written with non-ASCII Unicode digits is refused here, where CPython accepts it.

## Findings

| source | as written | input that shows it | evidently intended | confidence | as-written member | corrected member |
|---|---|---|---|---|---|---|
| position_server/utils.py:34-38 | the GET curl command joins `name=value` pairs without escaping | book `A&B`: the replayed query reads `books=A` and a stray argument `B` | a command that replays the same request | not executed | Curl.GenerateCurlCommandAsWritten, Curl.RawQuerySplitsAmpersand | Curl.GenerateCurlCommand, Curl.ReplayGet |

=== FILE: common_params.dfy ===
/** `validation/common.py`: the `CommonParams` model. Its five fields are
    validated in declaration order (section, time_of_day, books, pos_date,
    env_date) and every failing field contributes its errors. */
module CommonValidation {
  import opened Wrappers
  import opened PyValue
  import Strings
  import Dates
  import opened Pydantic
  import PosEnvConfig

  datatype CommonParams = CommonParams(
    section: string,
    timeOfDay: string,
    books: seq<string>,
    posDate: string,
    envDate: string)

  /** `repr()` of a list of strings, as an f-string writes it. */
  function ReprStrList(xs: seq<string>): string {
    "[" + Strings.Join(seq(|xs|, i requires 0 <= i < |xs| => "'" + xs[i] + "'"), ", ") + "]"
  }

  function FieldError(name: string, msg: string): seq<ErrorDetail> {
    [ErrorDetail([Field(name)], msg)]
  }

  // ---------------------------------------------------------------------
  // section

  predicate AcceptableSection(s: string) {
    s == "all" || s in PosEnvConfig.ValidSections
  }

  /** The `ValueError` `validate_section` raises, as pydantic reports it. */
  function BadSectionMessage(s: string): (m: string)
    ensures |m| > 13 && m[..13] == "Value error, "
  {
    ValueError("Invalid section '" + s + "'. Must be 'all' or one of: " + ReprStrList(PosEnvConfig.ValidSections))
  }

  /** `section: str` with `validate_section` after it. */
  function CheckSection(given: Option<Value>): (r: Result<string, seq<ErrorDetail>>)
    ensures r.Success? <==> given.Some? && given.value.Str? && AcceptableSection(given.value.s)
    ensures r.Success? ==> r.value == given.value.s
    ensures r.Failure? ==> |r.error| == 1 && r.error[0].loc == [Field("section")]
    ensures given.None? ==> r.Failure? && r.error[0].msg == FieldRequired
    ensures given.Some? && !given.value.Str? ==> r.Failure? && r.error[0].msg == NotString
    ensures given.Some? && given.value.Str? && !AcceptableSection(given.value.s) ==>
              r.Failure? && r.error[0].msg == BadSectionMessage(given.value.s)
  {
    match given
    case None => Failure(FieldError("section", FieldRequired))
    case Some(v) =>
      if !v.Str? then Failure(FieldError("section", NotString))
      else if !AcceptableSection(v.s) then
        Failure(FieldError("section", BadSectionMessage(v.s)))
      else Success(v.s)
  }

  // ---------------------------------------------------------------------
  // time_of_day

  /** `time_of_day: Literal["Live", "Open", "Close"]`: exact strings only. */
  function CheckTimeOfDay(given: Option<Value>): (r: Result<string, seq<ErrorDetail>>)
    ensures r.Success? <==> given.Some? && given.value.Str? && given.value.s in PosEnvConfig.TimeOfDayValues
    ensures r.Success? ==> r.value == given.value.s
    ensures r.Failure? ==> |r.error| == 1 && r.error[0].loc == [Field("time_of_day")]
    ensures given.None? ==> r.Failure? && r.error[0].msg == FieldRequired
    ensures given.Some? && r.Failure? ==> r.error[0].msg == "Input should be 'Live', 'Open' or 'Close'"
  {
    match given
    case None => Failure(FieldError("time_of_day", FieldRequired))
    case Some(v) =>
      if v.Str? && v.s in PosEnvConfig.TimeOfDayValues then Success(v.s)
      else Failure(FieldError("time_of_day", "Input should be 'Live', 'Open' or 'Close'"))
  }

  // ---------------------------------------------------------------------
  // books

  /** `[b.strip() for b in pieces if b.strip()]`. */
  function NonBlankStripped(pieces: seq<string>): (r: seq<string>)
    ensures |r| <= |pieces|
    ensures forall b :: b in r ==> b != "" && Strings.Trimmed(b)
  {
    if |pieces| == 0 then []
    else
      var head := Strings.Strip(pieces[0]);
      var rest := NonBlankStripped(pieces[1..]);
      if head != "" then
        assert forall b :: b in [head] + rest ==> b == head || b in rest;
        [head] + rest
      else rest
  }

  /** Every piece that is not blank contributes its stripped text, and
      nothing else is kept. */
  lemma {:induction false} NonBlankStrippedMembers(pieces: seq<string>)
    ensures forall p :: p in pieces && !Strings.AllSpace(p) ==> Strings.Strip(p) in NonBlankStripped(pieces)
    ensures forall b :: b in NonBlankStripped(pieces) ==> exists p :: p in pieces && b == Strings.Strip(p)
  {
    if |pieces| > 0 {
      NonBlankStrippedMembers(pieces[1..]);
      Strings.StripEmpty(pieces[0]);
      assert pieces == [pieces[0]] + pieces[1..];
      forall b | b in NonBlankStripped(pieces)
        ensures exists p :: p in pieces && b == Strings.Strip(p)
      {
        if b in NonBlankStripped(pieces[1..]) {
          var p :| p in pieces[1..] && b == Strings.Strip(p);
          assert p in pieces;
        } else {
          assert pieces[0] in pieces;
        }
      }
    }
  }

  /** The books of a comma-separated string. */
  function BooksOfText(s: string): seq<string> {
    NonBlankStripped(Strings.Split(s, ','))
  }

  /** `validate_books`, the `mode="before"` validator: a string is split
      and cleaned, a list passes through untouched, anything else is
      refused; an empty result is refused. */
  function BooksBefore(v: Value): (r: Result<seq<Value>, string>)
    ensures v.Str? ==> (r.Success? <==> BooksOfText(v.s) != [])
    ensures v.Str? && r.Success? ==> r.value == StrList(BooksOfText(v.s)).items
    ensures v.List? ==> (r.Success? <==> v.items != []) && (r.Success? ==> r.value == v.items)
    ensures !v.Str? && !v.List? ==> r == Failure(ValueError("books must be a string or list"))
    ensures r.Failure? ==> r.error == ValueError("books must be a string or list") || r.error == ValueError("books cannot be empty")
  {
    var books :=
      if v.Str? then Success(StrList(BooksOfText(v.s)).items)
      else if v.List? then Success(v.items)
      else Failure(ValueError("books must be a string or list"));
    if books.Failure? then Failure(books.error)
    else if books.value == [] then Failure(ValueError("books cannot be empty"))
    else Success(books.value)
  }

  /** One error per item of a list that is not a string, located at its index. */
  function ItemErrors(items: seq<Value>, from: nat): (es: seq<ErrorDetail>)
    ensures |es| == 0 <==> forall i :: 0 <= i < |items| ==> items[i].Str?
    ensures forall e :: e in es ==> e.msg == NotString && |e.loc| == 2 && e.loc[0] == Field("books")
    decreases |items|
  {
    if |items| == 0 then []
    else (if items[0].Str? then [] else [ErrorDetail([Field("books"), Index(from)], NotString)]) + ItemErrors(items[1..], from + 1)
  }

  /** `books: list[str]` behind `validate_books`. */
  function CheckBooks(given: Option<Value>): (r: Result<seq<string>, seq<ErrorDetail>>)
    ensures r.Success? <==> (given.Some? && BooksBefore(given.value).Success? &&
      forall i :: 0 <= i < |BooksBefore(given.value).value| ==> BooksBefore(given.value).value[i].Str?)
    ensures r.Success? ==> |r.value| == |BooksBefore(given.value).value| && |r.value| > 0
    ensures r.Success? ==> forall i :: 0 <= i < |r.value| ==> Str(r.value[i]) == BooksBefore(given.value).value[i]
    ensures r.Failure? ==> |r.error| > 0 && forall e :: e in r.error ==> |e.loc| > 0 && e.loc[0] == Field("books")
  {
    match given
    case None => Failure(FieldError("books", FieldRequired))
    case Some(v) =>
      match BooksBefore(v)
      case Failure(msg) => Failure(FieldError("books", msg))
      case Success(items) =>
        var errors := ItemErrors(items, 0);
        if errors != [] then Failure(errors)
        else Success(seq(|items|, i requires 0 <= i < |items| => items[i].s))
  }

  /** A comma-separated `books` string is accepted exactly when some piece
      is not blank, and yields the stripped non-blank pieces in order. */
  lemma BooksFromText(s: string)
    ensures CheckBooks(Some(Str(s))).Success? <==> BooksOfText(s) != []
    ensures CheckBooks(Some(Str(s))).Success? ==> CheckBooks(Some(Str(s))).value == BooksOfText(s)
  {
    var bs := BooksOfText(s);
    var before := BooksBefore(Str(s));
    if bs != [] {
      assert before == Success(StrList(bs).items);
      assert forall i :: 0 <= i < |before.value| ==> before.value[i] == Str(bs[i]);
      var r := CheckBooks(Some(Str(s)));
      assert r.Success?;
      assert |r.value| == |bs|;
      assert forall i :: 0 <= i < |bs| ==> r.value[i] == bs[i] by {
        forall i | 0 <= i < |bs| ensures r.value[i] == bs[i] {
          assert Str(r.value[i]) == before.value[i];
        }
      }
    }
  }

  /** A list of strings is taken as it is: not stripped, not filtered. */
  lemma BooksFromList(bs: seq<string>)
    requires bs != []
    ensures CheckBooks(Some(StrList(bs))) == Success(bs)
  {
    var r := CheckBooks(Some(StrList(bs)));
    assert r.Success?;
    assert r.value == bs;
  }

  /** `""` and `" , "` are both refused as empty. */
  lemma BlankBooksRefused()
    ensures CheckBooks(Some(Str(""))) == Failure(FieldError("books", ValueError("books cannot be empty")))
    ensures CheckBooks(Some(Str(" , "))) == Failure(FieldError("books", ValueError("books cannot be empty")))
  {
    assert Strings.Split("", ',') == [""];
    assert Strings.Strip("") == "";
    Strings.SplitJoin([" ", " "], ',');
    assert Strings.Join([" ", " "], [',']) == " , ";
    assert Strings.AllSpace(" ");
    Strings.StripEmpty(" ");
    assert NonBlankStripped([" ", " "]) == [] by {
      assert [" ", " "][1..] == [" "];
      assert [" "][1..] == [];
    }
  }

  // ---------------------------------------------------------------------
  // pos_date, env_date

  /** The `ValueError` `validate_date` raises, as pydantic reports it. */
  function BadDateMessage(s: string): (m: string)
    ensures |m| > 13 && m[..13] == "Value error, "
  {
    ValueError("Date must be in format " + PosEnvConfig.DateFormat + ", got '" + s + "'")
  }

  /** `pos_date: str` / `env_date: str` with `validate_date` after it. */
  function CheckDate(name: string, given: Option<Value>): (r: Result<string, seq<ErrorDetail>>)
    ensures r.Success? <==> given.Some? && given.value.Str? && Dates.ValidDate(given.value.s)
    ensures r.Success? ==> r.value == given.value.s
    ensures r.Failure? ==> |r.error| == 1 && r.error[0].loc == [Field(name)]
    ensures given.None? ==> r.Failure? && r.error[0].msg == FieldRequired
    ensures given.Some? && !given.value.Str? ==> r.Failure? && r.error[0].msg == NotString
    ensures given.Some? && given.value.Str? && !Dates.ValidDate(given.value.s) ==>
              r.Failure? && r.error[0].msg == BadDateMessage(given.value.s)
  {
    match given
    case None => Failure(FieldError(name, FieldRequired))
    case Some(v) =>
      if !v.Str? then Failure(FieldError(name, NotString))
      else if !Dates.ValidDate(v.s) then
        Failure(FieldError(name, BadDateMessage(v.s)))
      else Success(v.s)
  }

  // ---------------------------------------------------------------------
  // The model.

  function ErrorsOf<T>(r: Result<T, seq<ErrorDetail>>): seq<ErrorDetail> {
    if r.Failure? then r.error else []
  }

  /** `CommonParams(**params)` for a dict `params`: keys outside the model
      are ignored. */
  function ValidateCommon(params: Dict): (r: Result<CommonParams, seq<ErrorDetail>>)
    ensures r.Success? <==>
      && CheckSection(Lookup(params, "section")).Success?
      && CheckTimeOfDay(Lookup(params, "time_of_day")).Success?
      && CheckBooks(Lookup(params, "books")).Success?
      && CheckDate("pos_date", Lookup(params, "pos_date")).Success?
      && CheckDate("env_date", Lookup(params, "env_date")).Success?
    ensures r.Failure? ==> (r.error ==
      ErrorsOf(CheckSection(Lookup(params, "section")))
      + ErrorsOf(CheckTimeOfDay(Lookup(params, "time_of_day")))
      + ErrorsOf(CheckBooks(Lookup(params, "books")))
      + ErrorsOf(CheckDate("pos_date", Lookup(params, "pos_date")))
      + ErrorsOf(CheckDate("env_date", Lookup(params, "env_date"))))
    ensures r.Success? ==>
      && r.value.section == Lookup(params, "section").value.s
      && r.value.timeOfDay == Lookup(params, "time_of_day").value.s
      && r.value.posDate == Lookup(params, "pos_date").value.s
      && r.value.envDate == Lookup(params, "env_date").value.s
      && r.value.books == CheckBooks(Lookup(params, "books")).value
  {
    var section := CheckSection(Lookup(params, "section"));
    var timeOfDay := CheckTimeOfDay(Lookup(params, "time_of_day"));
    var books := CheckBooks(Lookup(params, "books"));
    var posDate := CheckDate("pos_date", Lookup(params, "pos_date"));
    var envDate := CheckDate("env_date", Lookup(params, "env_date"));
    if section.Success? && timeOfDay.Success? && books.Success? && posDate.Success? && envDate.Success? then
      Success(CommonParams(section.value, timeOfDay.value, books.value, posDate.value, envDate.value))
    else
      Failure(ErrorsOf(section) + ErrorsOf(timeOfDay) + ErrorsOf(books) + ErrorsOf(posDate) + ErrorsOf(envDate))
  }

  /** The errors come out in field order, whatever the order of the keys. */
  lemma ErrorsInFieldOrder(params: Dict)
    requires ValidateCommon(params).Failure?
    requires CheckSection(Lookup(params, "section")).Failure?
    ensures ValidateCommon(params).error[0].loc == [Field("section")]
  {
  }
}

=== FILE: curl.dfy ===
/** `generate_curl_command` (`position_server/utils.py`): the shell command
    that replays a request, and the query-string parser a replayed GET
    meets on the server side, so that replay can be stated as a round
    trip. */
module Curl {
  import opened Wrappers
  import opened PyValue
  import Strings
  import Json
  import opened PositionParams

  /** The parts of the incoming request the command is built from; `verb`
      is `request.method`. */
  datatype Request = Request(protocol: string, host: string, path: string, verb: string)

  /** `f"{request.protocol}://{request.host}{request.path}"`. */
  function BaseUrl(r: Request): (u: string)
    ensures |u| == |r.protocol| + 3 + |r.host| + |r.path|
    ensures u[..|r.protocol|] == r.protocol
    ensures u[|r.protocol|..|r.protocol| + 3] == "://"
    ensures u[|r.protocol| + 3..] == r.host + r.path
  {
    r.protocol + "://" + r.host + r.path
  }

  // ---------------------------------------------------------------------
  // The GET query.

  /** `params.to_dict()` with `books` joined by `,`, as (key, text) pairs
      in the dict's order. */
  function QueryFields(p: BaseParams): (fs: seq<(string, string)>)
    ensures |fs| == 4
    ensures forall i :: 0 <= i < 4 ==> fs[i].0 == Keys(ToDict(p))[i]
  {
    [("env_date", p.envDate), ("pos_date", p.posDate), ("books", Strings.Join(p.books, ",")), ("time_of_day", p.timeOfDay)]
  }

  /** `f"{k}={v}"` for each pair. */
  function RawPieces(fs: seq<(string, string)>): (ps: seq<string>)
    ensures |ps| == |fs|
  {
    seq(|fs|, i requires 0 <= i < |fs| => fs[i].0 + "=" + fs[i].1)
  }

  /** `"&".join(f"{k}={v}" for k, v in p.items())`: nothing is escaped. */
  function RawQuery(fs: seq<(string, string)>): string {
    Strings.Join(RawPieces(fs), "&")
  }

  /** The characters that change meaning inside the quoted URL: the query
      parser's `&`, `=`, `+` and `%`, the fragment mark `#`, the space, and
      the shell's closing `'`. */
  predicate Special(c: char) {
    c == '&' || c == '=' || c == '+' || c == '%' || c == '#' || c == ' ' || c == '\''
  }

  function UpperHex(n: nat): char
    requires n < 16
  {
    if n < 10 then ('0' as int + n) as char else ('A' as int + n - 10) as char
  }

  /** `%XX` for a special character, the character itself otherwise. */
  function EncodeChar(c: char): (e: string)
    ensures !Special(c) ==> e == [c]
    ensures Special(c) ==> |e| == 3 && e[0] == '%'
  {
    if Special(c) then ['%', UpperHex(c as int / 16), UpperHex(c as int % 16)] else [c]
  }

  /** Percent-encoding of the special characters. */
  function Encode(s: string): (e: string)
    ensures forall i :: 0 <= i < |e| ==> e[i] != '&' && e[i] != '=' && e[i] != '+' && e[i] != '#' && e[i] != ' ' && e[i] != '\''
  {
    if |s| == 0 then "" else EncodeChar(s[0]) + Encode(s[1..])
  }

  /** The escaped `k=v` piece of each pair. */
  function EncodedPieces(fs: seq<(string, string)>): (ps: seq<string>)
    ensures |ps| == |fs|
    ensures forall i :: 0 <= i < |fs| ==> ps[i] == Encode(fs[i].0) + "=" + Encode(fs[i].1)
  {
    seq(|fs|, i requires 0 <= i < |fs| => Encode(fs[i].0) + "=" + Encode(fs[i].1))
  }

  /** The query with keys and values percent-encoded. */
  function EncodedQuery(fs: seq<(string, string)>): string {
    Strings.Join(EncodedPieces(fs), "&")
  }

  // ---------------------------------------------------------------------
  // What the server makes of a query string: `parse_qs_bytes` with blank
  // values kept, then `get_query_argument`'s last value, cleaned.

  function HexValue(c: char): Option<nat> {
    if '0' <= c <= '9' then Some(c as int - '0' as int)
    else if 'A' <= c <= 'F' then Some(c as int - 'A' as int + 10)
    else if 'a' <= c <= 'f' then Some(c as int - 'a' as int + 10)
    else None
  }

  /** `unquote_plus` for escapes of ASCII characters: `+` is a space and
      `%XX` the character with that code; anything else is kept. */
  function Unquote(s: string): string {
    if |s| == 0 then ""
    else if s[0] == '+' then " " + Unquote(s[1..])
    else if s[0] == '%' && |s| >= 3 && HexValue(s[1]).Some? && HexValue(s[2]).Some?
         && 16 * HexValue(s[1]).value + HexValue(s[2]).value < 128 then
      [(16 * HexValue(s[1]).value + HexValue(s[2]).value) as char] + Unquote(s[3..])
    else [s[0]] + Unquote(s[1..])
  }

  /** One `name=value` piece: split at the first `=`; with none, the value
      is blank. */
  function ParsePiece(piece: string): (string, string) {
    if '=' in piece then
      var i := Strings.IndexOf(piece, '=');
      (Unquote(piece[..i]), Unquote(piece[i + 1..]))
    else (Unquote(piece), "")
  }

  /** Empty pieces (`a&&b`) are skipped. */
  function ParsePieces(pieces: seq<string>): seq<(string, string)> {
    if |pieces| == 0 then []
    else if pieces[0] == "" then ParsePieces(pieces[1..])
    else [ParsePiece(pieces[0])] + ParsePieces(pieces[1..])
  }

  function ParseQuery(qs: string): seq<(string, string)> {
    ParsePieces(Strings.Split(qs, '&'))
  }

  /** The last value given for the name, as parsed. */
  function LastValue(fs: seq<(string, string)>, name: string): Option<string> {
    if |fs| == 0 then None
    else if fs[|fs| - 1].0 == name then Some(fs[|fs| - 1].1)
    else LastValue(fs[..|fs| - 1], name)
  }

  /** The control characters Tornado's argument getters blank out:
      `[\x00-\x08\x0e-\x1f]`. Tab, newline and the other whitespace
      controls are kept. */
  predicate ControlChar(c: char) {
    '\U{0}' <= c <= '\U{8}' || '\U{e}' <= c <= '\U{1f}'
  }

  /** Each control character replaced by a space. */
  function BlankControls(s: string): (r: string)
    ensures |r| == |s|
    ensures forall i :: 0 <= i < |s| && ControlChar(s[i]) ==> r[i] == ' '
    ensures forall i :: 0 <= i < |s| && !ControlChar(s[i]) ==> r[i] == s[i]
  {
    seq(|s|, i requires 0 <= i < |s| => if ControlChar(s[i]) then ' ' else s[i])
  }

  /** What a handler receives for a value: control characters blanked,
      then `strip()`. */
  function CleanValue(v: string): (r: string)
    ensures Strings.Trimmed(r)
  {
    Strings.Strip(BlankControls(v))
  }

  /** `get_query_argument(name, None)`: the last value given for the name,
      cleaned. */
  function Argument(fs: seq<(string, string)>, name: string): Option<string> {
    match LastValue(fs, name)
    case None => None
    case Some(v) => Some(CleanValue(v))
  }

  /** Text the cleaning leaves alone. */
  predicate Settled(s: string) {
    Strings.Trimmed(s) && forall i :: 0 <= i < |s| ==> !ControlChar(s[i])
  }

  // ---------------------------------------------------------------------
  // The command.

  /** The JSON body of a replayed POST: the parameters, plus
      `section_params` when they are truthy. */
  function PostBody(p: BaseParams, sectionParams: Value): (d: Dict)
    ensures Truthy(sectionParams) ==> Keys(d) == Keys(ToDict(p)) + ["section_params"]
    ensures !Truthy(sectionParams) ==> d == ToDict(p)
    ensures d[..4] == ToDict(p)
    ensures Truthy(sectionParams) ==> Get(d, "section_params") == sectionParams
    ensures !Truthy(sectionParams) ==> !HasKey(d, "section_params")
  {
    if Truthy(sectionParams) then
      var d := ToDict(p) + [Member("section_params", sectionParams)];
      LookupAppend(ToDict(p), "section_params", sectionParams, "section_params");
      KeysAppend(ToDict(p), Member("section_params", sectionParams));
      assert d[..4] == ToDict(p);
      d
    else
      assert "section_params" !in Keys(ToDict(p));
      ToDict(p)
  }

  function PostCommand(url: string, p: BaseParams, sectionParams: Value): string {
    "curl -X POST '" + url + "' -H 'Content-Type: application/json' -d '" + Json.Dumps(Object(PostBody(p, sectionParams))) + "'"
  }

  /** `generate_curl_command` as written: the GET query is not escaped. */
  function GenerateCurlCommandAsWritten(r: Request, params: Option<BaseParams>, sectionParams: Value): (cmd: Option<string>)
    ensures cmd.Some? <==> params.Some? && (r.verb == "GET" || r.verb == "POST")
    ensures params.Some? && r.verb == "GET" ==>
      cmd == Some("curl -X GET '" + BaseUrl(r) + "?" + RawQuery(QueryFields(params.value)) + "'")
    ensures params.Some? && r.verb == "POST" ==> cmd == Some(PostCommand(BaseUrl(r), params.value, sectionParams))
  {
    if params.None? then None
    else if r.verb == "GET" then Some("curl -X GET '" + BaseUrl(r) + "?" + RawQuery(QueryFields(params.value)) + "'")
    else if r.verb == "POST" then Some(PostCommand(BaseUrl(r), params.value, sectionParams))
    else None
  }

  /** `generate_curl_command` with the GET query percent-encoded, so that
      the replayed request carries the same arguments. */
  function GenerateCurlCommand(r: Request, params: Option<BaseParams>, sectionParams: Value): (cmd: Option<string>)
    ensures cmd.Some? <==> params.Some? && (r.verb == "GET" || r.verb == "POST")
    ensures params.Some? && r.verb == "GET" ==>
      cmd == Some("curl -X GET '" + BaseUrl(r) + "?" + EncodedQuery(QueryFields(params.value)) + "'")
    ensures params.Some? && r.verb == "POST" ==> cmd == GenerateCurlCommandAsWritten(r, params, sectionParams)
  {
    if params.None? then None
    else if r.verb == "GET" then Some("curl -X GET '" + BaseUrl(r) + "?" + EncodedQuery(QueryFields(params.value)) + "'")
    else if r.verb == "POST" then Some(PostCommand(BaseUrl(r), params.value, sectionParams))
    else None
  }

  // ---------------------------------------------------------------------
  // Replay.

  lemma {:induction false} UnquoteEncode(s: string)
    ensures Unquote(Encode(s)) == s
  {
    if |s| > 0 {
      assert Encode(s) == EncodeChar(s[0]) + Encode(s[1..]);
      UnquoteEncodeChar(s[0], Encode(s[1..]));
      UnquoteEncode(s[1..]);
      assert s == [s[0]] + s[1..];
    }
  }

  /** Unquoting reads one encoded character back and goes on with the rest. */
  lemma UnquoteEncodeChar(c: char, rest: string)
    ensures Unquote(EncodeChar(c) + rest) == [c] + Unquote(rest)
  {
    var e := EncodeChar(c);
    if Special(c) {
      UnquoteEscape(c, rest);
    } else {
      assert (e + rest)[1..] == rest;
    }
  }

  lemma UnquoteEscape(c: char, rest: string)
    requires Special(c)
    ensures Unquote(EncodeChar(c) + rest) == [c] + Unquote(rest)
  {
    var e := EncodeChar(c);
    var n := c as int;
    assert HexValue(e[1]) == Some(n / 16) && HexValue(e[2]) == Some(n % 16);
    assert (e + rest)[3..] == rest;
  }

  /** Text without `+` or `%` is unchanged by unquoting. */
  lemma {:induction false} UnquotePlain(s: string)
    requires forall i :: 0 <= i < |s| ==> s[i] != '+' && s[i] != '%'
    ensures Unquote(s) == s
  {
    if |s| > 0 {
      UnquotePlain(s[1..]);
    }
  }

  /** Text without special characters is unchanged by encoding. */
  lemma {:induction false} EncodePlain(s: string)
    requires forall i :: 0 <= i < |s| ==> !Special(s[i])
    ensures Encode(s) == s
  {
    if |s| > 0 {
      EncodePlain(s[1..]);
    }
  }

  lemma ParsePieceEncoded(k: string, v: string)
    ensures ParsePiece(Encode(k) + "=" + Encode(v)) == (k, v)
  {
    var piece := Encode(k) + "=" + Encode(v);
    var ek := Encode(k);
    assert piece[|ek|] == '=';
    assert piece[..|ek|] == ek;
    var i := Strings.IndexOf(piece, '=');
    assert i == |ek|;
    assert piece[..i] == ek;
    assert piece[i + 1..] == Encode(v);
    UnquoteEncode(k);
    UnquoteEncode(v);
  }

  lemma {:induction false} ParsePiecesEncoded(fs: seq<(string, string)>)
    ensures ParsePieces(EncodedPieces(fs)) == fs
  {
    if |fs| > 0 {
      var pieces := EncodedPieces(fs);
      EncodedPiecesCons(fs);
      ParsePiecesCons(pieces);
      ParsePieceEncoded(fs[0].0, fs[0].1);
      ParsePiecesEncoded(fs[1..]);
      assert fs == [fs[0]] + fs[1..];
    }
  }

  lemma EncodedPiecesCons(fs: seq<(string, string)>)
    requires |fs| > 0
    ensures var pieces := EncodedPieces(fs);
      && pieces[0] == Encode(fs[0].0) + "=" + Encode(fs[0].1)
      && pieces[0] != ""
      && pieces[1..] == EncodedPieces(fs[1..])
  {
    var pieces := EncodedPieces(fs);
    assert |pieces[0]| > 0;
  }

  /** A non-empty first piece is parsed and kept in front of the rest. */
  lemma ParsePiecesCons(pieces: seq<string>)
    requires |pieces| > 0 && pieces[0] != ""
    ensures ParsePieces(pieces) == [ParsePiece(pieces[0])] + ParsePieces(pieces[1..])
  {
  }

  /** The encoded query parses back to exactly the pairs it was built from. */
  lemma EncodedQueryRoundTrip(fs: seq<(string, string)>)
    requires |fs| >= 1
    ensures ParseQuery(EncodedQuery(fs)) == fs
  {
    var pieces := EncodedPieces(fs);
    forall i | 0 <= i < |pieces|
      ensures '&' !in pieces[i]
    {
      var ek, ev := Encode(fs[i].0), Encode(fs[i].1);
      assert pieces[i] == ek + "=" + ev;
      forall j | 0 <= j < |pieces[i]|
        ensures pieces[i][j] != '&'
      {
        if j < |ek| {
          assert pieces[i][j] == ek[j];
        } else if j > |ek| {
          assert pieces[i][j] == ev[j - |ek| - 1];
        }
      }
    }
    Strings.SplitJoin(pieces, '&');
    ParsePiecesEncoded(fs);
  }

  /** With no special character in any key or value, the unescaped query
      is the escaped one: the source's command is right on such input. */
  lemma PlainQueryIsEncoded(fs: seq<(string, string)>)
    requires forall i, j :: 0 <= i < |fs| && 0 <= j < |fs[i].0| ==> !Special(fs[i].0[j])
    requires forall i, j :: 0 <= i < |fs| && 0 <= j < |fs[i].1| ==> !Special(fs[i].1[j])
    ensures RawQuery(fs) == EncodedQuery(fs)
  {
    forall i | 0 <= i < |fs|
      ensures Encode(fs[i].0) == fs[i].0 && Encode(fs[i].1) == fs[i].1
    {
      EncodePlain(fs[i].0);
      EncodePlain(fs[i].1);
    }
    assert RawPieces(fs) == EncodedPieces(fs);
  }

  lemma ArgumentsOfFour(k0: string, k1: string, k2: string, k3: string, v0: string, v1: string, v2: string, v3: string)
    requires k0 != k1 && k0 != k2 && k0 != k3 && k1 != k2 && k1 != k3 && k2 != k3
    ensures var fs := [(k0, v0), (k1, v1), (k2, v2), (k3, v3)];
      && LastValue(fs, k0) == Some(v0) && LastValue(fs, k1) == Some(v1)
      && LastValue(fs, k2) == Some(v2) && LastValue(fs, k3) == Some(v3)
  {
    var fs := [(k0, v0), (k1, v1), (k2, v2), (k3, v3)];
    var fs3 := fs[..3];
    var fs2 := fs3[..2];
    var fs1 := fs2[..1];
    assert fs3 == [(k0, v0), (k1, v1), (k2, v2)];
    assert fs2 == [(k0, v0), (k1, v1)];
    assert fs1 == [(k0, v0)];
    assert LastValue(fs1, k0) == Some(v0);
    assert LastValue(fs2, k0) == Some(v0) && LastValue(fs2, k1) == Some(v1);
    assert LastValue(fs3, k0) == Some(v0) && LastValue(fs3, k1) == Some(v1);
  }

  /** Replaying the GET command of any parameters the GET path accepted
      rebuilds the same parameters on the server. */
  lemma ReplayGet(r: Request, p: BaseParams)
    requires WellFormed(p)
    requires forall i :: 0 <= i < |p.books| ==> ',' !in p.books[i]
    requires forall i, j :: 0 <= i < |p.books| && 0 <= j < |p.books[i]| ==> !ControlChar(p.books[i][j])
    ensures var args := ParseQuery(EncodedQuery(QueryFields(p)));
      ExtractFromGet(Argument(args, "env_date"), Argument(args, "pos_date"),
                     Argument(args, "books"), Argument(args, "time_of_day")) == Success(p)
  {
    ReplayedArguments(p);
    GetRoundTrip(p);
  }

  /** The handler of a replayed GET reads each parameter back as sent. */
  lemma ReplayedArguments(p: BaseParams)
    requires WellFormed(p)
    requires forall i, j :: 0 <= i < |p.books| && 0 <= j < |p.books[i]| ==> !ControlChar(p.books[i][j])
    ensures var args := ParseQuery(EncodedQuery(QueryFields(p)));
      && Argument(args, "env_date") == Some(p.envDate)
      && Argument(args, "pos_date") == Some(p.posDate)
      && Argument(args, "books") == Some(Strings.Join(p.books, ","))
      && Argument(args, "time_of_day") == Some(p.timeOfDay)
  {
    var books := Strings.Join(p.books, ",");
    var args := ParseQuery(EncodedQuery(QueryFields(p)));
    ReplayedValues(p);
    DateSettled(p.envDate);
    DateSettled(p.posDate);
    BooksSettled(p.books);
    TimeSettled(p.timeOfDay);
    ArgumentOf(args, "env_date", p.envDate);
    ArgumentOf(args, "pos_date", p.posDate);
    ArgumentOf(args, "books", books);
    ArgumentOf(args, "time_of_day", p.timeOfDay);
  }

  /** The parsed query of a replayed GET holds each parameter's text as its
      last value. */
  lemma ReplayedValues(p: BaseParams)
    ensures var args := ParseQuery(EncodedQuery(QueryFields(p)));
      && LastValue(args, "env_date") == Some(p.envDate)
      && LastValue(args, "pos_date") == Some(p.posDate)
      && LastValue(args, "books") == Some(Strings.Join(p.books, ","))
      && LastValue(args, "time_of_day") == Some(p.timeOfDay)
  {
    EncodedQueryRoundTrip(QueryFields(p));
    ArgumentsOfFour("env_date", "pos_date", "books", "time_of_day", p.envDate, p.posDate, Strings.Join(p.books, ","), p.timeOfDay);
  }

  /** A settled last value is the argument the handler sees. */
  lemma ArgumentOf(fs: seq<(string, string)>, name: string, v: string)
    requires LastValue(fs, name) == Some(v) && Settled(v)
    ensures Argument(fs, name) == Some(v)
  {
    CleanSettled(v);
  }

  /** Settled text reaches the handler unchanged. */
  lemma CleanSettled(s: string)
    requires Settled(s)
    ensures CleanValue(s) == s
  {
    assert BlankControls(s) == s;
    Strings.StripTrimmed(s);
  }

  /** A control character inside a value reaches the handler as a space. */
  lemma CleanControl(a: string, c: char, b: string)
    requires ControlChar(c) && Settled(a) && Settled(b) && a != [] && b != []
    ensures CleanValue(a + [c] + b) == a + " " + b
  {
    var t := a + " " + b;
    assert BlankControls(a + [c] + b) == t;
    assert t[0] == a[0] && t[|t| - 1] == b[|b| - 1];
    Strings.StripTrimmed(t);
  }

  lemma DateSettled(s: string)
    requires Dates.ValidDate(s)
    ensures Settled(s) && CleanValue(s) == s
  {
    Dates.ValidDateChars(s);
    CleanSettled(s);
  }

  lemma TimeSettled(t: string)
    requires t in ValidTimes
    ensures Settled(t) && CleanValue(t) == t
  {
    CleanSettled(t);
  }

  lemma BooksSettled(books: seq<string>)
    requires |books| > 0
    requires forall i :: 0 <= i < |books| ==> books[i] != "" && Strings.Trimmed(books[i])
    requires forall i, j :: 0 <= i < |books| && 0 <= j < |books[i]| ==> !ControlChar(books[i][j])
    ensures Settled(Strings.Join(books, ",")) && CleanValue(Strings.Join(books, ",")) == Strings.Join(books, ",")
  {
    JoinSettled(books);
    CleanSettled(Strings.Join(books, ","));
  }

  /** Joining settled, non-empty books with `,` gives settled text. */
  lemma {:induction false} JoinSettled(books: seq<string>)
    requires |books| > 0
    requires forall i :: 0 <= i < |books| ==> books[i] != "" && Settled(books[i])
    ensures var j := Strings.Join(books, ",");
      Settled(j) && j[0] == books[0][0] && j[|j| - 1] == books[|books| - 1][|books[|books| - 1]| - 1]
  {
    if |books| > 1 {
      var rest := Strings.Join(books[1..], ",");
      JoinSettled(books[1..]);
      var j := books[0] + "," + rest;
      assert Strings.Join(books, ",") == j;
      forall i | 0 <= i < |j|
        ensures !ControlChar(j[i])
      {
        if i < |books[0]| {
          assert j[i] == books[0][i];
        } else if i > |books[0]| {
          assert j[i] == rest[i - |books[0]| - 1];
        }
      }
    }
  }

  /** The source's unescaped query splits a book holding `&`: the server
      reads `books` as the text before it and takes the rest for another
      argument. */
  lemma RawQuerySplitsAmpersand(e: string, q: string, t: string)
    requires '&' !in e && '&' !in q
    requires forall i :: 0 <= i < |t| ==> !Special(t[i])
    ensures var args := ParseQuery(RawQuery(QueryFields(BaseParams(e, q, ["A&B"], t))));
      && Argument(args, "books") == Some("A")
      && Argument(args, "B") == Some("")
  {
    var raw := RawPieces(QueryFields(BaseParams(e, q, ["A&B"], t)));
    RawQuerySplit(e, q, t);
    ParseSplitPieces(raw, t);
    var front := ParsePieces(raw[..2]);
    ArgumentsAfterSplit(front, t);
  }

  lemma ArgumentsAfterSplit(front: seq<(string, string)>, t: string)
    ensures var args := front + [("books", "A"), ("B", ""), ("time_of_day", t)];
      Argument(args, "books") == Some("A") && Argument(args, "B") == Some("")
  {
    var args := front + [("books", "A"), ("B", ""), ("time_of_day", t)];
    ArgumentLast(front, [("B", ""), ("time_of_day", t)], "books", "A");
    ArgumentLast(front + [("books", "A")], [("time_of_day", t)], "B", "");
    assert front + [("books", "A")] + [("B", ""), ("time_of_day", t)]
        == front + [("books", "A"), ("B", ""), ("time_of_day", t)]
        == front + [("books", "A"), ("B", "")] + [("time_of_day", t)];
    assert Settled("A") && Settled("");
    ArgumentOf(args, "books", "A");
    ArgumentOf(args, "B", "");
  }

  lemma RawQuerySplit(e: string, q: string, t: string)
    requires '&' !in e && '&' !in q
    requires forall i :: 0 <= i < |t| ==> !Special(t[i])
    ensures var raw := RawPieces(QueryFields(BaseParams(e, q, ["A&B"], t)));
      && raw[3..] == ["time_of_day" + "=" + t]
      && Strings.Split(RawQuery(QueryFields(BaseParams(e, q, ["A&B"], t))), '&') == raw[..2] + ["books=A", "B"] + raw[3..]
  {
    var raw := RawPieces(QueryFields(BaseParams(e, q, ["A&B"], t)));
    RawPiecesOfBook(e, q, t);
    assert '&' !in t by {
      assert forall i :: 0 <= i < |t| ==> t[i] != '&';
    }
    SplitRefined(raw, e, q, t);
  }

  lemma SplitRefined(raw: seq<string>, e: string, q: string, t: string)
    requires '&' !in e && '&' !in q && '&' !in t
    requires |raw| == 4
    requires raw[0] == "env_date" + "=" + e && raw[1] == "pos_date" + "=" + q
    requires raw[2] == "books=A" + "&" + "B" && raw[3] == "time_of_day" + "=" + t
    ensures Strings.Split(Strings.Join(raw, "&"), '&') == raw[..2] + ["books=A", "B"] + raw[3..]
  {
    JoinRefine(raw, 2, "books=A", "B", "&");
    var refined := raw[..2] + ["books=A", "B"] + raw[3..];
    NoAmpersandPair("env_date", e);
    NoAmpersandPair("pos_date", q);
    NoAmpersandPair("time_of_day", t);
    assert refined == [raw[0], raw[1], "books=A", "B", raw[3]];
    assert '&' !in "books=A" && '&' !in "B";
    Strings.SplitJoin(refined, '&');
  }

  lemma NoAmpersandPair(k: string, v: string)
    requires '&' !in k && '&' !in v
    ensures '&' !in k + "=" + v
  {
  }

  lemma RawPiecesOfBook(e: string, q: string, t: string)
    ensures var raw := RawPieces(QueryFields(BaseParams(e, q, ["A&B"], t)));
      && raw[0] == "env_date" + "=" + e && raw[1] == "pos_date" + "=" + q
      && raw[2] == "books=A" + "&" + "B" && raw[3] == "time_of_day" + "=" + t
      && raw[3..] == ["time_of_day" + "=" + t]
  {
    assert Strings.Join(["A&B"], ",") == "A&B";
  }

  lemma ParseSplitPieces(raw: seq<string>, t: string)
    requires |raw| == 4 && raw[3..] == ["time_of_day" + "=" + t]
    requires forall i :: 0 <= i < |t| ==> !Special(t[i])
    ensures ParsePieces(raw[..2] + ["books=A", "B"] + raw[3..])
         == ParsePieces(raw[..2]) + [("books", "A"), ("B", ""), ("time_of_day", t)]
  {
    var head, tail := raw[..2], raw[3..];
    ParsePiecesAppend(head + ["books=A", "B"], tail);
    ParsePiecesAppend(head, ["books=A", "B"]);
    ParseBookPieces();
    ParseTimePiece(t);
  }

  lemma ParseBookPieces()
    ensures ParsePieces(["books=A", "B"]) == [("books", "A"), ("B", "")]
  {
    BookPiece();
    StrayPiece();
    ParsePiecesCons(["books=A", "B"]);
    assert ["books=A", "B"][1..] == ["B"];
    ParsePiecesCons(["B"]);
    assert ["B"][1..] == [];
  }

  lemma BookPiece()
    ensures ParsePiece("books=A") == ("books", "A")
  {
    PlainPair("books", "A");
    assert "books" + "=" + "A" == "books=A";
  }

  lemma StrayPiece()
    ensures ParsePiece("B") == ("B", "")
  {
    UnquotePlain("B");
  }

  lemma ParseTimePiece(t: string)
    requires forall i :: 0 <= i < |t| ==> !Special(t[i])
    ensures ParsePieces(["time_of_day" + "=" + t]) == [("time_of_day", t)]
  {
    PlainPair("time_of_day", t);
    assert ["time_of_day" + "=" + t][1..] == [];
  }

  /** Cutting one part of a join at a separator inside it does not change
      the joined text. */
  lemma {:induction false} JoinRefine(parts: seq<string>, k: nat, x: string, y: string, sep: string)
    requires k < |parts| && parts[k] == x + sep + y
    ensures Strings.Join(parts, sep) == Strings.Join(parts[..k] + [x, y] + parts[k + 1..], sep)
  {
    var r := parts[..k] + [x, y] + parts[k + 1..];
    if k == 0 {
      assert r == [x] + ([y] + parts[1..]);
      assert r[1..] == [y] + parts[1..];
      if |parts| > 1 {
        assert ([y] + parts[1..])[1..] == parts[1..];
      }
    } else {
      JoinRefine(parts[1..], k - 1, x, y, sep);
      assert r[1..] == parts[1..][..k - 1] + [x, y] + parts[1..][k..];
    }
  }

  lemma {:induction false} ParsePiecesAppend(a: seq<string>, b: seq<string>)
    ensures ParsePieces(a + b) == ParsePieces(a) + ParsePieces(b)
  {
    if |a| > 0 {
      assert (a + b)[1..] == a[1..] + b;
      ParsePiecesAppend(a[1..], b);
    } else {
      assert a + b == b;
    }
  }

  /** The last value given for a name wins over every earlier one. */
  lemma {:induction false} ArgumentLast(front: seq<(string, string)>, back: seq<(string, string)>, k: string, v: string)
    requires forall i :: 0 <= i < |back| ==> back[i].0 != k
    ensures LastValue(front + [(k, v)] + back, k) == Some(v)
  {
    var fs := front + [(k, v)] + back;
    if |back| > 0 {
      assert fs[..|fs| - 1] == front + [(k, v)] + back[..|back| - 1];
      ArgumentLast(front, back[..|back| - 1], k, v);
    } else {
      assert fs[|fs| - 1] == (k, v);
    }
  }

  /** A `key=value` piece with plain text on both sides parses as that pair. */
  lemma PlainPair(k: string, v: string)
    requires k != "" && forall i :: 0 <= i < |k| ==> !Special(k[i])
    requires forall i :: 0 <= i < |v| ==> !Special(v[i])
    ensures ParsePiece(k + "=" + v) == (k, v)
  {
    EncodePlain(k);
    EncodePlain(v);
    ParsePieceEncoded(k, v);
  }
}

=== FILE: dates.dfy ===
/** `datetime.strptime(s, "%Y%m%d")`, the date check of both servers.

    CPython turns the format into the regular expression
    `(?P<Y>\d\d\d\d)(?P<m>1[0-2]|0[1-9]|[1-9])(?P<d>3[01]|[12]\d|0[1-9]|[1-9]| [1-9])`,
    takes the FIRST match that backtracking finds at the start of the
    string, rejects the string when that match does not reach its end
    ("unconverted data remains"), and finally rejects a date that is not in
    the calendar. Short forms such as `2025121` (1 December) are therefore
    accepted. */
module Dates {
  import opened Wrappers

  datatype Date = Date(year: int, month: int, day: int)

  predicate IsDigit(c: char) {
    '0' <= c <= '9'
  }

  function DigitValue(c: char): nat
    requires IsDigit(c)
  {
    c as int - '0' as int
  }

  function DigitChar(n: nat): (c: char)
    requires n < 10
    ensures IsDigit(c) && DigitValue(c) == n
  {
    ('0' as int + n) as char
  }

  predicate IsLeapYear(y: int) {
    y % 4 == 0 && (y % 100 != 0 || y % 400 == 0)
  }

  function DaysInMonth(y: int, m: int): int
    requires 1 <= m <= 12
  {
    if m == 2 then (if IsLeapYear(y) then 29 else 28)
    else if m == 4 || m == 6 || m == 9 || m == 11 then 30
    else 31
  }

  /** A date `datetime` accepts: years 1 to 9999 of the proleptic Gregorian
      calendar. */
  predicate IsCalendarDate(d: Date) {
    1 <= d.year <= 9999 && 1 <= d.month <= 12 && 1 <= d.day <= DaysInMonth(d.year, d.month)
  }

  /** Lengths matched by the alternatives of `1[0-2]|0[1-9]|[1-9]` at `i`,
      in the order the regex tries them. */
  function MonthAlternatives(s: string, i: nat): (r: seq<nat>)
    ensures forall k :: 0 <= k < |r| ==> 1 <= r[k] <= 2
  {
    (if i + 2 <= |s| && s[i] == '1' && '0' <= s[i + 1] <= '2' then [2] else [])
    + (if i + 2 <= |s| && s[i] == '0' && '1' <= s[i + 1] <= '9' then [2] else [])
    + (if i + 1 <= |s| && '1' <= s[i] <= '9' then [1] else [])
  }

  /** Lengths matched by the alternatives of
      `3[01]|[12]\d|0[1-9]|[1-9]| [1-9]` at `i`, in order. */
  function DayAlternatives(s: string, i: nat): (r: seq<nat>)
    ensures forall k :: 0 <= k < |r| ==> 1 <= r[k] <= 2
  {
    (if i + 2 <= |s| && s[i] == '3' && '0' <= s[i + 1] <= '1' then [2] else [])
    + (if i + 2 <= |s| && '1' <= s[i] <= '2' && IsDigit(s[i + 1]) then [2] else [])
    + (if i + 2 <= |s| && s[i] == '0' && '1' <= s[i + 1] <= '9' then [2] else [])
    + (if i + 1 <= |s| && '1' <= s[i] <= '9' then [1] else [])
    + (if i + 2 <= |s| && s[i] == ' ' && '1' <= s[i + 1] <= '9' then [2] else [])
  }

  /** The month and day lengths of the first match, trying the month
      alternatives `months` in order and, for each, the day alternatives. */
  function FirstMatch(s: string, months: seq<nat>): (r: Option<(nat, nat)>)
    requires forall k :: 0 <= k < |months| ==> 1 <= months[k] <= 2
    ensures r.Some? ==> 1 <= r.value.0 <= 2 && 1 <= r.value.1 <= 2
  {
    if |months| == 0 then None
    else
      var days := DayAlternatives(s, 4 + months[0]);
      if |days| > 0 then Some((months[0], days[0])) else FirstMatch(s, months[1..])
  }

  /** Value of a run of digits, optionally after one leading space (which
      `int()` ignores). */
  function Number(s: string): int {
    if |s| == 0 then 0
    else
      var last := s[|s| - 1];
      (if IsDigit(last) then DigitValue(last) else 0) + 10 * Number(s[..|s| - 1])
  }

  /** `datetime.strptime(s, "%Y%m%d")`, or `None` where it raises
      `ValueError`. An accepted string has six to eight characters and
      denotes a date of the calendar. */
  function Strptime(s: string): (r: Option<Date>)
    ensures r.Some? ==> 6 <= |s| <= 8 && IsCalendarDate(r.value)
  {
    if |s| < 4 || !(IsDigit(s[0]) && IsDigit(s[1]) && IsDigit(s[2]) && IsDigit(s[3])) then None
    else match FirstMatch(s, MonthAlternatives(s, 4))
      case None => None
      case Some((m, d)) =>
        if 4 + m + d != |s| then None
        else
          var date := Date(Number(s[..4]), Number(s[4..4 + m]), Number(s[4 + m..]));
          if IsCalendarDate(date) then Some(date) else None
  }

  predicate ValidDate(s: string) {
    Strptime(s).Some?
  }

  /** The zero-padded `YYYYMMDD` text of a date. */
  function Format(d: Date): (s: string)
    requires IsCalendarDate(d)
    ensures |s| == 8
  {
    [DigitChar(d.year / 1000), DigitChar(d.year / 100 % 10), DigitChar(d.year / 10 % 10), DigitChar(d.year % 10),
     DigitChar(d.month / 10), DigitChar(d.month % 10),
     DigitChar(d.day / 10), DigitChar(d.day % 10)]
  }

  lemma NumberTwo(a: char, b: char)
    requires IsDigit(a) && IsDigit(b)
    ensures Number([a, b]) == 10 * DigitValue(a) + DigitValue(b)
  {
    assert [a, b][..1] == [a];
    assert [a][..0] == [];
    assert Number([a]) == DigitValue(a) + 10 * Number([]);
    assert Number([a, b]) == DigitValue(b) + 10 * Number([a]);
  }

  lemma NumberFour(a: char, b: char, c: char, d: char)
    requires IsDigit(a) && IsDigit(b) && IsDigit(c) && IsDigit(d)
    ensures Number([a, b, c, d]) == 1000 * DigitValue(a) + 100 * DigitValue(b) + 10 * DigitValue(c) + DigitValue(d)
  {
    assert [a, b, c, d][..3] == [a, b, c];
    assert [a, b, c][..2] == [a, b];
    NumberTwo(a, b);
  }

  lemma YearDigits(y: int)
    requires 0 <= y <= 9999
    ensures 1000 * (y / 1000) + 100 * (y / 100 % 10) + 10 * (y / 10 % 10) + y % 10 == y
  {
    assert y / 100 == 10 * (y / 1000) + y / 100 % 10;
    assert y / 10 == 10 * (y / 100) + y / 10 % 10;
  }

  /** The fields of a formatted date read back as its year, month and day. */
  lemma FormatFields(d: Date)
    requires IsCalendarDate(d)
    ensures var s := Format(d); Number(s[..4]) == d.year && Number(s[4..6]) == d.month && Number(s[6..]) == d.day
  {
    var s := Format(d);
    assert s[..4] == [s[0], s[1], s[2], s[3]];
    NumberFour(s[0], s[1], s[2], s[3]);
    YearDigits(d.year);
    assert s[4..6] == [s[4], s[5]];
    NumberTwo(s[4], s[5]);
    assert s[6..] == [s[6], s[7]];
    NumberTwo(s[6], s[7]);
  }

  /** The month field of a formatted date is matched by a two-character
      alternative, tried first among those that match. */
  lemma MonthMatchesTwo(d: Date)
    requires IsCalendarDate(d)
    ensures var ms := MonthAlternatives(Format(d), 4); |ms| > 0 && ms[0] == 2
  {
    var s := Format(d);
    if d.month >= 10 {
      assert s[4] == '1';
      assert '0' <= s[5] <= '2';
    } else {
      assert s[4] == '0';
      assert '1' <= s[5] <= '9';
    }
  }

  /** Likewise for the day field. */
  lemma DayMatchesTwo(d: Date)
    requires IsCalendarDate(d)
    ensures var ds := DayAlternatives(Format(d), 6); |ds| > 0 && ds[0] == 2
  {
    var s := Format(d);
    var t := d.day / 10;
    if t == 3 {
      assert s[6] == '3' && '0' <= s[7] <= '1';
    } else if t == 0 {
      assert s[6] == '0' && '1' <= s[7] <= '9';
    } else {
      assert '1' <= s[6] <= '2';
    }
  }

  /** Every date of the calendar, written as zero-padded `YYYYMMDD`, parses
      back to itself. */
  lemma {:induction false} FormatParses(d: Date)
    requires IsCalendarDate(d)
    ensures Strptime(Format(d)) == Some(d)
  {
    var s := Format(d);
    MonthMatchesTwo(d);
    DayMatchesTwo(d);
    assert FirstMatch(s, MonthAlternatives(s, 4)) == Some((2, 2));
    FormatFields(d);
  }

  /** An accepted date is written with digits and at most the one space
      the day's ` [1-9]` alternative allows, and it starts and ends with a
      digit. */
  lemma ValidDateChars(s: string)
    requires ValidDate(s)
    ensures forall i :: 0 <= i < |s| ==> IsDigit(s[i]) || s[i] == ' '
    ensures IsDigit(s[0]) && IsDigit(s[|s| - 1])
  {
    var months := MonthAlternatives(s, 4);
    var (m, d) := FirstMatch(s, months).value;
    var k := FirstMatchFrom(s, months);
    MonthChars(s, 4, k);
    DayChars(s, 4 + m, 0);
    assert 4 + m + d == |s|;
    forall i | 0 <= i < |s|
      ensures IsDigit(s[i]) || s[i] == ' '
    {
      if i < 4 {
        assert i == 0 || i == 1 || i == 2 || i == 3;
      }
    }
  }

  /** The first match takes its month length from `months` and its day
      length from the first day alternative after it. */
  lemma {:induction false} FirstMatchFrom(s: string, months: seq<nat>) returns (k: nat)
    requires forall k :: 0 <= k < |months| ==> 1 <= months[k] <= 2
    requires FirstMatch(s, months).Some?
    ensures k < |months| && months[k] == FirstMatch(s, months).value.0
    ensures var days := DayAlternatives(s, 4 + months[k]);
      |days| > 0 && days[0] == FirstMatch(s, months).value.1
  {
    if |DayAlternatives(s, 4 + months[0])| > 0 {
      k := 0;
    } else {
      var j := FirstMatchFrom(s, months[1..]);
      k := j + 1;
    }
  }

  lemma MonthChars(s: string, i: nat, k: nat)
    requires k < |MonthAlternatives(s, i)|
    ensures var n := MonthAlternatives(s, i)[k];
      i + n <= |s| && forall j :: i <= j < i + n ==> IsDigit(s[j])
  {
  }

  lemma DayChars(s: string, i: nat, k: nat)
    requires k < |DayAlternatives(s, i)|
    ensures var n := DayAlternatives(s, i)[k];
      && i + n <= |s| && IsDigit(s[i + n - 1])
      && forall j :: i <= j < i + n ==> IsDigit(s[j]) || s[j] == ' '
  {
  }
}

=== FILE: json.dfy ===
/** `json.dumps` with its default options (`ensure_ascii=True`, separators
    `", "` and `": "`), its `sort_keys=True` normal form, and Python's
    `repr()`/`str()` of a value. */
module Json {
  import opened PyValue
  import Strings
  import Sorting
  import Dates

  /** `str(n)` for an integer. */
  function NatToString(n: nat): (s: string)
    ensures |s| > 0
    ensures forall i :: 0 <= i < |s| ==> Dates.IsDigit(s[i])
  {
    if n < 10 then [Dates.DigitChar(n)] else NatToString(n / 10) + [Dates.DigitChar(n % 10)]
  }

  function IntToString(i: int): string {
    if i < 0 then "-" + NatToString(-i) else NatToString(i)
  }

  function Pow10(k: nat): (p: nat)
    ensures p >= 1
  {
    if k == 0 then 1 else 10 * Pow10(k - 1)
  }

  /** `k` digits of `n`, zero-padded on the left. */
  function PadDigits(n: nat, k: nat): (s: string)
    ensures |s| == k
  {
    if k == 0 then [] else PadDigits(n / 10, k - 1) + [Dates.DigitChar(n % 10)]
  }

  function DropTrailingZeros(s: string): string {
    if |s| > 0 && s[|s| - 1] == '0' then DropTrailingZeros(s[..|s| - 1]) else s
  }

  /** `repr()` of the float `digits / 10^scale` in positional notation: at
      least one digit after the point, no trailing zeros beyond it. */
  function FloatText(digits: int, scale: nat): string {
    var magnitude := if digits < 0 then -digits else digits;
    var p := Pow10(scale);
    var fraction := DropTrailingZeros(PadDigits(magnitude % p, scale));
    (if digits < 0 then "-" else "")
    + NatToString(Quotient(magnitude, p)) + "." + (if fraction == "" then "0" else fraction)
  }

  function Quotient(a: nat, b: nat): nat
    requires b > 0
  {
    a / b
  }

  function HexDigit(n: nat): char
    requires n < 16
  {
    if n < 10 then Dates.DigitChar(n) else ('a' as int + n - 10) as char
  }

  /** `\uXXXX` with four lower-case hex digits. */
  function UnicodeEscape(n: nat): string
    requires n < 0x10000
  {
    ['\\', 'u', HexDigit(n / 0x1000), HexDigit(n / 0x100 % 16), HexDigit(n / 0x10 % 16), HexDigit(n % 16)]
  }

  /** How `json.dumps` writes one character of a string. */
  function EscapeChar(c: char): string {
    if c == '"' then "\\\""
    else if c == '\\' then "\\\\"
    else if c == '\n' then "\\n"
    else if c == '\r' then "\\r"
    else if c == '\t' then "\\t"
    else if c == '\U{8}' then "\\b"
    else if c == '\U{c}' then "\\f"
    else if ' ' <= c <= '~' then [c]
    else if c as int < 0x10000 then UnicodeEscape(c as int)
    else
      var n := c as int - 0x10000;
      UnicodeEscape(0xd800 + n / 0x400 % 0x400) + UnicodeEscape(0xdc00 + n % 0x400)
  }

  function EscapeString(s: string): string {
    if |s| == 0 then "" else EscapeChar(s[0]) + EscapeString(s[1..])
  }

  function Quote(s: string): string {
    "\"" + EscapeString(s) + "\""
  }

  /** `json.dumps(v)`. */
  function Dumps(v: Value): string
    decreases v
  {
    match v
    case Null => "null"
    case Bool(b) => if b then "true" else "false"
    case Int(i) => IntToString(i)
    case Float(digits, scale) => FloatText(digits, scale)
    case Str(s) => Quote(s)
    case List(items) =>
      "[" + Strings.Join(seq(|items|, i requires 0 <= i < |items| => Dumps(items[i])), ", ") + "]"
    case Object(members) =>
      "{" + Strings.Join(seq(|members|, i requires 0 <= i < |members| =>
                           Quote(members[i].key) + ": " + Dumps(members[i].value)), ", ") + "}"
  }

  /** How `repr()` writes one character of a str quoted with `q`. */
  function ReprChar(c: char, q: char): string {
    if c == q || c == '\\' then ['\\', c]
    else if c == '\n' then "\\n"
    else if c == '\r' then "\\r"
    else if c == '\t' then "\\t"
    else if c as int < 0x20 || c as int == 0x7f then ['\\', 'x', HexDigit(c as int / 16), HexDigit(c as int % 16)]
    else [c]
  }

  function ReprChars(s: string, q: char): string {
    if |s| == 0 then "" else ReprChar(s[0], q) + ReprChars(s[1..], q)
  }

  /** `repr()` quotes with `'` unless the text holds `'` and no `"`. */
  function ReprQuote(s: string): char {
    if '\'' in s && '"' !in s then '"' else '\''
  }

  /** `repr(s)` of a str. */
  function StrRepr(s: string): (r: string)
    ensures |r| >= 2 && r[0] == ReprQuote(s) && r[|r| - 1] == ReprQuote(s)
  {
    [ReprQuote(s)] + ReprChars(s, ReprQuote(s)) + [ReprQuote(s)]
  }

  /** A printable ASCII character other than a quote or a backslash. */
  predicate PlainChar(c: char) {
    ' ' <= c <= '~' && c != '\'' && c != '"' && c != '\\'
  }

  /** Text of plain characters is written between single quotes as it is. */
  lemma {:induction false} PlainStrRepr(s: string)
    requires forall i :: 0 <= i < |s| ==> PlainChar(s[i])
    ensures StrRepr(s) == "'" + s + "'"
  {
    PlainReprChars(s, '\'');
  }

  lemma {:induction false} PlainReprChars(s: string, q: char)
    requires forall i :: 0 <= i < |s| ==> PlainChar(s[i])
    requires q == '\'' || q == '"'
    ensures ReprChars(s, q) == s
  {
    if |s| > 0 {
      PlainReprChars(s[1..], q);
      assert s == [s[0]] + s[1..];
    }
  }

  /** `repr(v)`: strs quoted, `None`/`True`/`False`, lists as `[a, b]` and
      dicts as `{'k': v}`, each element written by `repr()` again. */
  function Repr(v: Value): string
    decreases v
  {
    match v
    case Null => "None"
    case Bool(b) => if b then "True" else "False"
    case Int(i) => IntToString(i)
    case Float(digits, scale) => FloatText(digits, scale)
    case Str(s) => StrRepr(s)
    case List(items) =>
      "[" + Strings.Join(seq(|items|, i requires 0 <= i < |items| => Repr(items[i])), ", ") + "]"
    case Object(members) =>
      "{" + Strings.Join(seq(|members|, i requires 0 <= i < |members| =>
                           StrRepr(members[i].key) + ": " + Repr(members[i].value)), ", ") + "}"
  }

  /** `str(v)`: a str is itself, anything else its `repr()`. */
  function PyStr(v: Value): string {
    if v.Str? then v.s else Repr(v)
  }

  /** `str()` of a list of plain strs: each between single quotes, joined
      by `, ` inside brackets. */
  lemma {:induction false} PlainListStr(ss: seq<string>)
    requires forall k, i :: 0 <= k < |ss| && 0 <= i < |ss[k]| ==> PlainChar(ss[k][i])
    ensures PyStr(StrList(ss)) == "[" + Strings.Join(seq(|ss|, k requires 0 <= k < |ss| => "'" + ss[k] + "'"), ", ") + "]"
  {
    var items := StrList(ss).items;
    forall k | 0 <= k < |ss|
      ensures Repr(items[k]) == "'" + ss[k] + "'"
    {
      PlainStrRepr(ss[k]);
    }
    assert seq(|items|, i requires 0 <= i < |items| => Repr(items[i]))
        == seq(|ss|, k requires 0 <= k < |ss| => "'" + ss[k] + "'");
  }

  /** `repr()` of a one-element list of strs. */
  lemma OneStrRepr(a: string)
    ensures Repr(List([Str(a)])) == "[" + StrRepr(a) + "]"
  {
    var items := [Str(a)];
    assert seq(|items|, i requires 0 <= i < |items| => Repr(items[i])) == [StrRepr(a)];
  }

  /** `repr()` of a three-element list of strs. */
  lemma ThreeStrRepr(a: string, b: string, c: string)
    ensures Repr(List([Str(a), Str(b), Str(c)])) == "[" + (StrRepr(a) + ", " + (StrRepr(b) + ", " + StrRepr(c))) + "]"
  {
    var items := [Str(a), Str(b), Str(c)];
    var parts := [StrRepr(a), StrRepr(b), StrRepr(c)];
    assert seq(|items|, i requires 0 <= i < |items| => Repr(items[i])) == parts;
    JoinThree(parts[0], parts[1], parts[2], ", ");
  }

  lemma JoinThree(x: string, y: string, z: string, sep: string)
    ensures Strings.Join([x, y, z], sep) == x + sep + (y + sep + z)
  {
    assert [x, y, z][1..] == [y, z];
    assert [y, z][1..] == [z];
    assert Strings.Join([y, z], sep) == y + sep + z;
  }

  function MemberKey(m: Member): string {
    m.key
  }

  /** The value `json.dumps(v, sort_keys=True)` writes: every dict, at every
      depth, with its members in key order. */
  function SortKeys(v: Value): Value
    decreases v
  {
    match v
    case List(items) => List(seq(|items|, i requires 0 <= i < |items| => SortKeys(items[i])))
    case Object(members) =>
      Object(Sorting.SortBy(seq(|members|, i requires 0 <= i < |members| =>
                                  Member(members[i].key, SortKeys(members[i].value))), MemberKey))
    case _ => v
  }
}

=== FILE: pos_env_config.dfy ===
/** The constants of the root `config.py` that validation and caching read. */
module PosEnvConfig {
  /** The format of `pos_date` and `env_date`. */
  const DateFormat: string := "%Y%m%d"

  /** The accepted `time_of_day` values, case-sensitive. */
  const TimeOfDayValues: seq<string> := ["Live", "Open", "Close"]

  /** The sections, in the order `section=all` runs them. */
  const ValidSections: seq<string> := ["futures", "bonds", "ir_delta", "new_trades"]

  /** Seconds a cached GET response lives when no section says otherwise. */
  const DefaultCacheTtl: int := 60

  /** Seconds per section; `new_trades` changes fastest. */
  const SectionTtl: map<string, int> := map["futures" := 60, "bonds" := 60, "ir_delta" := 60, "new_trades" := 30]
}

=== FILE: position_cache.dfy ===
/** `position_server/cache.py`: one dictionary from cache key to the
    fetched sections and the time they were written. Python keeps the
    dictionary in insertion order, which `get_cache_info` reports. */
module PositionCache {
  import opened Wrappers
  import opened PyValue
  import opened PositionParams

  datatype Entry = Entry(sections: Value, cachedAt: string)

  /** The dictionary: its keys in insertion order and its entries. */
  datatype Store = Store(order: seq<CacheKey>, entries: map<CacheKey, Entry>)

  datatype InfoEntry = InfoEntry(key: CacheKey, cachedAt: string)

  /** What `get_cache_info` returns. */
  datatype CacheInfo = CacheInfo(size: nat, entries: seq<InfoEntry>)

  /** Each key listed once, and exactly the keys that have entries. */
  predicate Valid(st: Store) {
    && (forall i, j :: 0 <= i < j < |st.order| ==> st.order[i] != st.order[j])
    && (forall k :: k in st.order ==> k in st.entries)
    && (forall k :: k in st.entries ==> k in st.order)
  }

  function Empty(): (st: Store)
    ensures Valid(st)
  {
    Store([], map[])
  }

  /** `get_from_cache`: the sections last written under `key`, if any. */
  function GetFromCache(st: Store, key: CacheKey): (r: Option<Value>)
    ensures r.Some? <==> key in st.entries
  {
    if key in st.entries then Some(st.entries[key].sections) else None
  }

  /** `write_to_cache`, with the timestamp `cachedAt` passed in. Rewriting
      a key keeps its place in the insertion order. */
  function WriteToCache(st: Store, key: CacheKey, sections: Value, cachedAt: string): (st': Store)
    ensures Valid(st) ==> Valid(st')
    ensures st'.entries.Keys == st.entries.Keys + {key}
    ensures st'.entries[key] == Entry(sections, cachedAt)
    ensures forall k :: k in st.entries && k != key ==> st'.entries[k] == st.entries[k]
  {
    var order := if key in st.order then st.order else st.order + [key];
    Store(order, st.entries[key := Entry(sections, cachedAt)])
  }

  /** `get_cache_info`: one entry per key in insertion order, and the
      number of keys as the size. */
  function GetCacheInfo(st: Store): (info: CacheInfo)
    requires Valid(st)
    ensures info.size == |st.entries| == |info.entries|
    ensures forall i :: 0 <= i < |info.entries| ==>
      info.entries[i].key in st.entries && info.entries[i].cachedAt == st.entries[info.entries[i].key].cachedAt
    ensures forall k :: k in st.entries ==> exists i :: 0 <= i < |info.entries| && info.entries[i].key == k
  {
    DistinctOrderSize(st);
    var entries := seq(|st.order|, i requires 0 <= i < |st.order| => InfoEntry(st.order[i], st.entries[st.order[i]].cachedAt));
    assert forall k :: k in st.entries ==> exists i :: 0 <= i < |entries| && entries[i].key == k by {
      forall k | k in st.entries
        ensures exists i :: 0 <= i < |entries| && entries[i].key == k
      {
        var i :| 0 <= i < |st.order| && st.order[i] == k;
        assert entries[i].key == k;
      }
    }
    CacheInfo(|st.entries|, entries)
  }

  /** A list without repeats that covers the keys has one element per key. */
  lemma DistinctOrderSize(st: Store)
    requires Valid(st)
    ensures |st.order| == |st.entries|
  {
    assert st.entries.Keys == set k | k in st.order;
    DistinctCard(st.order);
  }

  /** A list without repeats has as many elements as its set of elements. */
  lemma {:induction false} DistinctCard(s: seq<CacheKey>)
    requires forall i, j :: 0 <= i < j < |s| ==> s[i] != s[j]
    ensures |set k | k in s| == |s|
  {
    if |s| > 0 {
      var init, last := s[..|s| - 1], s[|s| - 1];
      DistinctCard(init);
      assert s == init + [last];
      assert (set k | k in s) == (set k | k in init) + {last};
      assert last !in init;
    }
  }

  /** The last write to a key is what a read returns. */
  lemma WriteThenGet(st: Store, key: CacheKey, sections: Value, cachedAt: string)
    ensures GetFromCache(WriteToCache(st, key, sections, cachedAt), key) == Some(sections)
  {
  }

  /** A write leaves every other key's entry alone. */
  lemma WriteIsolated(st: Store, key: CacheKey, other: CacheKey, sections: Value, cachedAt: string)
    requires other != key
    ensures GetFromCache(WriteToCache(st, key, sections, cachedAt), other) == GetFromCache(st, other)
  {
  }

  /** A key never written reads as `None`. */
  lemma NeverWrittenIsMissing(key: CacheKey)
    ensures GetFromCache(Empty(), key) == None
  {
  }
}

=== FILE: position_config.dfy ===
/** The constants of `position_server/config.py` that the request path and
    the warmup workers read. */
module PositionConfig {
  import opened PyValue

  /** The format every date parameter is parsed with. */
  const DateFormat: string := "%Y%m%d"

  /** `TIMEOUTS`: seconds allowed per section, with a default. */
  const Timeouts: map<string, int> := map["futures" := 60, "bonds" := 60, "default" := 60]

  datatype Schedule = Schedule(startTime: string, endTime: string, intervalSeconds: int)

  /** One entry of `WARMUP_CONFIGS`: its name, the parameter fields
      `build_from_dict` reads, and its schedule. */
  datatype WarmupConfig = WarmupConfig(name: string, fields: Dict, schedule: Schedule)

  function ConfigFields(books: seq<string>, timeOfDay: string): Dict {
    [ Member("env_date", Str("20251216")),
      Member("pos_date", Str("20251215")),
      Member("books", StrList(books)),
      Member("time_of_day", Str(timeOfDay)) ]
  }

  const WarmupConfigs: seq<WarmupConfig> := [
    WarmupConfig("SOD_MAIN", ConfigFields(["CUPS", "YCSO"], "SOD"), Schedule("06:00", "18:00", 60)),
    WarmupConfig("LIVE_EXO", ConfigFields(["EXO"], "LIVE"), Schedule("07:00", "18:00", 30)),
    WarmupConfig("EOD_MAIN", ConfigFields(["CUPS", "YCSO"], "EOD"), Schedule("15:00", "20:00", 60))
  ]
}

=== FILE: position_params.dfy ===
/** `position_server/params.py`: the global request parameters of the
    position server, their validation, their extraction from a GET query, a
    POST body or a warmup config, and the cache key they map to. */
module PositionParams {
  import opened Wrappers
  import opened PyValue
  import Strings
  import Sorting
  import Dates
  import Json

  datatype BaseParams = BaseParams(envDate: string, posDate: string, books: seq<string>, timeOfDay: string)

  /** The tuple `to_cache_key` returns. */
  datatype CacheKey = CacheKey(envDate: string, posDate: string, books: seq<string>, timeOfDay: string)

  /** The exceptions the extractors raise, all `ValueError`s. */
  datatype ParamError =
    | Missing(name: string)
    | NotString(name: string, typeName: string)
    | BadDateFormat(name: string, value: string)
    | BooksNotList(typeName: string)
    | BooksEmpty
    | BooksNotStrings
    | BadTimeOfDay(given: Value)
    | InvalidJson(detail: string)
    | BodyNotObject
    | SectionParamsNotObject

  /** A decoded POST body, or the reason `json.loads` refused it. A parsed
      object holds what `json.loads` built, a dict, so its keys are
      distinct (of repeated keys in the text the last one wins before the
      value gets here), and `Lookup`'s first match is the only one. */
  datatype JsonBody = Parsed(value: Value) | Malformed(detail: string)

  const DateFormat := "%Y%m%d"
  const ValidTimes: seq<string> := ["SOD", "EOD", "LIVE"]

  /** The message of the `ValueError`. */
  function Message(e: ParamError): string {
    match e
    case Missing(name) => "Missing required parameter: " + name
    case NotString(name, t) => name + " must be string, got " + t
    case BadDateFormat(name, v) => name + " must be " + DateFormat + " format, got '" + v + "'"
    case BooksNotList(t) => "books must be list, got " + t
    case BooksEmpty => "books cannot be empty"
    case BooksNotStrings => "books must be non-empty strings"
    case BadTimeOfDay(v) => "time_of_day must be one of " + Json.PyStr(StrList(ValidTimes)) + ", got '" + Json.PyStr(v) + "'"
    case InvalidJson(detail) => "Invalid JSON: " + detail
    case BodyNotObject => "Request body must be a JSON object"
    case SectionParamsNotObject => "section_params must be an object"
  }

  /** The time-of-day message lists the valid times as Python prints the
      list, and the rejected value as `str()` prints it: a str as it is,
      a list of strs in brackets with each str single-quoted. */
  lemma BadTimeOfDayMessages()
    ensures Message(BadTimeOfDay(Str("XYZ"))) == "time_of_day must be one of " + "['SOD', 'EOD', 'LIVE']" + ", got '" + "XYZ" + "'"
    ensures Message(BadTimeOfDay(List([Str("SOD")]))) ==
      "time_of_day must be one of " + "['SOD', 'EOD', 'LIVE']" + ", got '" + "['SOD']" + "'"
  {
    TimeOfDayMessage(Str("XYZ"), "XYZ");
    SodListText();
    TimeOfDayMessage(List([Str("SOD")]), "['SOD']");
  }

  lemma TimeOfDayMessage(v: Value, text: string)
    requires Json.PyStr(v) == text
    ensures Message(BadTimeOfDay(v)) == "time_of_day must be one of " + "['SOD', 'EOD', 'LIVE']" + ", got '" + text + "'"
  {
    ValidTimesText();
  }

  lemma ValidTimesText()
    ensures Json.PyStr(StrList(ValidTimes)) == "['SOD', 'EOD', 'LIVE']"
  {
    TimesList();
    Json.ThreeStrRepr("SOD", "EOD", "LIVE");
    QuotedTimes();
    TimesLiteral();
  }

  lemma TimesList()
    ensures StrList(ValidTimes) == List([Str("SOD"), Str("EOD"), Str("LIVE")])
  {
  }

  lemma TimesLiteral()
    ensures "[" + ("'SOD'" + ", " + ("'EOD'" + ", " + "'LIVE'")) + "]" == "['SOD', 'EOD', 'LIVE']"
  {
  }

  lemma QuotedTimes()
    ensures Json.StrRepr("SOD") == "'SOD'" && Json.StrRepr("EOD") == "'EOD'" && Json.StrRepr("LIVE") == "'LIVE'"
  {
    QuotedSOD();
    QuotedEOD();
    QuotedLIVE();
  }

  lemma QuotedSOD()
    ensures Json.StrRepr("SOD") == "'SOD'"
  {
  }

  lemma QuotedEOD()
    ensures Json.StrRepr("EOD") == "'EOD'"
  {
  }

  lemma QuotedLIVE()
    ensures Json.StrRepr("LIVE") == "'LIVE'"
  {
  }

  lemma SodListText()
    ensures Json.PyStr(List([Str("SOD")])) == "['SOD']"
  {
    Json.OneStrRepr("SOD");
    QuotedSOD();
    assert "[" + "'SOD'" + "]" == "['SOD']";
  }

  /** The parameter a `_validate` error is about. */
  function Subject(e: ParamError): string {
    match e
    case Missing(name) => name
    case NotString(name, _) => name
    case BadDateFormat(name, _) => name
    case BadTimeOfDay(_) => "time_of_day"
    case InvalidJson(_) => "body"
    case BodyNotObject => "body"
    case SectionParamsNotObject => "section_params"
    case _ => "books"
  }

  // ---------------------------------------------------------------------
  // What `_validate` accepts, stated independently of its checks.

  predicate AcceptableDate(v: Value) {
    v.Str? && Dates.ValidDate(v.s)
  }

  predicate AcceptableBooks(v: Value) {
    && v.List?
    && |v.items| > 0
    && forall i :: 0 <= i < |v.items| ==> v.items[i].Str? && !Strings.AllSpace(v.items[i].s)
  }

  predicate AcceptableTimeOfDay(v: Value) {
    v.Str? && v.s in ValidTimes
  }

  /** The parameters `_validate` can return: valid dates, a non-empty list
      of stripped, non-blank books, and one of the three times of day. */
  predicate WellFormed(p: BaseParams) {
    && Dates.ValidDate(p.envDate)
    && Dates.ValidDate(p.posDate)
    && |p.books| > 0
    && (forall i :: 0 <= i < |p.books| ==> p.books[i] != "" && Strings.Trimmed(p.books[i]))
    && p.timeOfDay in ValidTimes
  }

  // ---------------------------------------------------------------------
  // `_validate`

  function CheckDate(name: string, v: Value): (r: Option<ParamError>)
    ensures r.None? <==> AcceptableDate(v)
    ensures r.Some? ==> Subject(r.value) == name && r.value != BooksEmpty
    ensures r == Some(Missing(name)) <==> !Truthy(v)
    ensures Truthy(v) && !v.Str? ==> r == Some(NotString(name, TypeName(v)))
    ensures Truthy(v) && v.Str? && !Dates.ValidDate(v.s) ==> r == Some(BadDateFormat(name, v.s))
  {
    if !Truthy(v) then Some(Missing(name))
    else if !v.Str? then Some(NotString(name, TypeName(v)))
    else if !Dates.ValidDate(v.s) then Some(BadDateFormat(name, v.s))
    else None
  }

  function CheckBooks(v: Value): (r: Option<ParamError>)
    ensures r.None? <==> AcceptableBooks(v)
    ensures r.Some? ==> Subject(r.value) == "books" && r.value != BooksEmpty
    ensures r == Some(Missing("books")) <==> !Truthy(v)
    ensures Truthy(v) && !v.List? ==> r == Some(BooksNotList(TypeName(v)))
    ensures Truthy(v) && v.List? && !AcceptableBooks(v) ==> r == Some(BooksNotStrings)
  {
    if !Truthy(v) then Some(Missing("books"))
    else if !v.List? then Some(BooksNotList(TypeName(v)))
    else if |v.items| == 0 then Some(BooksEmpty)
    else if !(forall i :: 0 <= i < |v.items| ==> v.items[i].Str? && Strings.Strip(v.items[i].s) != "") then
      Some(BooksNotStrings)
    else
      assert AcceptableBooks(v) by {
        forall i | 0 <= i < |v.items|
          ensures !Strings.AllSpace(v.items[i].s)
        {
          Strings.StripEmpty(v.items[i].s);
        }
      }
      None
  }

  function CheckTimeOfDay(v: Value): (r: Option<ParamError>)
    ensures r.None? <==> AcceptableTimeOfDay(v)
    ensures r.Some? ==> Subject(r.value) == "time_of_day" && r.value != BooksEmpty
    ensures r == Some(Missing("time_of_day")) <==> !Truthy(v)
    ensures Truthy(v) && !AcceptableTimeOfDay(v) ==> r == Some(BadTimeOfDay(v))
  {
    if !Truthy(v) then Some(Missing("time_of_day"))
    else if !(v.Str? && v.s in ValidTimes) then Some(BadTimeOfDay(v))
    else None
  }

  /** The first error among the checks, taken in order. */
  function FirstError(checks: seq<Option<ParamError>>): (r: Option<ParamError>)
    ensures r.None? <==> forall i :: 0 <= i < |checks| ==> checks[i].None?
    ensures r.Some? ==> exists i :: 0 <= i < |checks| && checks[i] == r && forall j :: 0 <= j < i ==> checks[j].None?
  {
    if |checks| == 0 then None
    else if checks[0].Some? then checks[0]
    else
      assert forall i :: 0 < i < |checks| ==> checks[i] == checks[1..][i - 1];
      FirstError(checks[1..])
  }

  /** `[b.strip() for b in books]`. */
  function StripAll(items: seq<Value>): (r: seq<string>)
    requires forall i :: 0 <= i < |items| ==> items[i].Str?
    ensures |r| == |items|
  {
    seq(|items|, i requires 0 <= i < |items| => Strings.Strip(items[i].s))
  }

  /** `_validate`: the four checks in order, the first failing one raising.
      Missing or empty values are reported as missing; dates come back
      unchanged and books stripped, in order. */
  function Validate(envDate: Value, posDate: Value, books: Value, timeOfDay: Value): (r: Result<BaseParams, ParamError>)
    ensures r.Success? <==>
      AcceptableDate(envDate) && AcceptableDate(posDate) && AcceptableBooks(books) && AcceptableTimeOfDay(timeOfDay)
    ensures !AcceptableDate(envDate) ==> r.Failure? && Subject(r.error) == "env_date"
    ensures AcceptableDate(envDate) && !AcceptableDate(posDate) ==> r.Failure? && Subject(r.error) == "pos_date"
    ensures AcceptableDate(envDate) && AcceptableDate(posDate) && !AcceptableBooks(books) ==>
      r.Failure? && Subject(r.error) == "books"
    ensures AcceptableDate(envDate) && AcceptableDate(posDate) && AcceptableBooks(books) && !AcceptableTimeOfDay(timeOfDay) ==>
      r.Failure? && Subject(r.error) == "time_of_day"
    ensures r == Failure(Missing("env_date")) <==> !Truthy(envDate)
    ensures AcceptableDate(envDate) ==> (r == Failure(Missing("pos_date")) <==> !Truthy(posDate))
    ensures AcceptableDate(envDate) && AcceptableDate(posDate) ==> (r == Failure(Missing("books")) <==> !Truthy(books))
    ensures r.Failure? ==> r.error != BooksEmpty
    ensures r.Success? ==>
      && r.value.envDate == envDate.s
      && r.value.posDate == posDate.s
      && r.value.timeOfDay == timeOfDay.s
      && |r.value.books| == |books.items|
      && forall i :: 0 <= i < |books.items| ==> r.value.books[i] == Strings.Strip(books.items[i].s)
  {
    var e, q, b, t := CheckDate("env_date", envDate), CheckDate("pos_date", posDate), CheckBooks(books),
                      CheckTimeOfDay(timeOfDay);
    if e.Some? then Failure(e.value)
    else if q.Some? then Failure(q.value)
    else if b.Some? then Failure(b.value)
    else if t.Some? then Failure(t.value)
    else Success(BaseParams(envDate.s, posDate.s, StripAll(books.items), timeOfDay.s))
  }

  /** The checks `_validate` runs, in source order. */
  function Checks(envDate: Value, posDate: Value, books: Value, timeOfDay: Value): seq<Option<ParamError>> {
    [CheckDate("env_date", envDate), CheckDate("pos_date", posDate), CheckBooks(books), CheckTimeOfDay(timeOfDay)]
  }

  /** The error `_validate` raises is the first failing check in source
      order, and it fails exactly when some check does. */
  lemma {:induction false} ValidateFirstError(envDate: Value, posDate: Value, books: Value, timeOfDay: Value)
    ensures Validate(envDate, posDate, books, timeOfDay).Failure? <==>
      FirstError(Checks(envDate, posDate, books, timeOfDay)).Some?
    ensures Validate(envDate, posDate, books, timeOfDay).Failure? ==>
      Some(Validate(envDate, posDate, books, timeOfDay).error) == FirstError(Checks(envDate, posDate, books, timeOfDay))
  {
    var c := Checks(envDate, posDate, books, timeOfDay);
    assert c[1..] == [c[1], c[2], c[3]];
    assert c[1..][1..] == [c[2], c[3]];
    assert c[1..][1..][1..] == [c[3]];
    assert c[1..][1..][1..][1..] == [];
  }

  /** Whatever `_validate` returns is well formed. */
  lemma ValidateWellFormed(envDate: Value, posDate: Value, books: Value, timeOfDay: Value)
    requires Validate(envDate, posDate, books, timeOfDay).Success?
    ensures WellFormed(Validate(envDate, posDate, books, timeOfDay).value)
  {
    var p := Validate(envDate, posDate, books, timeOfDay).value;
    forall i | 0 <= i < |p.books|
      ensures p.books[i] != "" && Strings.Trimmed(p.books[i])
    {
      Strings.StripEmpty(books.items[i].s);
    }
  }

  // ---------------------------------------------------------------------
  // `BaseParams.to_cache_key` and `to_dict`

  function Identity(s: string): string {
    s
  }

  /** The books are sorted, so the key keeps them as a multiset only. */
  function ToCacheKey(p: BaseParams): (k: CacheKey)
    ensures k.envDate == p.envDate && k.posDate == p.posDate && k.timeOfDay == p.timeOfDay
    ensures Sorting.SortedBy(k.books, Identity)
    ensures multiset(k.books) == multiset(p.books)
  {
    CacheKey(p.envDate, p.posDate, Sorting.SortBy(p.books, Identity), p.timeOfDay)
  }

  /** Two parameter sets share a cache key exactly when they agree on the
      dates and time of day and their books are permutations of one
      another. */
  lemma CacheKeyIgnoresBookOrder(p: BaseParams, q: BaseParams)
    ensures ToCacheKey(p) == ToCacheKey(q) <==>
      && p.envDate == q.envDate
      && p.posDate == q.posDate
      && p.timeOfDay == q.timeOfDay
      && multiset(p.books) == multiset(q.books)
  {
    Sorting.SortByPermutation(p.books, q.books, Identity);
  }

  /** `dataclasses.asdict`: the four fields in declaration order. */
  function ToDict(p: BaseParams): (d: Dict)
    ensures Keys(d) == ["env_date", "pos_date", "books", "time_of_day"]
  {
    [Member("env_date", Str(p.envDate)), Member("pos_date", Str(p.posDate)),
     Member("books", StrList(p.books)), Member("time_of_day", Str(p.timeOfDay))]
  }

  // ---------------------------------------------------------------------
  // The three ways parameters enter the server.

  function OptionalArg(a: Option<string>): Value {
    if a.Some? then Str(a.value) else Null
  }

  /** `[b.strip() for b in books_raw.split(",")]`. */
  function SplitBooks(raw: string): (r: seq<string>)
    ensures |r| == |Strings.Split(raw, ',')|
    ensures forall i :: 0 <= i < |r| ==> r[i] == Strings.Strip(Strings.Split(raw, ',')[i]) && ',' !in r[i]
  {
    var pieces := Strings.Split(raw, ',');
    var r := seq(|pieces|, i requires 0 <= i < |pieces| => Strings.Strip(pieces[i]));
    assert forall i :: 0 <= i < |r| ==> ',' !in r[i] by {
      forall i | 0 <= i < |r|
        ensures ',' !in r[i]
      {
        if ',' in r[i] {
          Strings.StripSubset(pieces[i], ',');
        }
      }
    }
    r
  }

  /** `extract_from_get`, given what `get_query_argument` returned for each
      name. An absent or empty `books` argument counts as missing; otherwise
      it is split on `,` and each piece stripped, so no accepted book holds
      a comma. */
  function ExtractFromGet(envDate: Option<string>, posDate: Option<string>, books: Option<string>, timeOfDay: Option<string>)
    : (r: Result<BaseParams, ParamError>)
    ensures r == Validate(OptionalArg(envDate), OptionalArg(posDate), BooksArg(books), OptionalArg(timeOfDay))
    ensures (books == None || books == Some("")) && AcceptableDate(OptionalArg(envDate)) && AcceptableDate(OptionalArg(posDate)) ==>
      r == Failure(Missing("books"))
    ensures r.Success? ==>
      && books.Some?
      && r.value.books == SplitBooks(books.value)
      && forall i :: 0 <= i < |r.value.books| ==> ',' !in r.value.books[i]
  {
    var bookList := BooksArg(books);
    var r := Validate(OptionalArg(envDate), OptionalArg(posDate), bookList, OptionalArg(timeOfDay));
    assert bookList == Null ==> !Truthy(bookList);
    if r.Success? then
      ValidatedBooks(OptionalArg(envDate), OptionalArg(posDate), bookList, OptionalArg(timeOfDay));
      StripAllStripped(SplitBooks(books.value));
      r
    else r
  }

  /** The `books` value `extract_from_get` hands to `_validate`: the split
      pieces, or `None` when the argument is absent or empty. */
  function BooksArg(books: Option<string>): Value {
    if books.Some? && books.value != "" then StrList(SplitBooks(books.value)) else Null
  }

  /** A GET request passes exactly when both dates are valid, `books` is
      given and splits into non-blank pieces, and the time of day is known;
      it then carries the three texts as given and the split books. */
  lemma GetExtracts(envDate: Option<string>, posDate: Option<string>, books: Option<string>, timeOfDay: Option<string>)
    ensures var r := ExtractFromGet(envDate, posDate, books, timeOfDay);
      && (r.Success? <==>
            && AcceptableDate(OptionalArg(envDate)) && AcceptableDate(OptionalArg(posDate))
            && books.Some? && AcceptableBooks(StrList(SplitBooks(books.value)))
            && AcceptableTimeOfDay(OptionalArg(timeOfDay)))
      && (r.Success? ==> r.value == BaseParams(envDate.value, posDate.value, SplitBooks(books.value), timeOfDay.value))
  {
    if books == Some("") {
      EmptySplitsBlank();
    }
  }

  /** The empty text splits into one blank piece, which is refused. */
  lemma EmptySplitsBlank()
    ensures !AcceptableBooks(StrList(SplitBooks("")))
  {
    BlankPieceRejected("", 0);
  }

  /** The books `_validate` returns are the given ones, stripped. */
  lemma ValidatedBooks(envDate: Value, posDate: Value, books: Value, timeOfDay: Value)
    requires Validate(envDate, posDate, books, timeOfDay).Success?
    ensures books.List? && forall i :: 0 <= i < |books.items| ==> books.items[i].Str?
    ensures Validate(envDate, posDate, books, timeOfDay).value.books == StripAll(books.items)
  {
  }

  /** Stripping already-stripped books changes nothing. */
  lemma StripAllStripped(bs: seq<string>)
    requires forall i :: 0 <= i < |bs| ==> Strings.Trimmed(bs[i])
    ensures StripAll(StrList(bs).items) == bs
  {
    forall i | 0 <= i < |bs|
      ensures Strings.Strip(bs[i]) == bs[i]
    {
      Strings.StripTrimmed(bs[i]);
    }
  }

  /** A GET query whose `books` has an empty piece (`"a,,b"`) is rejected
      once the dates are valid. */
  lemma GetEmptyBookRejected(envDate: string, posDate: string, books: string, timeOfDay: Option<string>, i: nat)
    requires Dates.ValidDate(envDate) && Dates.ValidDate(posDate)
    requires books != ""
    requires i < |Strings.Split(books, ',')| && Strings.AllSpace(Strings.Split(books, ',')[i])
    ensures ExtractFromGet(Some(envDate), Some(posDate), Some(books), timeOfDay) == Failure(BooksNotStrings)
  {
    var bookList := StrList(SplitBooks(books));
    BlankPieceRejected(books, i);
    ValidateReportsBooks(Str(envDate), Str(posDate), bookList, OptionalArg(timeOfDay));
  }

  lemma BlankPieceRejected(books: string, i: nat)
    requires i < |Strings.Split(books, ',')| && Strings.AllSpace(Strings.Split(books, ',')[i])
    ensures CheckBooks(StrList(SplitBooks(books))) == Some(BooksNotStrings)
  {
    var pieces := SplitBooks(books);
    Strings.StripEmpty(Strings.Split(books, ',')[i]);
    BlankItemRejected(pieces, i);
  }

  /** A list of strs with a blank one among them is rejected. */
  lemma BlankItemRejected(pieces: seq<string>, i: nat)
    requires i < |pieces| && pieces[i] == ""
    ensures CheckBooks(StrList(pieces)) == Some(BooksNotStrings)
  {
    var bookList := StrList(pieces);
    assert bookList.items[i].s == "";
  }

  /** Once both dates pass, a books failure is the one reported. */
  lemma ValidateReportsBooks(envDate: Value, posDate: Value, books: Value, timeOfDay: Value)
    requires AcceptableDate(envDate) && AcceptableDate(posDate) && CheckBooks(books).Some?
    ensures Validate(envDate, posDate, books, timeOfDay) == Failure(CheckBooks(books).value)
  {
  }

  /** `extract_from_post`, after `json.loads`: the body must be an object,
      its `section_params` absent, `null` or an object (checked before the
      parameters), and an absent one comes back as `None`. */
  function ExtractFromPost(body: JsonBody): (r: Result<(BaseParams, Value), ParamError>)
    ensures body.Malformed? ==> r == Failure(InvalidJson(body.detail))
    ensures body.Parsed? && !body.value.Object? ==> r == Failure(BodyNotObject)
    ensures body.Parsed? && body.value.Object? ==>
      var sp := Get(body.value.members, "section_params");
      && (sp != Null && !sp.Object? ==> r == Failure(SectionParamsNotObject))
      && (sp == Null || sp.Object? ==>
            var v := Validate(
              Get(body.value.members, "env_date"), Get(body.value.members, "pos_date"),
              Get(body.value.members, "books"), Get(body.value.members, "time_of_day"));
            && (v.Success? ==> r == Success((v.value, sp)))
            && (v.Failure? ==> r == Failure(v.error)))
    ensures r.Success? ==>
      && body.Parsed?
      && body.value.Object?
      && (r.value.1 == Null || r.value.1.Object?)
      && r.value.1 == Get(body.value.members, "section_params")
  {
    match body
    case Malformed(detail) => Failure(InvalidJson(detail))
    case Parsed(v) =>
      if !v.Object? then Failure(BodyNotObject)
      else
        var d := v.members;
        var sectionParams := Get(d, "section_params");
        if sectionParams != Null && !sectionParams.Object? then Failure(SectionParamsNotObject)
        else
          match Validate(Get(d, "env_date"), Get(d, "pos_date"), Get(d, "books"), Get(d, "time_of_day"))
          case Success(p) => Success((p, sectionParams))
          case Failure(e) => Failure(e)
  }

  /** A POST body holding the four fields of well-formed parameters, and a
      `section_params` that is `null` or an object, gives back both. */
  lemma PostRoundTrip(p: BaseParams, sp: Value)
    requires WellFormed(p) && (sp == Null || sp.Object?)
    ensures ExtractFromPost(Parsed(Object(ToDict(p) + [Member("section_params", sp)]))) == Success((p, sp))
  {
    PostBodyGets(p, sp);
    ValidateWellFormedIdentity(p);
  }

  /** Each field reads back from such a body. */
  lemma PostBodyGets(p: BaseParams, sp: Value)
    ensures var d := ToDict(p) + [Member("section_params", sp)];
      && Get(d, "env_date") == Str(p.envDate)
      && Get(d, "pos_date") == Str(p.posDate)
      && Get(d, "books") == StrList(p.books)
      && Get(d, "time_of_day") == Str(p.timeOfDay)
      && Get(d, "section_params") == sp
  {
    ToDictGets(p);
    SectionParamsNotField(p);
    AppendedFour(ToDict(p), "section_params", sp, "env_date", "pos_date", "books", "time_of_day",
                 Str(p.envDate), Str(p.posDate), StrList(p.books), Str(p.timeOfDay));
  }

  lemma SectionParamsNotField(p: BaseParams)
    ensures "section_params" !in Keys(ToDict(p))
  {
  }

  /** Appending a new key leaves the reads of four other keys alone. */
  lemma AppendedFour(d: Dict, k: string, v: Value, k0: string, k1: string, k2: string, k3: string,
                     v0: Value, v1: Value, v2: Value, v3: Value)
    requires k !in Keys(d) && k != k0 && k != k1 && k != k2 && k != k3
    requires Get(d, k0) == v0 && Get(d, k1) == v1 && Get(d, k2) == v2 && Get(d, k3) == v3
    ensures var e := d + [Member(k, v)];
      Get(e, k0) == v0 && Get(e, k1) == v1 && Get(e, k2) == v2 && Get(e, k3) == v3 && Get(e, k) == v
  {
    AppendedGet(d, k, v, k0);
    AppendedGet(d, k, v, k1);
    AppendedGet(d, k, v, k2);
    AppendedGet(d, k, v, k3);
    AppendedGet(d, k, v, k);
  }

  lemma AppendedGet(d: Dict, k: string, v: Value, j: string)
    requires k !in Keys(d)
    ensures Get(d + [Member(k, v)], j) == if j == k then v else Get(d, j)
  {
    LookupAppend(d, k, v, j);
  }

  /** `build_from_dict`, used for the warmup configs. */
  function BuildFromDict(d: Dict): Result<BaseParams, ParamError> {
    Validate(Get(d, "env_date"), Get(d, "pos_date"), Get(d, "books"), Get(d, "time_of_day"))
  }

  /** `_validate` gives back every well-formed parameter set unchanged. */
  lemma ValidateWellFormedIdentity(p: BaseParams)
    requires WellFormed(p)
    ensures Validate(Str(p.envDate), Str(p.posDate), StrList(p.books), Str(p.timeOfDay)) == Success(p)
  {
    var books := StrList(p.books);
    assert AcceptableBooks(books) by {
      forall i | 0 <= i < |books.items|
        ensures !Strings.AllSpace(books.items[i].s)
      {
        assert p.books[i][0] == books.items[i].s[0];
      }
    }
    StripAllStripped(p.books);
  }

  /** `build_from_dict(asdict(p)) == p` for every parameter set
      `_validate` can produce. */
  lemma BuildFromDictRoundTrip(p: BaseParams)
    requires WellFormed(p)
    ensures BuildFromDict(ToDict(p)) == Success(p)
  {
    ToDictGets(p);
    ValidateWellFormedIdentity(p);
  }

  /** Each field reads back from `asdict`. */
  lemma ToDictGets(p: BaseParams)
    ensures var d := ToDict(p);
      && Get(d, "env_date") == Str(p.envDate)
      && Get(d, "pos_date") == Str(p.posDate)
      && Get(d, "books") == StrList(p.books)
      && Get(d, "time_of_day") == Str(p.timeOfDay)
  {
    FourMembers("env_date", "pos_date", "books", "time_of_day",
                Str(p.envDate), Str(p.posDate), StrList(p.books), Str(p.timeOfDay));
  }

  /** Lookups in a four-member dict with distinct keys. */
  lemma FourMembers(k0: string, k1: string, k2: string, k3: string, v0: Value, v1: Value, v2: Value, v3: Value)
    requires k0 != k1 && k0 != k2 && k0 != k3 && k1 != k2 && k1 != k3 && k2 != k3
    ensures var d := [Member(k0, v0), Member(k1, v1), Member(k2, v2), Member(k3, v3)];
      Get(d, k0) == v0 && Get(d, k1) == v1 && Get(d, k2) == v2 && Get(d, k3) == v3
  {
    var d := [Member(k0, v0), Member(k1, v1), Member(k2, v2), Member(k3, v3)];
    assert UniqueKeys(d);
    LookupMember(d, 0);
    LookupMember(d, 1);
    LookupMember(d, 2);
    LookupMember(d, 3);
  }

  /** The `books` argument of a GET query, when it holds no commas, is read
      back as the same list: the query of a well-formed parameter set is
      extracted as that parameter set. */
  lemma GetRoundTrip(p: BaseParams)
    requires WellFormed(p)
    requires forall i :: 0 <= i < |p.books| ==> ',' !in p.books[i]
    ensures ExtractFromGet(Some(p.envDate), Some(p.posDate), Some(Strings.Join(p.books, ",")), Some(p.timeOfDay)) == Success(p)
  {
    var raw := Strings.Join(p.books, ",");
    Strings.SplitJoin(p.books, ',');
    assert raw != "" by {
      JoinStartsWithFirst(p.books, ",");
    }
    StripAllStripped(p.books);
    assert SplitBooks(raw) == p.books;
    ValidateWellFormedIdentity(p);
  }

  lemma JoinStartsWithFirst(parts: seq<string>, sep: string)
    requires |parts| > 0
    ensures |Strings.Join(parts, sep)| >= |parts[0]|
  {
  }
}

=== FILE: pydantic.dfy ===
/** The part of pydantic 2 the root API relies on: typed fields validated
    in lax (Python) mode, one error per failing field with its location
    and message, and `float()` on text, which both the GET conversion and
    pydantic's number coercion perform. */
module Pydantic {
  import opened Wrappers
  import opened PyValue
  import Strings
  import Dates
  import Json

  // ---------------------------------------------------------------------
  // Errors.

  /** One step of an error location: a field name or a list index. */
  datatype LocPart = Field(name: string) | Index(i: nat)

  /** One entry of `ValidationError.errors()`. */
  datatype ErrorDetail = ErrorDetail(loc: seq<LocPart>, msg: string)

  function LocPartText(p: LocPart): string {
    match p
    case Field(name) => name
    case Index(i) => Json.NatToString(i)
  }

  /** `".".join(str(x) for x in err["loc"])`. */
  function LocText(loc: seq<LocPart>): string {
    Strings.Join(seq(|loc|, i requires 0 <= i < |loc| => LocPartText(loc[i])), ".")
  }

  /** `f"{field}: {msg}"`. */
  function FormatError(e: ErrorDetail): string {
    LocText(e.loc) + ": " + e.msg
  }

  function FormatErrors(es: seq<ErrorDetail>): seq<string> {
    seq(|es|, i requires 0 <= i < |es| => FormatError(es[i]))
  }

  const FieldRequired: string := "Field required"
  const NotString: string := "Input should be a valid string"
  const NotList: string := "Input should be a valid list"
  const NotNumber: string := "Input should be a valid number"
  const NotNumberText: string := "Input should be a valid number, unable to parse string as a number"
  const NotBoolean: string := "Input should be a valid boolean"
  const NotBooleanText: string := "Input should be a valid boolean, unable to interpret input"

  /** The message pydantic reports for a `ValueError` raised by a validator. */
  function ValueError(message: string): string {
    "Value error, " + message
  }

  // ---------------------------------------------------------------------
  // `float()` on text.

  predicate AllDigits(s: string) {
    forall i :: 0 <= i < |s| ==> Dates.IsDigit(s[i])
  }

  /** An unsigned decimal with at most one point and at least one digit,
      as the value `digits / 10^scale`. */
  function UnsignedDecimal(s: string): (r: Option<(nat, nat)>)
    ensures r.Some? ==> |s| > 0
  {
    if '.' in s then
      var i := Strings.IndexOf(s, '.');
      var whole, fraction := s[..i], s[i + 1..];
      if AllDigits(whole) && AllDigits(fraction) && |whole| + |fraction| > 0 then
        NumberNonNegative(whole + fraction);
        Some((Dates.Number(whole + fraction), |fraction|))
      else None
    else if AllDigits(s) && |s| > 0 then
      NumberNonNegative(s);
      Some((Dates.Number(s), 0))
    else None
  }

  lemma {:induction false} NumberNonNegative(s: string)
    ensures Dates.Number(s) >= 0
  {
    if |s| > 0 {
      NumberNonNegative(s[..|s| - 1]);
    }
  }

  /** `float(s)` for decimal text: surrounding whitespace is ignored and a
      sign may lead. */
  function ParseFloat(s: string): (r: Option<Value>)
    ensures r.Some? ==> r.value.Float?
    ensures r.Some? ==> Strings.Strip(s) != ""
    ensures r.Some? <==> UnsignedDecimal(Unsigned(Strings.Strip(s))).Some?
    ensures r.Some? ==>
      var u := UnsignedDecimal(Unsigned(Strings.Strip(s))).value;
      r.value == Float(if Negative(Strings.Strip(s)) then -(u.0 as int) else u.0 as int, u.1)
  {
    SignedDecimal(Strings.Strip(s))
  }

  /** The value of stripped text: an optional sign, then an unsigned
      decimal. */
  function SignedDecimal(t: string): (r: Option<Value>)
    ensures r.Some? ==> r.value.Float? && t != ""
    ensures r.Some? <==> UnsignedDecimal(Unsigned(t)).Some?
    ensures r.Some? ==>
      var u := UnsignedDecimal(Unsigned(t)).value;
      r.value == Float(if Negative(t) then -(u.0 as int) else u.0 as int, u.1)
  {
    var signed := |t| > 0 && (t[0] == '-' || t[0] == '+');
    var body := if signed then t[1..] else t;
    match UnsignedDecimal(body)
    case None => None
    case Some((magnitude, scale)) =>
      Some(Float(if signed && t[0] == '-' then -(magnitude as int) else magnitude as int, scale))
  }

  /** Text that starts with a minus sign. */
  predicate Negative(t: string) {
    |t| > 0 && t[0] == '-'
  }

  /** The text after a leading sign, if any. */
  function Unsigned(t: string): (u: string)
    ensures |t| > 0 && (t[0] == '-' || t[0] == '+') ==> u == t[1..]
    ensures !(|t| > 0 && (t[0] == '-' || t[0] == '+')) ==> u == t
  {
    if |t| > 0 && (t[0] == '-' || t[0] == '+') then t[1..] else t
  }

  /** A parsed float with its sign flipped; no value stays no value. */
  function Negated(r: Option<Value>): Option<Value> {
    if r.Some? && r.value.Float? then Some(Float(-r.value.digits, r.value.scale)) else r
  }

  /** A minus sign negates the number and a plus sign changes nothing. */
  lemma ParseFloatSigned(s: string)
    requires Strings.Trimmed(s) && |s| > 0 && s[0] != '-' && s[0] != '+'
    ensures ParseFloat(['+'] + s) == ParseFloat(s)
    ensures ParseFloat(['-'] + s) == Negated(ParseFloat(s))
  {
    PlusSign(s);
    MinusSign(s);
  }

  lemma PlusSign(s: string)
    requires Strings.Trimmed(s) && |s| > 0 && s[0] != '-' && s[0] != '+'
    ensures ParseFloat(['+'] + s) == ParseFloat(s)
  {
    SignedTrimmed('+', s);
    ParseFloatTrimmed(s);
    ParseFloatTrimmed(['+'] + s);
    SignRemoved('+', s);
    SameSignStripped(['+'] + s, s);
  }

  lemma MinusSign(s: string)
    requires Strings.Trimmed(s) && |s| > 0 && s[0] != '-' && s[0] != '+'
    ensures ParseFloat(['-'] + s) == Negated(ParseFloat(s))
  {
    SignedTrimmed('-', s);
    ParseFloatTrimmed(s);
    ParseFloatTrimmed(['-'] + s);
    SignRemoved('-', s);
    OppositeSignStripped(['-'] + s, s);
  }

  /** Text without surrounding whitespace parses as its signed decimal. */
  lemma ParseFloatTrimmed(t: string)
    requires Strings.Trimmed(t)
    ensures ParseFloat(t) == SignedDecimal(t)
  {
    Strings.StripTrimmed(t);
  }

  /** Texts with the same sign and the same digits have the same value. */
  lemma SameSignStripped(ta: string, tb: string)
    requires Unsigned(ta) == Unsigned(tb) && Negative(ta) == Negative(tb)
    ensures SignedDecimal(ta) == SignedDecimal(tb)
  {
  }

  /** A negative text has the negated value of its positive twin. */
  lemma OppositeSignStripped(ta: string, tb: string)
    requires Unsigned(ta) == Unsigned(tb) && Negative(ta) && !Negative(tb)
    ensures SignedDecimal(ta) == Negated(SignedDecimal(tb))
  {
  }

  lemma SignRemoved(c: char, s: string)
    requires c == '-' || c == '+'
    requires |s| > 0 && s[0] != '-' && s[0] != '+'
    ensures Unsigned([c] + s) == s && (Negative([c] + s) <==> c == '-')
    ensures Unsigned(s) == s && !Negative(s)
  {
    var t := [c] + s;
    assert t[0] == c && t[1..] == s;
  }

  lemma SignedTrimmed(c: char, s: string)
    requires c == '-' || c == '+'
    requires Strings.Trimmed(s) && |s| > 0
    ensures Strings.Trimmed([c] + s)
  {
    var t := [c] + s;
    assert t[|t| - 1] == s[|s| - 1];
  }

  lemma {:induction false} NumberOfNatText(n: nat)
    ensures Dates.Number(Json.NatToString(n)) == n
  {
    var s := Json.NatToString(n);
    if n >= 10 {
      NumberOfNatText(n / 10);
      assert s[..|s| - 1] == Json.NatToString(n / 10);
    }
  }

  /** `float(str(n))` is `n`: the text an integer prints as parses back. */
  lemma ParseFloatOfInt(n: nat)
    ensures ParseFloat(Json.NatToString(n)) == Some(Float(n, 0))
  {
    var s := Json.NatToString(n);
    assert AllDigits(s);
    ParseFloatOfDigits(s);
    NumberOfNatText(n);
  }

  lemma ParseFloatOfDigits(s: string)
    requires |s| > 0 && AllDigits(s)
    ensures ParseFloat(s) == Some(Float(Dates.Number(s), 0))
  {
    DigitsStripped(s);
    UnsignedDigits(s);
    NumberNonNegative(s);
    var t := Strings.Strip(s);
    assert t == s;
    var signed := |t| > 0 && (t[0] == '-' || t[0] == '+');
    assert !signed;
    assert UnsignedDecimal(t) == Some((Dates.Number(s), 0));
  }

  lemma UnsignedDigits(s: string)
    requires |s| > 0 && AllDigits(s)
    ensures UnsignedDecimal(s) == Some((Dates.Number(s), 0))
  {
    DigitsHaveNoPoint(s);
  }

  lemma DigitsStripped(s: string)
    requires |s| > 0 && AllDigits(s)
    ensures Strings.Strip(s) == s
    ensures s[0] != '-' && s[0] != '+'
  {
    assert Dates.IsDigit(s[0]) && Dates.IsDigit(s[|s| - 1]);
    assert !Strings.IsSpace(s[0]) && !Strings.IsSpace(s[|s| - 1]);
    Strings.StripTrimmed(s);
  }

  lemma DigitsHaveNoPoint(s: string)
    requires AllDigits(s)
    ensures '.' !in s
  {
  }

  // ---------------------------------------------------------------------
  // Typed fields.

  datatype FieldKind = FloatKind | StrKind | BoolKind

  /** A model field: its name, its type, and whether it is `Optional[...]`
      with default `None`. */
  datatype FieldSpec = FieldSpec(name: string, kind: FieldKind, optional: bool)

  /** The strings pydantic reads as booleans, after lower-casing. */
  const TrueTexts: seq<string> := ["1", "on", "t", "true", "y", "yes"]
  const FalseTexts: seq<string> := ["0", "off", "f", "false", "n", "no"]

  /** A float field in lax mode: numbers, booleans and decimal text. */
  function CoerceFloat(v: Value): (r: Result<Value, string>)
    ensures r.Success? ==> r.value.Float?
    ensures r.Success? <==> v.Int? || v.Float? || v.Bool? || (v.Str? && ParseFloat(v.s).Some?)
    ensures v.Float? ==> r == Success(v)
  {
    match v
    case Int(i) => Success(Float(i, 0))
    case Float(_, _) => Success(v)
    case Bool(b) => Success(Float(if b then 1 else 0, 0))
    case Str(s) => if ParseFloat(s).Some? then Success(ParseFloat(s).value) else Failure(NotNumberText)
    case _ => Failure(NotNumber)
  }

  /** An int read as a bool: 0 and 1 only. */
  function IntAsBool(i: int): (r: Result<Value, string>)
    ensures r.Success? <==> i == 0 || i == 1
    ensures r.Success? ==> r.value == Bool(i == 1)
    ensures r.Failure? ==> r.error == NotBooleanText
  {
    if i == 0 || i == 1 then Success(Bool(i == 1)) else Failure(NotBooleanText)
  }

  /** A float with no fractional part. */
  predicate Whole(digits: int, scale: nat) {
    digits % Json.Pow10(scale) == 0
  }

  /** The integer a whole float equals. */
  function WholeValue(digits: int, scale: nat): int {
    digits / Json.Pow10(scale)
  }

  /** A bool field in lax mode: booleans, the yes/no words, and ints and
      whole floats equal to 0 or 1. A float with a fractional part is not
      a boolean at all; any other number cannot be interpreted as one. */
  function CoerceBool(v: Value): (r: Result<Value, string>)
    ensures r.Success? ==> r.value.Bool?
    ensures v.Bool? ==> r == Success(v)
    ensures v.Str? ==> (r.Success? <==> Strings.Lower(v.s) in TrueTexts || Strings.Lower(v.s) in FalseTexts)
    ensures v.Str? && r.Success? ==> r.value.b == (Strings.Lower(v.s) in TrueTexts)
    ensures v.Str? && r.Failure? ==> r.error == NotBooleanText
    ensures v.Int? ==> r == IntAsBool(v.i)
    ensures v.Float? && !Whole(v.digits, v.scale) ==> r == Failure(NotBoolean)
    ensures v.Float? && Whole(v.digits, v.scale) ==> r == IntAsBool(WholeValue(v.digits, v.scale))
    ensures v.Null? || v.List? || v.Object? ==> r == Failure(NotBoolean)
  {
    match v
    case Bool(_) => Success(v)
    case Int(i) => IntAsBool(i)
    case Float(digits, scale) =>
      if !Whole(digits, scale) then Failure(NotBoolean)
      else IntAsBool(WholeValue(digits, scale))
    case Str(s) =>
      var lower := Strings.Lower(s);
      if lower in TrueTexts then Success(Bool(true))
      else if lower in FalseTexts then Success(Bool(false))
      else Failure(NotBooleanText)
    case _ => Failure(NotBoolean)
  }

  /** `0.5` is not a boolean; `2.0` is a number that is not 0 or 1. */
  lemma FloatBoolErrors()
    ensures CoerceBool(Float(5, 1)) == Failure(NotBoolean)
    ensures CoerceBool(Float(20, 1)) == Failure(NotBooleanText)
    ensures CoerceBool(Float(10, 1)) == Success(Bool(true))
  {
    assert Json.Pow10(1) == 10;
  }

  function CoerceStr(v: Value): (r: Result<Value, string>)
    ensures r.Success? <==> v.Str?
    ensures r.Success? ==> r.value == v
  {
    if v.Str? then Success(v) else Failure(NotString)
  }

  function Coerce(kind: FieldKind, v: Value): Result<Value, string> {
    match kind
    case FloatKind => CoerceFloat(v)
    case StrKind => CoerceStr(v)
    case BoolKind => CoerceBool(v)
  }

  /** What a field accepts, stated without running the coercions. */
  predicate KindAccepts(kind: FieldKind, v: Value) {
    match kind
    case FloatKind => v.Int? || v.Float? || v.Bool? || (v.Str? && ParseFloat(v.s).Some?)
    case StrKind => v.Str?
    case BoolKind =>
      || v.Bool?
      || (v.Int? && (v.i == 0 || v.i == 1))
      || (v.Float? && Whole(v.digits, v.scale) && (WholeValue(v.digits, v.scale) == 0 || WholeValue(v.digits, v.scale) == 1))
      || (v.Str? && (Strings.Lower(v.s) in TrueTexts || Strings.Lower(v.s) in FalseTexts))
  }

  predicate FieldAccepts(f: FieldSpec, given: Option<Value>) {
    match given
    case None => f.optional
    case Some(v) => (f.optional && v == Null) || KindAccepts(f.kind, v)
  }

  /** One field: a missing optional field takes its default `None`, an
      optional field takes `None`, anything else is coerced. */
  function ValidateField(f: FieldSpec, given: Option<Value>): (r: Result<Value, string>)
    ensures r.Success? <==> FieldAccepts(f, given)
    ensures given.None? && !f.optional ==> r == Failure(FieldRequired)
    ensures given.None? && f.optional ==> r == Success(Null)
  {
    match given
    case None => if f.optional then Success(Null) else Failure(FieldRequired)
    case Some(v) => if f.optional && v == Null then Success(Null) else Coerce(f.kind, v)
  }

  function Names(schema: seq<FieldSpec>): (ns: seq<string>)
    ensures |ns| == |schema|
    ensures forall i :: 0 <= i < |schema| ==> ns[i] == schema[i].name
  {
    seq(|schema|, i requires 0 <= i < |schema| => schema[i].name)
  }

  /** The fields of `schema` that reject what `data` gives them, in field
      order. */
  function FailingFields(schema: seq<FieldSpec>, data: Dict): (fs: seq<FieldSpec>)
    ensures |fs| <= |schema|
    ensures fs == [] <==> forall i :: 0 <= i < |schema| ==> FieldAccepts(schema[i], Lookup(data, schema[i].name))
  {
    if |schema| == 0 then []
    else
      AllCons(schema, (g: FieldSpec) => FieldAccepts(g, Lookup(data, g.name)));
      (if FieldAccepts(schema[0], Lookup(data, schema[0].name)) then [] else [schema[0]])
      + FailingFields(schema[1..], data)
  }

  /** A field is listed exactly when it is in the schema and fails. */
  lemma {:induction false} FailingFieldsMembers(schema: seq<FieldSpec>, data: Dict)
    ensures forall f :: f in FailingFields(schema, data) <==> f in schema && !FieldAccepts(f, Lookup(data, f.name))
  {
    if |schema| > 0 {
      FailingFieldsMembers(schema[1..], data);
      assert forall f :: f in schema <==> f == schema[0] || f in schema[1..] by {
        assert schema == [schema[0]] + schema[1..];
      }
    }
  }

  /** The error pydantic reports for a failing field, located at it. */
  function FieldError(f: FieldSpec, data: Dict): ErrorDetail {
    var v := ValidateField(f, Lookup(data, f.name));
    ErrorDetail([Field(f.name)], if v.Failure? then v.error else "")
  }

  /** One error per field in `fs`, in order. */
  function FieldErrors(fs: seq<FieldSpec>, data: Dict): (es: seq<ErrorDetail>)
    ensures |es| == |fs|
    ensures forall i :: 0 <= i < |fs| ==> es[i] == FieldError(fs[i], data)
  {
    seq(|fs|, i requires 0 <= i < |fs| => FieldError(fs[i], data))
  }

  /** `Model(**data)` once `data` is known to be a dict: every field in
      declaration order, keys not in the model ignored. Success gives the
      fields with their validated values; failure lists one error per
      failing field, in field order, located at that field. */
  function ValidateModel(schema: seq<FieldSpec>, data: Dict): (r: Result<Dict, seq<ErrorDetail>>)
    ensures r.Success? <==> forall i :: 0 <= i < |schema| ==> FieldAccepts(schema[i], Lookup(data, schema[i].name))
    ensures r.Success? ==> Keys(r.value) == Names(schema)
    ensures r.Success? ==> forall i :: 0 <= i < |schema| ==>
      r.value[i].value == ValidateField(schema[i], Lookup(data, schema[i].name)).value
    ensures r.Failure? ==> |r.error| > 0
  {
    if |schema| == 0 then Success([])
    else
      var f := schema[0];
      var head := ValidateField(f, Lookup(data, f.name));
      var rest := ValidateModel(schema[1..], data);
      AllCons(schema, (g: FieldSpec) => FieldAccepts(g, Lookup(data, g.name)));
      if head.Success? && rest.Success? then Success([Member(f.name, head.value)] + rest.value)
      else if head.Success? then Failure(rest.error)
      else if rest.Success? then Failure([ErrorDetail([Field(f.name)], head.error)])
      else Failure([ErrorDetail([Field(f.name)], head.error)] + rest.error)
  }

  /** A property holds of every element exactly when it holds of the first
      and of every element of the rest. */
  lemma AllCons<T>(s: seq<T>, p: T -> bool)
    requires |s| > 0
    ensures (forall i :: 0 <= i < |s| ==> p(s[i])) <==> p(s[0]) && forall i :: 0 <= i < |s[1..]| ==> p(s[1..][i])
  {
    if p(s[0]) && forall i :: 0 <= i < |s[1..]| ==> p(s[1..][i]) {
      forall i | 0 < i < |s|
        ensures p(s[i])
      {
        assert s[i] == s[1..][i - 1];
      }
    }
  }

  /** The errors of a failing model are exactly one per failing field, in
      field order: nothing failing is left out and nothing is repeated. */
  lemma {:induction false} ModelErrors(schema: seq<FieldSpec>, data: Dict)
    requires ValidateModel(schema, data).Failure?
    ensures ValidateModel(schema, data).error == FieldErrors(FailingFields(schema, data), data)
  {
    var f := schema[0];
    var tail := FailingFields(schema[1..], data);
    var rest := ValidateModel(schema[1..], data);
    assert FailingFields(schema, data) ==
      (if FieldAccepts(f, Lookup(data, f.name)) then [] else [f]) + tail;
    if rest.Failure? {
      ModelErrors(schema[1..], data);
    } else {
      assert tail == [];
    }
    FieldErrorsCons(f, tail, data);
  }

  lemma FieldErrorsCons(f: FieldSpec, fs: seq<FieldSpec>, data: Dict)
    ensures FieldErrors([f] + fs, data) == [FieldError(f, data)] + FieldErrors(fs, data)
  {
    var gs := [f] + fs;
    var a, b := FieldErrors(gs, data), [FieldError(f, data)] + FieldErrors(fs, data);
    forall i | 0 <= i < |a|
      ensures a[i] == b[i]
    {
      if i > 0 {
        assert gs[i] == fs[i - 1];
      }
    }
  }

  /** A model whose fields are all optional accepts `{}` and fills in
      `None` everywhere. */
  lemma {:induction false} AllOptionalAcceptsEmpty(schema: seq<FieldSpec>)
    requires forall i :: 0 <= i < |schema| ==> schema[i].optional
    ensures ValidateModel(schema, []).Success?
    ensures forall i :: 0 <= i < |schema| ==> ValidateModel(schema, []).value[i].value == Null
  {
  }

  /** A required field that is absent makes the model fail with "Field
      required" at that field. */
  lemma RequiredFieldMissing(schema: seq<FieldSpec>, data: Dict, i: nat)
    requires i < |schema| && !schema[i].optional && !HasKey(data, schema[i].name)
    ensures ValidateModel(schema, data).Failure?
    ensures ErrorDetail([Field(schema[i].name)], FieldRequired) in ValidateModel(schema, data).error
  {
    RequiredFieldReported(schema, data, i);
  }

  lemma {:induction false} RequiredFieldReported(schema: seq<FieldSpec>, data: Dict, i: nat)
    requires i < |schema| && !schema[i].optional && !HasKey(data, schema[i].name)
    ensures ValidateModel(schema, data).Failure?
    ensures ErrorDetail([Field(schema[i].name)], FieldRequired) in ValidateModel(schema, data).error
  {
    if i > 0 {
      RequiredFieldReported(schema[1..], data, i - 1);
    }
  }
}

=== FILE: pyvalue.dfy ===
/** The Python values that cross the servers' interfaces: what `json.loads`
    produces, the query-string dictionaries and the dictionaries the
    servers build. A dict keeps its insertion order, as Python's does. */
module PyValue {
  import opened Wrappers

  datatype Value =
    | Null
    | Bool(b: bool)
    | Int(i: int)
      /** A float, held as the exact decimal `digits / 10^scale`. */
    | Float(digits: int, scale: nat)
    | Str(s: string)
    | List(items: seq<Value>)
    | Object(members: Dict)

  datatype Member = Member(key: string, value: Value)

  /** A dict: its members in insertion order. */
  type Dict = seq<Member>

  /** The keys of a dict, in order. */
  function Keys(d: Dict): (ks: seq<string>)
    ensures |ks| == |d|
    ensures forall i :: 0 <= i < |d| ==> ks[i] == d[i].key
  {
    if |d| == 0 then [] else [d[0].key] + Keys(d[1..])
  }

  /** Python dicts never hold a key twice. */
  predicate UniqueKeys(d: Dict) {
    forall i, j :: 0 <= i < j < |d| ==> d[i].key != d[j].key
  }

  /** `d[k]` when `k in d`, else `None`. */
  function Lookup(d: Dict, k: string): (r: Option<Value>)
    ensures r.None? <==> k !in Keys(d)
    ensures r.Some? ==> Member(k, r.value) in d
  {
    if |d| == 0 then None
    else if d[0].key == k then Some(d[0].value)
    else Lookup(d[1..], k)
  }

  predicate HasKey(d: Dict, k: string) {
    k in Keys(d)
  }

  /** `d.get(k, default)`. */
  function GetOr(d: Dict, k: string, default: Value): Value {
    Lookup(d, k).GetOr(default)
  }

  /** `d.get(k)`. */
  function Get(d: Dict, k: string): Value {
    GetOr(d, k, Null)
  }

  /** Looking up the key of a member of a dict with unique keys finds that
      member's value. */
  lemma {:induction false} LookupMember(d: Dict, i: nat)
    requires UniqueKeys(d) && i < |d|
    ensures Lookup(d, d[i].key) == Some(d[i].value)
  {
    if i > 0 {
      assert d[0].key != d[i].key;
      assert UniqueKeys(d[1..]) by {
        forall a, b | 0 <= a < b < |d[1..]|
          ensures d[1..][a].key != d[1..][b].key
        {
          assert d[1..][a] == d[a + 1] && d[1..][b] == d[b + 1];
        }
      }
      assert d[1..][i - 1] == d[i];
      LookupMember(d[1..], i - 1);
    }
  }

  /** The keys of a dict extended by one member. */
  lemma KeysAppend(d: Dict, m: Member)
    ensures Keys(d + [m]) == Keys(d) + [m.key]
  {
    var l, r := Keys(d + [m]), Keys(d) + [m.key];
    assert |l| == |r|;
    forall i | 0 <= i < |l|
      ensures l[i] == r[i]
    {
      if i < |d| {
        assert (d + [m])[i] == d[i];
      }
    }
  }

  /** A dict extended by a member whose key is new: lookups of that key find
      the new value, lookups of other keys are unchanged. */
  lemma {:induction false} LookupAppend(d: Dict, k: string, v: Value, j: string)
    requires k !in Keys(d)
    ensures Lookup(d + [Member(k, v)], j) == if j == k then Some(v) else Lookup(d, j)
  {
    if |d| > 0 {
      assert (d + [Member(k, v)])[1..] == d[1..] + [Member(k, v)];
      assert Keys(d) == [d[0].key] + Keys(d[1..]);
      LookupAppend(d[1..], k, v, j);
    }
  }

  /** `d[k] = v`: an existing key keeps its place and takes the new value,
      a new key goes at the end. */
  function Put(d: Dict, k: string, v: Value): (r: Dict)
    ensures Keys(r) == if k in Keys(d) then Keys(d) else Keys(d) + [k]
  {
    if |d| == 0 then [Member(k, v)]
    else if d[0].key == k then [Member(k, v)] + d[1..]
    else
      var rest := Put(d[1..], k, v);
      assert Keys(d) == [d[0].key] + Keys(d[1..]);
      assert Keys([d[0]] + rest) == [d[0].key] + Keys(rest);
      [d[0]] + rest
  }

  /** After `d[k] = v`, `k` maps to `v` and every other key to what it
      mapped to before. */
  lemma {:induction false} PutLookup(d: Dict, k: string, v: Value, j: string)
    ensures Lookup(Put(d, k, v), j) == if j == k then Some(v) else Lookup(d, j)
  {
    if |d| > 0 && d[0].key != k {
      PutLookup(d[1..], k, v, j);
      var r := Put(d, k, v);
      assert r[1..] == Put(d[1..], k, v);
    }
  }

  /** Keys that are distinct before a `Put` are distinct after it. */
  lemma PutUnique(d: Dict, k: string, v: Value)
    requires UniqueKeys(d)
    ensures UniqueKeys(Put(d, k, v))
  {
    var r := Put(d, k, v);
    forall a, b | 0 <= a < b < |r| ensures r[a].key != r[b].key {
      assert Keys(r)[a] == r[a].key && Keys(r)[b] == r[b].key;
      if b < |d| {
        assert Keys(d)[a] == d[a].key && Keys(d)[b] == d[b].key;
      } else {
        assert Keys(d)[a] == d[a].key;
      }
    }
  }

  /** Python truthiness: `None`, `False`, zero, `""`, `[]` and `{}` are false. */
  predicate Truthy(v: Value) {
    match v
    case Null => false
    case Bool(b) => b
    case Int(i) => i != 0
    case Float(digits, _) => digits != 0
    case Str(s) => s != ""
    case List(items) => items != []
    case Object(members) => members != []
  }

  /** `type(v).__name__`. */
  function TypeName(v: Value): string {
    match v
    case Null => "NoneType"
    case Bool(_) => "bool"
    case Int(_) => "int"
    case Float(_, _) => "float"
    case Str(_) => "str"
    case List(_) => "list"
    case Object(_) => "dict"
  }

  /** A Python exception: its class name and its first argument,
      `args[0]`. For `KeyError(key)` that is the bare key: `str()` of a
      `KeyError` would add quotes around it, which this model leaves to
      whoever prints the exception. */
  datatype PyException = PyException(kind: string, message: string)

  /** A list of strings as a Python value. */
  function StrList(ss: seq<string>): (v: Value)
    ensures v.List? && |v.items| == |ss|
    ensures forall i :: 0 <= i < |ss| ==> v.items[i] == Str(ss[i])
  {
    List(seq(|ss|, i requires 0 <= i < |ss| => Str(ss[i])))
  }
}

=== FILE: registry.dfy ===
/** `sections/registry.py`: the table of section classes and the lookup
    that instantiates one. */
module Registry {
  import opened Wrappers
  import opened PyValue
  import Pydantic
  import PosEnvConfig
  import SectionSchemas

  /** The four section classes. Each instance is stateless, so a fresh
      instance is just its class. */
  datatype Section = FuturesSection | BondsSection | IRDeltaSection | NewTradesSection {
    /** The class's `name` attribute. */
    function Name(): string {
      match this
      case FuturesSection => "futures"
      case BondsSection => "bonds"
      case IRDeltaSection => "ir_delta"
      case NewTradesSection => "new_trades"
    }

    /** The class's `params_model` attribute. */
    function ParamsModel(): seq<Pydantic.FieldSpec> {
      match this
      case FuturesSection => SectionSchemas.FuturesSchema
      case BondsSection => SectionSchemas.BondsSchema
      case IRDeltaSection => SectionSchemas.IRDeltaSchema
      case NewTradesSection => SectionSchemas.NewTradesSchema
    }
  }

  /** `SECTIONS`. */
  const Sections: map<string, Section> := map[
    "futures" := FuturesSection,
    "bonds" := BondsSection,
    "ir_delta" := IRDeltaSection,
    "new_trades" := NewTradesSection]

  /** `get_section`. */
  function GetSection(name: string): (r: Result<Section, PyException>)
    ensures r.Success? <==> name in Sections
    ensures r.Success? ==> r.value.Name() == name
    ensures r.Failure? ==> r.error == PyException("KeyError", "Unknown section: " + name)
  {
    if name in Sections then Success(Sections[name])
    else Failure(PyException("KeyError", "Unknown section: " + name))
  }

  /** Every section class is registered under its own name, exactly once. */
  lemma RegistryNamesItself(s: Section)
    ensures s.Name() in Sections && Sections[s.Name()] == s
  {
  }

  /** The registry, the parameter-model map and the configured section list
      name the same sections, and each registered class validates its
      parameters with the model the map gives for its name. */
  lemma RegistryAgreesWithConfig()
    ensures Sections.Keys == SectionSchemas.SectionParamsMap.Keys
    ensures Sections.Keys == set s | s in PosEnvConfig.ValidSections
    ensures forall n :: n in Sections ==> Sections[n].ParamsModel() == SectionSchemas.SectionParamsMap[n]
  {
    SectionSchemas.SectionParamsMapShape();
  }

  /** Every section that passed `section` validation can be instantiated. */
  lemma ValidSectionsResolve(name: string)
    requires name in PosEnvConfig.ValidSections
    ensures GetSection(name).Success?
  {
  }
}

=== FILE: request_cache.dfy ===
/** `cache/cache.py`: the root API's GET result cache. One store per TTL
    value, created on first use; a key is a hash of the request's
    key-sorted JSON text; a request's TTL is the smallest of its
    sections' TTLs. */
module RequestCache {
  import opened Wrappers
  import opened PyValue
  import Json
  import Sorting
  import PosEnvConfig
  import Validator

  /** `RequestCache`: `_caches`, from TTL to that TTL's store. A store maps
      cache keys to the response dicts stored under them. */
  datatype Cache = Cache(caches: map<int, map<string, Dict>>)

  /** `RequestCache()`. */
  const NewCache: Cache := Cache(map[])

  /** `_get_cache`: the store for `ttl`, created empty if there is none. */
  function GetCache(c: Cache, ttl: int): (r: (Cache, map<string, Dict>))
    ensures r.0.caches.Keys == c.caches.Keys + {ttl}
    ensures ttl in c.caches ==> r.0 == c && r.1 == c.caches[ttl]
    ensures ttl !in c.caches ==> r.1 == map[] && r.0.caches == c.caches[ttl := map[]]
    ensures r.0.caches[ttl] == r.1
  {
    if ttl in c.caches then (c, c.caches[ttl])
    else (Cache(c.caches[ttl := map[]]), map[])
  }

  /** What `get(key, ttl)` would return, without the store it creates. */
  function Entry(c: Cache, key: string, ttl: int): Option<Dict> {
    if ttl in c.caches && key in c.caches[ttl] then Some(c.caches[ttl][key]) else None
  }

  /** `get(key, ttl)`: the cache after the call (holding a store for `ttl`)
      and the result. */
  function Get(c: Cache, key: string, ttl: int): (r: (Cache, Option<Dict>))
    ensures r.1.Some? <==> ttl in c.caches && key in c.caches[ttl]
    ensures r.1.Some? ==> r.1.value == c.caches[ttl][key]
  {
    var (c', store) := GetCache(c, ttl);
    (c', if key in store then Some(store[key]) else None)
  }

  /** `set(key, value, ttl)`. */
  function Set(c: Cache, key: string, value: Dict, ttl: int): (r: Cache)
    ensures r.caches.Keys == c.caches.Keys + {ttl}
    ensures r.caches[ttl].Keys == (if ttl in c.caches then c.caches[ttl].Keys else {}) + {key}
  {
    var (c', store) := GetCache(c, ttl);
    Cache(c'.caches[ttl := store[key := value]])
  }

  /** `clear()`. */
  function Clear(c: Cache): (r: Cache)
    ensures r.caches == map[]
  {
    Cache(map[])
  }

  /** A `get` right after a `set` of the same key and TTL finds the value
      set. */
  lemma SetThenGet(c: Cache, key: string, value: Dict, ttl: int)
    ensures Get(Set(c, key, value, ttl), key, ttl).1 == Some(value)
  {
  }

  /** A `set` changes nothing for any other key or any other TTL: the
      stores are partitioned by TTL. */
  lemma SetLeavesOthers(c: Cache, key: string, value: Dict, ttl: int, key': string, ttl': int)
    requires key' != key || ttl' != ttl
    ensures Get(Set(c, key, value, ttl), key', ttl').1 == Get(c, key', ttl').1
  {
  }

  /** A `get` never drops an entry: every lookup afterwards sees what it
      saw before. */
  lemma GetKeepsEntries(c: Cache, key: string, ttl: int, key': string, ttl': int)
    ensures Get(Get(c, key, ttl).0, key', ttl').1 == Get(c, key', ttl').1
  {
  }

  /** After `clear()` every `get` misses. */
  lemma ClearForgets(c: Cache, key: string, ttl: int)
    ensures Get(Clear(c), key, ttl).1 == None
  {
  }

  // ---------------------------------------------------------------------
  // Cache keys.

  /** `build_cache_key`: `hash` stands for the SHA-256 hex digest of the
      text's bytes. */
  function BuildCacheKey(hash: string -> string, request: Dict): string {
    hash(Json.Dumps(Json.SortKeys(Object(request))))
  }

  /** The members of a dict with their values key-sorted, as `SortKeys`
      writes them before ordering the members. */
  function Normalised(d: Dict): (r: Dict)
    ensures |r| == |d|
    ensures forall i :: 0 <= i < |d| ==> r[i] == Member(d[i].key, Json.SortKeys(d[i].value))
  {
    seq(|d|, i requires 0 <= i < |d| => Member(d[i].key, Json.SortKeys(d[i].value)))
  }

  lemma SortKeysOfObject(d: Dict)
    ensures Json.SortKeys(Object(d)) == Object(Sorting.SortBy(Normalised(d), Json.MemberKey))
  {
  }

  lemma NormalisedAppend(a: Dict, b: Dict)
    ensures Normalised(a + b) == Normalised(a) + Normalised(b)
  {
  }

  /** Reordering the members of a dict reorders its normalised members the
      same way. */
  lemma {:induction false} NormalisedPermutation(a: Dict, b: Dict)
    requires multiset(a) == multiset(b)
    ensures multiset(Normalised(a)) == multiset(Normalised(b))
    decreases |a|
  {
    if |a| == 0 {
      assert |multiset(b)| == 0;
    } else {
      assert a[0] in multiset(b);
      var j :| 0 <= j < |b| && b[j] == a[0];
      var rest := b[..j] + b[j + 1..];
      assert b == b[..j] + [b[j]] + b[j + 1..];
      assert a == [a[0]] + a[1..];
      assert multiset(b) == multiset(b[..j]) + multiset{b[j]} + multiset(b[j + 1..]);
      assert multiset(rest) == multiset(b[..j]) + multiset(b[j + 1..]);
      assert multiset(a) == multiset{a[0]} + multiset(a[1..]);
      assert multiset(a[1..]) == multiset(a) - multiset{a[0]};
      assert multiset(rest) == multiset(b) - multiset{b[j]};
      NormalisedPermutation(a[1..], rest);
      NormalisedAppend([a[0]], a[1..]);
      NormalisedAppend(b[..j] + [b[j]], b[j + 1..]);
      NormalisedAppend(b[..j], [b[j]]);
      NormalisedAppend(b[..j], b[j + 1..]);
    }
  }

  /** In a dict with unique keys no two members share a key, and neither do
      their normalised forms. */
  lemma NormalisedKeyInjective(d: Dict)
    requires UniqueKeys(d)
    ensures Sorting.KeyInjective(Normalised(d), Json.MemberKey)
  {
    var n := Normalised(d);
    forall x, y | x in n && y in n && Json.MemberKey(x) == Json.MemberKey(y)
      ensures x == y
    {
      var i :| 0 <= i < |n| && n[i] == x;
      var j :| 0 <= j < |n| && n[j] == y;
      assert d[i].key == d[j].key;
    }
  }

  /** Key-sorting an object forgets the order of its members. */
  lemma SortKeysObjectPerm(a: Dict, b: Dict)
    requires UniqueKeys(a)
    requires multiset(a) == multiset(b)
    ensures Json.SortKeys(Object(a)) == Json.SortKeys(Object(b))
  {
    SortKeysOfObject(a);
    SortKeysOfObject(b);
    NormalisedPermutation(a, b);
    NormalisedKeyInjective(a);
    Sorting.SortByPermutation(Normalised(a), Normalised(b), Json.MemberKey);
  }

  /** Two requests that hold the same members in a different order get
      the same cache key, whatever the hash. */
  lemma CacheKeyIgnoresOrder(hash: string -> string, a: Dict, b: Dict)
    requires UniqueKeys(a)
    requires multiset(a) == multiset(b)
    ensures BuildCacheKey(hash, a) == BuildCacheKey(hash, b)
  {
    SortKeysObjectPerm(a, b);
  }

  /** The key the handler builds for a GET (`{"method": "GET",
      "query_params": {...}}`) does not depend on the order of the query
      arguments: the nested dict is key-sorted too. */
  lemma GetKeyIgnoresQueryOrder(hash: string -> string, q1: Dict, q2: Dict)
    requires UniqueKeys(q1)
    requires multiset(q1) == multiset(q2)
    ensures BuildCacheKey(hash, Validator.RawParams(Validator.GetRequest(q1))) ==
            BuildCacheKey(hash, Validator.RawParams(Validator.GetRequest(q2)))
  {
    var r1, r2 := Validator.RawParams(Validator.GetRequest(q1)), Validator.RawParams(Validator.GetRequest(q2));
    SortKeysObjectPerm(q1, q2);
    SortKeysOfObject(r1);
    SortKeysOfObject(r2);
    assert Normalised(r1) == Normalised(r2);
  }

  // ---------------------------------------------------------------------
  // TTL selection.

  /** `SECTION_TTL.get(s, DEFAULT_CACHE_TTL)`. */
  function SectionTtl(s: string): int {
    if s in PosEnvConfig.SectionTtl then PosEnvConfig.SectionTtl[s] else PosEnvConfig.DefaultCacheTtl
  }

  /** `get_ttl_for_sections`: the default for no sections, otherwise the
      smallest of the sections' TTLs. */
  function GetTtlForSections(sections: seq<string>): (ttl: int)
    ensures sections == [] ==> ttl == PosEnvConfig.DefaultCacheTtl
    ensures forall s :: s in sections ==> ttl <= SectionTtl(s)
    ensures sections != [] ==> exists s :: s in sections && ttl == SectionTtl(s)
  {
    if |sections| == 0 then PosEnvConfig.DefaultCacheTtl
    else if |sections| == 1 then SectionTtl(sections[0])
    else
      var rest := GetTtlForSections(sections[1..]);
      assert forall s :: s in sections[1..] ==> s in sections;
      assert sections[0] in sections;
      if SectionTtl(sections[0]) <= rest then SectionTtl(sections[0]) else rest
  }

  /** Every section's TTL, and so any request's, is 30 or 60 seconds;
      `section=all` is cached for 30 seconds, the new_trades TTL. */
  lemma TtlValues(sections: seq<string>)
    ensures GetTtlForSections(sections) in {30, 60}
    ensures GetTtlForSections(PosEnvConfig.ValidSections) == 30
  {
    var ttl := GetTtlForSections(sections);
    if sections != [] {
      var s :| s in sections && ttl == SectionTtl(s);
    }
    assert "new_trades" in PosEnvConfig.ValidSections;
    assert forall s :: s in PosEnvConfig.ValidSections ==> SectionTtl(s) >= 30;
  }
}

=== FILE: scheduler.dfy ===
/** `position_server/scheduler.py` without its threads: the time-window
    test with the current time passed in, the status record of one warmup
    worker as a state machine, one iteration of the worker loop as a pure
    step, and the launch of all workers. */
module Scheduler {
  import opened Wrappers
  import opened PyValue
  import Strings
  import Dates
  import opened PositionParams
  import PositionCache
  import opened PositionConfig
  import SectionRunner

  // ---------------------------------------------------------------------
  // `_in_time_window`

  /** `_in_time_window(start_time, end_time)` when `datetime.now()` reads
      `now`: plain string comparisons, both ends included; a window whose
      start sorts after its end runs overnight. */
  function InTimeWindow(startTime: string, endTime: string, now: string): bool {
    if Strings.LessEq(startTime, endTime) then
      Strings.LessEq(startTime, now) && Strings.LessEq(now, endTime)
    else
      Strings.LessEq(startTime, now) || Strings.LessEq(now, endTime)
  }

  /** A zero-padded `HH:MM` time of day, as `strftime("%H:%M")` writes. */
  predicate IsClock(s: string) {
    && |s| == 5
    && Dates.IsDigit(s[0]) && Dates.IsDigit(s[1]) && s[2] == ':' && Dates.IsDigit(s[3]) && Dates.IsDigit(s[4])
    && 10 * Dates.DigitValue(s[0]) + Dates.DigitValue(s[1]) < 24
    && 10 * Dates.DigitValue(s[3]) + Dates.DigitValue(s[4]) < 60
  }

  /** Minutes since midnight of an `HH:MM` time. */
  function Minutes(s: string): nat
    requires IsClock(s)
  {
    60 * (10 * Dates.DigitValue(s[0]) + Dates.DigitValue(s[1])) + 10 * Dates.DigitValue(s[3]) + Dates.DigitValue(s[4])
  }

  /** The window as meant: an interval of minutes of the day, wrapping
      past midnight when it starts after it ends. */
  predicate MinuteWindow(start: nat, end: nat, now: nat) {
    if start <= end then start <= now <= end else now >= start || now <= end
  }

  /** On zero-padded times, string order is time order. */
  lemma {:induction false} ClockOrder(a: string, b: string)
    requires IsClock(a) && IsClock(b)
    ensures Strings.LessEq(a, b) <==> Minutes(a) <= Minutes(b)
  {
    var a1, b1 := a[1..], b[1..];
    var a2, b2 := a1[1..], b1[1..];
    var a3, b3 := a2[1..], b2[1..];
    var a4, b4 := a3[1..], b3[1..];
    var a5, b5 := a4[1..], b4[1..];
    assert a5 == [] && b5 == [];
    assert Strings.LessEq(a4, b4) <==> a4[0] <= b4[0];
    assert Strings.LessEq(a3, b3) <==> a3[0] < b3[0] || (a3[0] == b3[0] && Strings.LessEq(a4, b4));
    assert Strings.LessEq(a2, b2) <==> Strings.LessEq(a3, b3);
    assert Strings.LessEq(a1, b1) <==> a1[0] < b1[0] || (a1[0] == b1[0] && Strings.LessEq(a2, b2));
    assert Strings.LessEq(a, b) <==> a[0] < b[0] || (a[0] == b[0] && Strings.LessEq(a1, b1));
  }

  /** On zero-padded times the string test is exactly the minute window. */
  lemma InTimeWindowMeansMinutes(startTime: string, endTime: string, now: string)
    requires IsClock(startTime) && IsClock(endTime) && IsClock(now)
    ensures InTimeWindow(startTime, endTime, now) == MinuteWindow(Minutes(startTime), Minutes(endTime), Minutes(now))
  {
    ClockOrder(startTime, endTime);
    ClockOrder(startTime, now);
    ClockOrder(now, endTime);
  }

  // ---------------------------------------------------------------------
  // The status record of one warmup worker.

  datatype WorkerState = Starting | ConfigError | Running | Idle | Error | OutsideWindow

  /** The `status` string stored for each state. */
  function StateName(s: WorkerState): string {
    match s
    case Starting => "starting"
    case ConfigError => "config_error"
    case Running => "running"
    case Idle => "idle"
    case Error => "error"
    case OutsideWindow => "outside_window"
  }

  datatype WorkerStatus = WorkerStatus(
    state: WorkerState,
    inTimeWindow: bool,
    lastRun: Option<string>,
    lastDurationMs: Option<int>,
    lastError: Option<string>)

  /** What each state says about the rest of the record. */
  predicate Consistent(w: WorkerStatus) {
    && (w.lastRun.Some? <==> w.lastDurationMs.Some?)
    && (w.state == Starting ==> !w.inTimeWindow && w.lastRun.None? && w.lastError.None?)
    && (w.state == ConfigError ==> !w.inTimeWindow && w.lastRun.None? && w.lastError.Some?)
    && (w.state == Running ==> w.inTimeWindow)
    && (w.state == Idle ==> w.inTimeWindow && w.lastRun.Some? && w.lastError.None?)
    && (w.state == Error ==> w.inTimeWindow && w.lastError.Some?)
    && (w.state == OutsideWindow ==> !w.inTimeWindow)
  }

  /** The record `start_all_warmup_workers` writes before a worker runs. */
  function InitialStatus(): (w: WorkerStatus)
    ensures w.state == Starting && !w.inTimeWindow
    ensures w.lastRun.None? && w.lastDurationMs.None? && w.lastError.None?
    ensures Consistent(w)
  {
    WorkerStatus(Starting, false, None, None, None)
  }

  /** The start of `_warmup_worker`: `build_from_dict(cfg)`. A `ValueError`
      turns the record into `config_error` with the message and stops the
      worker (no parameters come back); otherwise the record is untouched. */
  function StartWorker(w: WorkerStatus, cfg: WarmupConfig): (r: (WorkerStatus, Option<BaseParams>))
    ensures BuildFromDict(cfg.fields).Failure? ==>
      && r.1.None?
      && r.0.state == ConfigError
      && r.0.lastError == Some(Message(BuildFromDict(cfg.fields).error))
    ensures BuildFromDict(cfg.fields).Success? ==> r == (w, Some(BuildFromDict(cfg.fields).value))
    ensures w == InitialStatus() ==> Consistent(r.0)
  {
    match BuildFromDict(cfg.fields)
    case Failure(e) => (w.(state := ConfigError, lastError := Some(Message(e))), None)
    case Success(p) => (w, Some(p))
  }

  /** The first half of a loop iteration: the window flag is recorded, and
      the worker is `running` while it fetches or `outside_window`. */
  function EnterIteration(w: WorkerStatus, inWindow: bool): (w': WorkerStatus)
    ensures w'.inTimeWindow == inWindow
    ensures w'.state == (if inWindow then Running else OutsideWindow)
    ensures w'.lastRun == w.lastRun && w'.lastDurationMs == w.lastDurationMs && w'.lastError == w.lastError
  {
    w.(inTimeWindow := inWindow, state := if inWindow then Running else OutsideWindow)
  }

  /** What `fetch_all_sections_sync` did: returned the sections, or raised.
      A return carries the clock readings taken afterwards: the cache's
      `cached_at`, the worker's `datetime.utcnow().isoformat()` and the
      measured duration. */
  datatype FetchOutcome =
    | Fetched(sections: Value, cachedAt: string, finishedAt: string, durationMs: int)
    | FetchFailed(message: string)

  /** The second half of an iteration inside the window. */
  function FinishRun(w: WorkerStatus, store: PositionCache.Store, key: CacheKey, outcome: FetchOutcome)
    : (r: (WorkerStatus, PositionCache.Store))
  {
    match outcome
    case Fetched(sections, cachedAt, finishedAt, durationMs) =>
      (w.(state := Idle, lastRun := Some(finishedAt + "Z"), lastDurationMs := Some(durationMs), lastError := None),
       PositionCache.WriteToCache(store, key, sections, cachedAt))
    case FetchFailed(message) =>
      (w.(state := Error, lastError := Some(message)), store)
  }

  /** One iteration of the `_warmup_worker` loop at time `now`. Inside the
      window, a fetch that returns is written to the cache under the
      parameters' cache key and leaves the worker `idle` with a fresh
      `last_run` and no error; a fetch that raises leaves it in `error`
      with the message, and the cache and the last run as they were.
      Outside the window only the status and the flag change. */
  function Iteration(w: WorkerStatus, store: PositionCache.Store, params: BaseParams, schedule: Schedule,
                     now: string, outcome: FetchOutcome): (r: (WorkerStatus, PositionCache.Store))
    ensures r.0.inTimeWindow == InTimeWindow(schedule.startTime, schedule.endTime, now)
    ensures !r.0.inTimeWindow ==> r == (w.(state := OutsideWindow, inTimeWindow := false), store)
    ensures r.0.inTimeWindow && outcome.Fetched? ==>
      && r.0.state == Idle
      && r.0.lastRun == Some(outcome.finishedAt + "Z")
      && r.0.lastDurationMs == Some(outcome.durationMs)
      && r.0.lastError == None
      && PositionCache.GetFromCache(r.1, ToCacheKey(params)) == Some(outcome.sections)
    ensures r.0.inTimeWindow && outcome.FetchFailed? ==>
      && r.0.state == Error
      && r.0.lastError == Some(outcome.message)
      && r.0.lastRun == w.lastRun && r.0.lastDurationMs == w.lastDurationMs
      && r.1 == store
  {
    var inWindow := InTimeWindow(schedule.startTime, schedule.endTime, now);
    var entered := EnterIteration(w, inWindow);
    if inWindow then FinishRun(entered, store, ToCacheKey(params), outcome) else (entered, store)
  }

  /** The record stays consistent through the worker's whole life: its
      start and every later iteration. */
  lemma IterationPreservesConsistent(w: WorkerStatus, store: PositionCache.Store, params: BaseParams,
                                     schedule: Schedule, now: string, outcome: FetchOutcome)
    requires Consistent(w) && w.state != ConfigError
    ensures Consistent(Iteration(w, store, params, schedule, now, outcome).0)
  {
  }

  /** Inside the window a warmup fetch, which passes no section
      parameters, caches two `ok` sections under the parameters' key and
      leaves the worker `idle`. */
  lemma WarmupIterationCaches(w: WorkerStatus, store: PositionCache.Store, params: BaseParams, schedule: Schedule,
                              now: string, futuresReadings: SectionRunner.Readings, bondsReadings: SectionRunner.Readings,
                              cachedAt: string, finishedAt: string, durationMs: int)
    requires InTimeWindow(schedule.startTime, schedule.endTime, now)
    ensures var sections := SectionRunner.FetchAllSections(params, Null, futuresReadings, bondsReadings);
      var r := Iteration(w, store, params, schedule, now, Fetched(sections, cachedAt, finishedAt, durationMs));
      && r.0.state == Idle && r.0.lastError == None
      && PositionCache.GetFromCache(r.1, ToCacheKey(params)) == Some(sections)
      && SectionRunner.StatusOf(Get(sections.members, "futures")) == Str("ok")
      && SectionRunner.StatusOf(Get(sections.members, "bonds")) == Str("ok")
  {
    SectionRunner.WarmupFetchSucceeds(params, futuresReadings, bondsReadings);
  }

  /** While a fetch is under way the worker reads `running`. */
  lemma RunningDuringFetch(w: WorkerStatus, schedule: Schedule, now: string)
    requires InTimeWindow(schedule.startTime, schedule.endTime, now)
    ensures StateName(EnterIteration(w, InTimeWindow(schedule.startTime, schedule.endTime, now)).state) == "running"
  {
  }

  /** Every shipped warmup config passes `build_from_dict`, so no worker
      starts in `config_error`, and every window is a zero-padded time. */
  lemma {:induction false} WarmupConfigsBuild(i: nat)
    requires i < |WarmupConfigs|
    ensures BuildFromDict(WarmupConfigs[i].fields).Success?
    ensures IsClock(WarmupConfigs[i].schedule.startTime) && IsClock(WarmupConfigs[i].schedule.endTime)
  {
    ShippedClocks();
    if i == 0 {
      ConfigFieldsBuild(["CUPS", "YCSO"], "SOD");
    } else if i == 1 {
      ConfigFieldsBuild(["EXO"], "LIVE");
    } else {
      ConfigFieldsBuild(["CUPS", "YCSO"], "EOD");
    }
  }

  lemma ShippedClocks()
    ensures IsClock("06:00") && IsClock("07:00") && IsClock("15:00")
    ensures IsClock("18:00") && IsClock("20:00")
  {
  }

  /** The dict of a shipped config builds the parameters it spells out. */
  lemma ConfigFieldsBuild(books: seq<string>, tod: string)
    requires books == ["EXO"] || books == ["CUPS", "YCSO"]
    requires tod in ValidTimes
    ensures BuildFromDict(ConfigFields(books, tod)) == Success(BaseParams("20251216", "20251215", books, tod))
  {
    ConfigFieldsGet(books, tod);
    var p := BaseParams("20251216", "20251215", books, tod);
    ShippedParamsWellFormed(p);
    ValidateWellFormedIdentity(p);
  }

  lemma ConfigFieldsGet(books: seq<string>, tod: string)
    ensures var d := ConfigFields(books, tod);
      && Get(d, "env_date") == Str("20251216")
      && Get(d, "pos_date") == Str("20251215")
      && Get(d, "books") == StrList(books)
      && Get(d, "time_of_day") == Str(tod)
  {
    var d := ConfigFields(books, tod);
    assert UniqueKeys(d);
    LookupMember(d, 0);
    LookupMember(d, 1);
    LookupMember(d, 2);
    LookupMember(d, 3);
  }

  lemma ShippedParamsWellFormed(p: BaseParams)
    requires p.envDate == "20251216" && p.posDate == "20251215"
    requires p.books == ["EXO"] || p.books == ["CUPS", "YCSO"]
    requires p.timeOfDay in ValidTimes
    ensures WellFormed(p)
  {
    ConfigDatesValid();
    ShippedBooksTrimmed(p.books);
  }

  lemma ShippedBooksTrimmed(books: seq<string>)
    requires books == ["EXO"] || books == ["CUPS", "YCSO"]
    ensures forall i :: 0 <= i < |books| ==> books[i] != "" && Strings.Trimmed(books[i])
  {
    assert Strings.Trimmed("EXO");
    assert Strings.Trimmed("CUPS");
    assert Strings.Trimmed("YCSO");
  }

  /** The two dates every shipped config carries parse. */
  lemma ConfigDatesValid()
    ensures Dates.ValidDate("20251216") && Dates.ValidDate("20251215")
  {
    var d1 := Dates.Date(2025, 12, 16);
    var d2 := Dates.Date(2025, 12, 15);
    assert Dates.IsCalendarDate(d1) && Dates.IsCalendarDate(d2);
    assert Dates.Format(d1) == "20251216";
    assert Dates.Format(d2) == "20251215";
    Dates.FormatParses(d1);
    Dates.FormatParses(d2);
  }

  // ---------------------------------------------------------------------
  // `start_all_warmup_workers` and the server status flag.

  datatype ServerStatus = ServerStarting | ServerRunning

  function ServerStatusName(s: ServerStatus): string {
    if s == ServerStarting then "starting" else "running"
  }

  function Names(cfgs: seq<WarmupConfig>): set<string> {
    set i | 0 <= i < |cfgs| :: cfgs[i].name
  }

  /** `start_all_warmup_workers`: one `starting` record per config name,
      the server reading `starting` until every worker is launched and
      `running` afterwards. */
  method StartAllWorkers(cfgs: seq<WarmupConfig>) returns (statuses: map<string, WorkerStatus>, server: ServerStatus)
    ensures statuses.Keys == Names(cfgs)
    ensures forall n :: n in statuses ==> statuses[n] == InitialStatus()
    ensures ServerStatusName(server) == "running"
  {
    statuses := map[];
    server := ServerStarting;
    var i := 0;
    while i < |cfgs|
      invariant 0 <= i <= |cfgs|
      invariant statuses.Keys == Names(cfgs[..i])
      invariant forall n :: n in statuses ==> statuses[n] == InitialStatus()
    {
      statuses := statuses[cfgs[i].name := InitialStatus()];
      assert cfgs[..i + 1] == cfgs[..i] + [cfgs[i]];
      assert Names(cfgs[..i + 1]) == Names(cfgs[..i]) + {cfgs[i].name} by {
        forall n | n in Names(cfgs[..i + 1])
          ensures n in Names(cfgs[..i]) + {cfgs[i].name}
        {
          var j :| 0 <= j < i + 1 && cfgs[..i + 1][j].name == n;
          if j < i {
            assert cfgs[..i][j].name == n;
          }
        }
        forall n | n in Names(cfgs[..i])
          ensures n in Names(cfgs[..i + 1])
        {
          var j :| 0 <= j < i && cfgs[..i][j].name == n;
          assert cfgs[..i + 1][j].name == n;
        }
        assert cfgs[..i + 1][i].name == cfgs[i].name;
      }
      i := i + 1;
    }
    assert cfgs[..i] == cfgs;
    server := ServerRunning;
  }
}

=== FILE: section_runner.dfy ===
/** `position_server/sections/`: the placeholder fetchers `get_futures` and
    `get_bonds`, the keyword-argument call `run_section` makes, the
    ok/error envelope it builds, and the sequential meaning of
    `fetch_all_sections` (`position_server/orchestrator.py`). Clock
    readings and the traceback's frame lines come in as parameters. */
module SectionRunner {
  import opened Wrappers
  import opened PyValue
  import opened PositionParams
  import PositionConfig

  /** What calling a fetcher did. */
  datatype Outcome = Returned(value: Value) | Raised(exc: PyException)

  /** The last line of a traceback, `ValueError: message`. */
  function ExceptionLine(e: PyException): string {
    e.kind + ": " + e.message
  }

  /** `traceback.format_exc()`: the frame lines (not modelled, passed in),
      then the exception line and a newline. */
  function FormatExc(frames: string, e: PyException): (t: string)
    ensures |t| > 0 && t[|t| - 1] == '\n'
    ensures |t| == |frames| + |ExceptionLine(e)| + 1 && t[|frames|..|t| - 1] == ExceptionLine(e)
  {
    frames + ExceptionLine(e) + "\n"
  }

  /** The readings `run_section` takes around the call: the UTC
      `last_updated` time, the duration in milliseconds, and the frames a
      traceback would show. */
  datatype Readings = Readings(lastUpdated: string, durationMs: int, frames: string)

  // ---------------------------------------------------------------------
  // The envelope.

  function Envelope(data: Value, lastUpdated: Value, status: string, durationMs: int, errorStack: string): Value {
    Object([
      Member("data", data),
      Member("metadata", Object([
        Member("last_updated", lastUpdated),
        Member("status", Str(status)),
        Member("refresh_duration_ms", Int(durationMs))])),
      Member("error_stack", Str(errorStack))])
  }

  /** Reading the envelope back, as a client of the JSON response does. */
  function Metadata(env: Value): Dict {
    if env.Object? && Get(env.members, "metadata").Object? then Get(env.members, "metadata").members else []
  }

  function DataOf(env: Value): Value {
    if env.Object? then Get(env.members, "data") else Null
  }

  function StatusOf(env: Value): Value {
    Get(Metadata(env), "status")
  }

  function LastUpdatedOf(env: Value): Value {
    Get(Metadata(env), "last_updated")
  }

  function ErrorStackOf(env: Value): Value {
    if env.Object? then Get(env.members, "error_stack") else Null
  }

  /** The fields of an envelope are found where it put them. */
  lemma EnvelopeFields(data: Value, lastUpdated: Value, status: string, durationMs: int, errorStack: string)
    ensures var env := Envelope(data, lastUpdated, status, durationMs, errorStack);
      && Keys(env.members) == ["data", "metadata", "error_stack"]
      && Keys(Metadata(env)) == ["last_updated", "status", "refresh_duration_ms"]
      && DataOf(env) == data
      && StatusOf(env) == Str(status)
      && LastUpdatedOf(env) == lastUpdated
      && Get(Metadata(env), "refresh_duration_ms") == Int(durationMs)
      && ErrorStackOf(env) == Str(errorStack)
  {
    var meta := [
      Member("last_updated", lastUpdated),
      Member("status", Str(status)),
      Member("refresh_duration_ms", Int(durationMs))];
    ThreeMembers("data", "metadata", "error_stack", data, Object(meta), Str(errorStack));
    ThreeMembers("last_updated", "status", "refresh_duration_ms", lastUpdated, Str(status), Int(durationMs));
  }

  /** Lookups in a three-member dict with distinct keys. */
  lemma ThreeMembers(k0: string, k1: string, k2: string, v0: Value, v1: Value, v2: Value)
    requires k0 != k1 && k0 != k2 && k1 != k2
    ensures var d := [Member(k0, v0), Member(k1, v1), Member(k2, v2)];
      && Keys(d) == [k0, k1, k2]
      && Get(d, k0) == v0 && Get(d, k1) == v1 && Get(d, k2) == v2
  {
    var d := [Member(k0, v0), Member(k1, v1), Member(k2, v2)];
    assert UniqueKeys(d);
    LookupMember(d, 0);
    LookupMember(d, 1);
    LookupMember(d, 2);
  }

  /** `run_section` once the fetcher has returned or raised. A return
      gives the data, status `ok`, a timestamp and an empty error stack; a
      raise is caught and gives no data, status `error`, no timestamp and
      the traceback. The timeout plays no part. */
  function RunSection(outcome: Outcome, readings: Readings, timeout: int): (env: Value)
    ensures env.Object? && Keys(env.members) == ["data", "metadata", "error_stack"]
    ensures Keys(Metadata(env)) == ["last_updated", "status", "refresh_duration_ms"]
    ensures StatusOf(env) == Str("ok") || StatusOf(env) == Str("error")
    ensures StatusOf(env) == Str("error") ==> DataOf(env) == Null
    ensures Get(Metadata(env), "refresh_duration_ms") == Int(readings.durationMs)
    ensures outcome.Returned? ==>
      && DataOf(env) == outcome.value
      && StatusOf(env) == Str("ok")
      && LastUpdatedOf(env) == Str(readings.lastUpdated)
      && ErrorStackOf(env) == Str("")
    ensures outcome.Raised? ==>
      && StatusOf(env) == Str("error")
      && LastUpdatedOf(env) == Null
      && ErrorStackOf(env) == Str(FormatExc(readings.frames, outcome.exc))
  {
    match outcome
    case Returned(data) =>
      EnvelopeFields(data, Str(readings.lastUpdated), "ok", readings.durationMs, "");
      Envelope(data, Str(readings.lastUpdated), "ok", readings.durationMs, "")
    case Raised(e) =>
      EnvelopeFields(Null, Null, "error", readings.durationMs, FormatExc(readings.frames, e));
      Envelope(Null, Null, "error", readings.durationMs, FormatExc(readings.frames, e))
  }

  /** The timeout argument never changes the envelope. */
  lemma TimeoutIgnored(outcome: Outcome, readings: Readings, t1: int, t2: int)
    ensures RunSection(outcome, readings, t1) == RunSection(outcome, readings, t2)
  {
  }

  /** The status tells exactly whether the fetcher raised, and an error
      envelope never carries data or an empty stack. */
  lemma StatusReflectsOutcome(outcome: Outcome, readings: Readings, timeout: int)
    ensures var env := RunSection(outcome, readings, timeout);
      && (StatusOf(env) == Str("error") <==> outcome.Raised?)
      && (StatusOf(env) == Str("error") ==> DataOf(env) == Null && ErrorStackOf(env) != Str(""))
  {
  }

  // ---------------------------------------------------------------------
  // The fetchers.

  /** The fields every placeholder result echoes from the parameters. */
  function Echo(p: BaseParams, extraKey: string, extra: Value): Dict {
    [ Member("placeholder", Bool(true)),
      Member("env_date", Str(p.envDate)),
      Member("pos_date", Str(p.posDate)),
      Member("books", StrList(p.books)),
      Member("time_of_day", Str(p.timeOfDay)),
      Member(extraKey, extra) ]
  }

  /** Reading the parameters back out of a placeholder result. */
  function EchoedParams(v: Value): Option<BaseParams> {
    if !v.Object? then None
    else
      var e, q, b, t := Get(v.members, "env_date"), Get(v.members, "pos_date"), Get(v.members, "books"),
                        Get(v.members, "time_of_day");
      if e.Str? && q.Str? && b.List? && (forall i :: 0 <= i < |b.items| ==> b.items[i].Str?) && t.Str? then
        Some(BaseParams(e.s, q.s, seq(|b.items|, i requires 0 <= i < |b.items| => b.items[i].s), t.s))
      else None
  }

  /** The echoed fields read back as the parameters that were passed. */
  lemma EchoRoundTrip(p: BaseParams, extraKey: string, extra: Value)
    requires extraKey !in ["placeholder", "env_date", "pos_date", "books", "time_of_day"]
    ensures EchoedParams(Object(Echo(p, extraKey, extra))) == Some(p)
    ensures Get(Echo(p, extraKey, extra), extraKey) == extra
    ensures Get(Echo(p, extraKey, extra), "placeholder") == Bool(true)
  {
    EchoLookups(p, extraKey, extra);
    ReadBack(Echo(p, extraKey, extra), p);
  }

  lemma ReadBack(d: Dict, p: BaseParams)
    requires Get(d, "env_date") == Str(p.envDate) && Get(d, "pos_date") == Str(p.posDate)
    requires Get(d, "books") == StrList(p.books) && Get(d, "time_of_day") == Str(p.timeOfDay)
    ensures EchoedParams(Object(d)) == Some(p)
  {
    var b := StrList(p.books);
    var books := seq(|b.items|, i requires 0 <= i < |b.items| => b.items[i].s);
    assert books == p.books;
  }

  lemma EchoLookups(p: BaseParams, extraKey: string, extra: Value)
    requires extraKey !in ["placeholder", "env_date", "pos_date", "books", "time_of_day"]
    ensures var d := Echo(p, extraKey, extra);
      && Get(d, "placeholder") == Bool(true)
      && Get(d, "env_date") == Str(p.envDate)
      && Get(d, "pos_date") == Str(p.posDate)
      && Get(d, "books") == StrList(p.books)
      && Get(d, "time_of_day") == Str(p.timeOfDay)
      && Get(d, extraKey) == extra
  {
    var d := Echo(p, extraKey, extra);
    assert UniqueKeys(d);
    LookupMember(d, 0);
    LookupMember(d, 1);
    LookupMember(d, 2);
    LookupMember(d, 3);
    LookupMember(d, 4);
    LookupMember(d, 5);
  }

  /** `get_futures(params, **section_params)`: `live_price_overrides`
      defaults to `{}` and must be a dict. */
  function GetFutures(p: BaseParams, kwargs: Dict): (r: Outcome)
    ensures r.Raised? <==> !GetOr(kwargs, "live_price_overrides", Object([])).Object?
    ensures r.Raised? ==> r.exc == PyException("ValueError",
      "live_price_overrides must be dict, got " + TypeName(GetOr(kwargs, "live_price_overrides", Object([]))))
    ensures r.Returned? ==> r.value == Object(Echo(p, "overrides_applied", GetOr(kwargs, "live_price_overrides", Object([]))))
  {
    var overrides := GetOr(kwargs, "live_price_overrides", Object([]));
    if !overrides.Object? then
      Raised(PyException("ValueError", "live_price_overrides must be dict, got " + TypeName(overrides)))
    else
      Returned(Object(Echo(p, "overrides_applied", overrides)))
  }

  /** `get_bonds(params, **section_params)`: `exclude_isins` defaults to
      `[]` and must be a list. */
  function GetBonds(p: BaseParams, kwargs: Dict): (r: Outcome)
    ensures r.Raised? <==> !GetOr(kwargs, "exclude_isins", List([])).List?
    ensures r.Raised? ==> r.exc == PyException("ValueError",
      "exclude_isins must be list, got " + TypeName(GetOr(kwargs, "exclude_isins", List([]))))
    ensures r.Returned? ==> r.value == Object(Echo(p, "excluded_isins", GetOr(kwargs, "exclude_isins", List([]))))
  {
    var isins := GetOr(kwargs, "exclude_isins", List([]));
    if !isins.List? then
      Raised(PyException("ValueError", "exclude_isins must be list, got " + TypeName(isins)))
    else
      Returned(Object(Echo(p, "excluded_isins", isins)))
  }

  /** A fetcher that returns echoes the parameters, whatever else it was given. */
  lemma FetchersEcho(p: BaseParams, kwargs: Dict)
    ensures GetFutures(p, kwargs).Returned? ==> EchoedParams(GetFutures(p, kwargs).value) == Some(p)
    ensures GetBonds(p, kwargs).Returned? ==> EchoedParams(GetBonds(p, kwargs).value) == Some(p)
    ensures !HasKey(kwargs, "live_price_overrides") ==>
      GetFutures(p, kwargs) == Returned(Object(Echo(p, "overrides_applied", Object([]))))
    ensures !HasKey(kwargs, "exclude_isins") ==>
      GetBonds(p, kwargs) == Returned(Object(Echo(p, "excluded_isins", List([]))))
  {
    var overrides := GetOr(kwargs, "live_price_overrides", Object([]));
    if overrides.Object? {
      EchoRoundTrip(p, "overrides_applied", overrides);
    }
    var isins := GetOr(kwargs, "exclude_isins", List([]));
    if isins.List? {
      EchoRoundTrip(p, "excluded_isins", isins);
    }
  }

  datatype Fetcher = Futures | Bonds

  /** `fetcher_fn(params=params, **section_params)`: Python refuses a
      non-mapping after `**` and a second `params` keyword with a
      `TypeError` before the fetcher runs. */
  function CallFetcher(f: Fetcher, p: BaseParams, sectionParams: Value): (r: Outcome)
    ensures !sectionParams.Object? ==> r.Raised? && r.exc.kind == "TypeError"
    ensures sectionParams.Object? && HasKey(sectionParams.members, "params") ==> r.Raised? && r.exc.kind == "TypeError"
    ensures sectionParams.Object? && !HasKey(sectionParams.members, "params") ==>
      r == (if f == Futures then GetFutures(p, sectionParams.members) else GetBonds(p, sectionParams.members))
  {
    if !sectionParams.Object? then
      Raised(PyException("TypeError", "argument after ** must be a mapping, not " + TypeName(sectionParams)))
    else if HasKey(sectionParams.members, "params") then
      Raised(PyException("TypeError", "got multiple values for keyword argument 'params'"))
    else if f == Futures then GetFutures(p, sectionParams.members)
    else GetBonds(p, sectionParams.members)
  }

  // ---------------------------------------------------------------------
  // `fetch_all_sections`, run one section after the other.

  /** `config.TIMEOUTS.get(name, config.TIMEOUTS["default"])`. */
  function TimeoutFor(name: string): int {
    var t := PositionConfig.Timeouts;
    if name in t then t[name] else t["default"]
  }

  /** The section parameters one section sees: `(section_params or {})
      .get(name, {})`. */
  function ParamsForSection(sectionParams: Value, name: string): Value
    requires sectionParams.Null? || sectionParams.Object?
  {
    if Truthy(sectionParams) then GetOr(sectionParams.members, name, Object([])) else Object([])
  }

  /** `fetch_all_sections`: a dict with `futures` then `bonds`, each the
      envelope `run_section` builds for that fetcher and its own section
      parameters. */
  function FetchAllSections(p: BaseParams, sectionParams: Value, futuresReadings: Readings, bondsReadings: Readings)
    : (r: Value)
    requires sectionParams.Null? || sectionParams.Object?
    ensures r.Object? && Keys(r.members) == ["futures", "bonds"]
    ensures Get(r.members, "futures") ==
      RunSection(CallFetcher(Futures, p, ParamsForSection(sectionParams, "futures")), futuresReadings, TimeoutFor("futures"))
    ensures Get(r.members, "bonds") ==
      RunSection(CallFetcher(Bonds, p, ParamsForSection(sectionParams, "bonds")), bondsReadings, TimeoutFor("bonds"))
  {
    var futures := RunSection(CallFetcher(Futures, p, ParamsForSection(sectionParams, "futures")),
                              futuresReadings, TimeoutFor("futures"));
    var bonds := RunSection(CallFetcher(Bonds, p, ParamsForSection(sectionParams, "bonds")),
                            bondsReadings, TimeoutFor("bonds"));
    TwoMembers("futures", "bonds", futures, bonds);
    Object([Member("futures", futures), Member("bonds", bonds)])
  }

  /** Lookups in a two-member dict with distinct keys. */
  lemma TwoMembers(k0: string, k1: string, v0: Value, v1: Value)
    requires k0 != k1
    ensures var d := [Member(k0, v0), Member(k1, v1)];
      && Keys(d) == [k0, k1]
      && Get(d, k0) == v0 && Get(d, k1) == v1
  {
    var d := [Member(k0, v0), Member(k1, v1)];
    LookupMember(d, 0);
    LookupMember(d, 1);
  }

  /** Without section parameters (the warmup workers' call) both sections
      come back `ok`, each echoing the parameters. */
  lemma WarmupFetchSucceeds(p: BaseParams, futuresReadings: Readings, bondsReadings: Readings)
    ensures var r := FetchAllSections(p, Null, futuresReadings, bondsReadings);
      && StatusOf(Get(r.members, "futures")) == Str("ok")
      && StatusOf(Get(r.members, "bonds")) == Str("ok")
      && EchoedParams(DataOf(Get(r.members, "futures"))) == Some(p)
      && EchoedParams(DataOf(Get(r.members, "bonds"))) == Some(p)
  {
    assert ParamsForSection(Null, "futures") == Object([]);
    assert ParamsForSection(Null, "bonds") == Object([]);
    var f := GetFutures(p, []);
    var b := GetBonds(p, []);
    FetchersEcho(p, []);
    assert CallFetcher(Futures, p, Object([])) == f;
    assert CallFetcher(Bonds, p, Object([])) == b;
  }
}

=== FILE: section_schemas.dfy ===
/** `validation/sections.py`: the per-section parameter models and the
    map from section name to model. */
module SectionSchemas {
  import opened Wrappers
  import opened PyValue
  import opened Pydantic
  import PosEnvConfig

  const FuturesSchema: seq<FieldSpec> := [
    FieldSpec("eod_price_override", FloatKind, true),
    FieldSpec("open_price_override", FloatKind, true),
    FieldSpec("current_price_override", FloatKind, true)]

  const BondsSchema: seq<FieldSpec> := [
    FieldSpec("spread_override", FloatKind, true),
    FieldSpec("yield_override", FloatKind, true)]

  const IRDeltaSchema: seq<FieldSpec> := [
    FieldSpec("curve_override", StrKind, true),
    FieldSpec("shift_bps", FloatKind, true)]

  /** `include_tplus1: bool` has no default, so it is required. */
  const NewTradesSchema: seq<FieldSpec> := [
    FieldSpec("include_tplus1", BoolKind, false)]

  /** `SECTION_PARAMS_MAP`. */
  const SectionParamsMap: map<string, seq<FieldSpec>> := map[
    "futures" := FuturesSchema,
    "bonds" := BondsSchema,
    "ir_delta" := IRDeltaSchema,
    "new_trades" := NewTradesSchema]

  /** No model declares a field twice. */
  predicate UniqueNames(schema: seq<FieldSpec>) {
    forall i, j :: 0 <= i < j < |schema| ==> schema[i].name != schema[j].name
  }

  /** The map covers exactly the configured sections, and each model's
      field names are distinct. */
  lemma SectionParamsMapShape()
    ensures SectionParamsMap.Keys == set s | s in PosEnvConfig.ValidSections
    ensures forall s :: s in SectionParamsMap ==> UniqueNames(SectionParamsMap[s])
  {
  }

  /** The field names that GET filtering keeps, per section. */
  lemma SchemaFieldNames()
    ensures Names(SectionParamsMap["futures"]) == ["eod_price_override", "open_price_override", "current_price_override"]
    ensures Names(SectionParamsMap["bonds"]) == ["spread_override", "yield_override"]
    ensures Names(SectionParamsMap["ir_delta"]) == ["curve_override", "shift_bps"]
    ensures Names(SectionParamsMap["new_trades"]) == ["include_tplus1"]
  {
  }

  /** The dict an all-optional model gives for `{}`: every field `None`. */
  function AllNone(schema: seq<FieldSpec>): (d: Dict)
    ensures |d| == |schema|
    ensures forall i :: 0 <= i < |schema| ==> d[i] == Member(schema[i].name, Null)
  {
    seq(|schema|, i requires 0 <= i < |schema| => Member(schema[i].name, Null))
  }

  lemma EmptyGivesAllNone(schema: seq<FieldSpec>)
    requires forall i :: 0 <= i < |schema| ==> schema[i].optional
    ensures ValidateModel(schema, []) == Success(AllNone(schema))
  {
    AllOptionalAcceptsEmpty(schema);
  }

  /** futures, bonds and ir_delta accept `{}`, with every field `None`. */
  lemma OptionalSectionsAcceptEmpty()
    ensures ValidateModel(FuturesSchema, []) == Success([
      Member("eod_price_override", Null), Member("open_price_override", Null), Member("current_price_override", Null)])
    ensures ValidateModel(BondsSchema, []) == Success([Member("spread_override", Null), Member("yield_override", Null)])
    ensures ValidateModel(IRDeltaSchema, []) == Success([Member("curve_override", Null), Member("shift_bps", Null)])
  {
    FuturesAcceptsEmpty();
    TwoOptionalAcceptEmpty(BondsSchema);
    TwoOptionalAcceptEmpty(IRDeltaSchema);
  }

  lemma FuturesAcceptsEmpty()
    ensures ValidateModel(FuturesSchema, []) == Success([
      Member("eod_price_override", Null), Member("open_price_override", Null), Member("current_price_override", Null)])
  {
    EmptyGivesAllNone(FuturesSchema);
    var a := AllNone(FuturesSchema);
    assert a == [a[0], a[1], a[2]];
  }

  lemma TwoOptionalAcceptEmpty(schema: seq<FieldSpec>)
    requires |schema| == 2 && schema[0].optional && schema[1].optional
    ensures ValidateModel(schema, []) == Success([Member(schema[0].name, Null), Member(schema[1].name, Null)])
  {
    EmptyGivesAllNone(schema);
    AllNoneOfTwo(schema);
  }

  lemma AllNoneOfTwo(schema: seq<FieldSpec>)
    requires |schema| == 2
    ensures AllNone(schema) == [Member(schema[0].name, Null), Member(schema[1].name, Null)]
  {
  }

  /** new_trades refuses `{}`: `include_tplus1` is required. */
  lemma NewTradesRequiresFlag()
    ensures ValidateModel(NewTradesSchema, []) == Failure([ErrorDetail([Field("include_tplus1")], FieldRequired)])
  {
    var f := NewTradesSchema;
    assert f[1..] == [];
    assert ValidateModel(f[1..], []) == Success([]);
  }
}

=== FILE: sorting.dfy ===
/** Python's `sorted()` for values ordered by a string key (the books of a
    cache key, the members of a dict under `json.dumps(sort_keys=True)`). */
module Sorting {
  import Strings

  predicate SortedBy<T(==)>(s: seq<T>, key: T -> string) {
    forall i, j :: 0 <= i < j < |s| ==> Strings.LessEq(key(s[i]), key(s[j]))
  }

  /** No two distinct elements of `s` share a key. */
  ghost predicate KeyInjective<T>(s: seq<T>, key: T -> string) {
    forall x, y :: x in s && y in s && key(x) == key(y) ==> x == y
  }

  /** Inserts `x` into a sorted sequence, keeping it sorted. */
  function InsertBy<T(==)>(x: T, s: seq<T>, key: T -> string): (r: seq<T>)
    requires SortedBy(s, key)
    ensures SortedBy(r, key)
    ensures multiset(r) == multiset(s) + multiset{x}
    ensures |r| == |s| + 1
  {
    if |s| == 0 then [x]
    else if Strings.LessEq(key(x), key(s[0])) then
      LowerBound(x, s, key);
      ConsSorted(x, s, key);
      [x] + s
    else
      var tail := InsertBy(x, s[1..], key);
      assert s == [s[0]] + s[1..];
      Strings.LessEqTotal(key(x), key(s[0]));
      InsertedBound(x, s, tail, key);
      ConsSorted(s[0], tail, key);
      [s[0]] + tail
  }

  /** A key no greater than a sorted sequence's first is no greater than
      any of its keys. */
  lemma LowerBound<T>(x: T, s: seq<T>, key: T -> string)
    requires SortedBy(s, key) && |s| > 0 && Strings.LessEq(key(x), key(s[0]))
    ensures forall j :: 0 <= j < |s| ==> Strings.LessEq(key(x), key(s[j]))
  {
    forall j | 0 < j < |s|
      ensures Strings.LessEq(key(x), key(s[j]))
    {
      Strings.LessEqTransitive(key(x), key(s[0]), key(s[j]));
    }
  }

  lemma ConsSorted<T>(h: T, t: seq<T>, key: T -> string)
    requires SortedBy(t, key)
    requires forall j :: 0 <= j < |t| ==> Strings.LessEq(key(h), key(t[j]))
    ensures SortedBy([h] + t, key)
  {
    var r := [h] + t;
    forall i, j | 0 <= i < j < |r|
      ensures Strings.LessEq(key(r[i]), key(r[j]))
    {
      if i > 0 {
        assert r[i] == t[i - 1] && r[j] == t[j - 1];
      } else {
        assert r[j] == t[j - 1];
      }
    }
  }

  /** Every element of the insertion into the tail keys at least the head. */
  lemma InsertedBound<T>(x: T, s: seq<T>, tail: seq<T>, key: T -> string)
    requires SortedBy(s, key) && |s| > 0 && Strings.LessEq(key(s[0]), key(x))
    requires multiset(tail) == multiset(s[1..]) + multiset{x}
    ensures forall j :: 0 <= j < |tail| ==> Strings.LessEq(key(s[0]), key(tail[j]))
  {
    forall j | 0 <= j < |tail|
      ensures Strings.LessEq(key(s[0]), key(tail[j]))
    {
      var y := tail[j];
      assert y in multiset(tail);
      if y != x {
        assert y in multiset(s[1..]);
        var k :| 0 <= k < |s[1..]| && s[1..][k] == y;
        assert s[k + 1] == y;
      }
    }
  }

  /** `sorted(s, key=key)`: a sorted permutation of `s`. */
  function SortBy<T(==)>(s: seq<T>, key: T -> string): (r: seq<T>)
    ensures SortedBy(r, key)
    ensures multiset(r) == multiset(s)
    ensures |r| == |s|
  {
    if |s| == 0 then []
    else
      assert s == [s[0]] + s[1..];
      InsertBy(s[0], SortBy(s[1..], key), key)
  }

  /** Two sorted permutations of one another are equal when no two distinct
      elements share a key. */
  lemma {:induction false} SortedUnique<T>(a: seq<T>, b: seq<T>, key: T -> string)
    requires SortedBy(a, key) && SortedBy(b, key)
    requires multiset(a) == multiset(b)
    requires KeyInjective(a, key)
    ensures a == b
  {
    if |a| == 0 {
      assert |multiset(b)| == 0;
    } else {
      assert |b| > 0 by {
        assert a[0] in multiset(b);
      }
      SameHead(a, b, key);
      SameTail(a, b);
      assert KeyInjective(a[1..], key) by {
        forall x | x in a[1..]
          ensures x in a
        {
        }
      }
      SortedUnique(a[1..], b[1..], key);
      assert a == [a[0]] + a[1..];
      assert b == [b[0]] + b[1..];
    }
  }

  /** The least elements of two sorted permutations agree. */
  lemma SameHead<T>(a: seq<T>, b: seq<T>, key: T -> string)
    requires |a| > 0 && |b| > 0
    requires SortedBy(a, key) && SortedBy(b, key)
    requires multiset(a) == multiset(b)
    requires KeyInjective(a, key)
    ensures a[0] == b[0]
  {
    assert a[0] in multiset(b) && b[0] in multiset(a);
    var i :| 0 <= i < |a| && a[i] == b[0];
    var j :| 0 <= j < |b| && b[j] == a[0];
    Strings.LessEqReflexive(key(a[0]));
    Strings.LessEqReflexive(key(b[0]));
    assert Strings.LessEq(key(a[0]), key(b[0]));
    assert Strings.LessEq(key(b[0]), key(a[0]));
    Strings.LessEqAntisymmetric(key(a[0]), key(b[0]));
  }

  /** Removing an equal head from two permutations leaves permutations. */
  lemma SameTail<T>(a: seq<T>, b: seq<T>)
    requires |a| > 0 && |b| > 0 && a[0] == b[0]
    requires multiset(a) == multiset(b)
    ensures multiset(a[1..]) == multiset(b[1..])
  {
    assert a == [a[0]] + a[1..];
    assert b == [b[0]] + b[1..];
    assert multiset(a[1..]) == multiset(a) - multiset{a[0]};
    assert multiset(b[1..]) == multiset(b) - multiset{b[0]};
  }

  /** Sorting forgets exactly the order: two sequences sort to the same
      result if and only if they are permutations of one another (given that
      equal keys mean equal elements). */
  lemma SortByPermutation<T>(a: seq<T>, b: seq<T>, key: T -> string)
    requires KeyInjective(a, key)
    ensures SortBy(a, key) == SortBy(b, key) <==> multiset(a) == multiset(b)
  {
    if multiset(a) == multiset(b) {
      var sa := SortBy(a, key);
      assert KeyInjective(sa, key) by {
        forall x | x in sa
          ensures x in a
        {
          assert x in multiset(sa);
        }
      }
      SortedUnique(sa, SortBy(b, key), key);
    }
  }
}

=== FILE: storage_models.dfy ===
/** `storage/models.py`: the request context that is both the stored
    record and the response body. The dataclass does not check field types,
    so every field holds an arbitrary Python value. */
module StorageModels {
  import opened Wrappers
  import opened PyValue

  datatype RequestContext = RequestContext(
    requestId: Value,
    timestamp: Value,
    requestData: Value,
    responseData: Value,
    errorStack: Value,
    durationMs: Value,
    cached: Value)

  const DefaultResponseData: Value := Object([])
  const DefaultErrorStack: Value := Str("")
  const DefaultDurationMs: Value := Int(0)
  const DefaultCached: Value := Bool(false)

  /** `RequestContext(request_id=..., timestamp=..., request_data=...)`:
      the other fields take their defaults. */
  function NewContext(requestId: Value, timestamp: Value, requestData: Value): (c: RequestContext)
    ensures c.requestId == requestId && c.timestamp == timestamp && c.requestData == requestData
    ensures c.responseData == Object([]) && c.errorStack == Str("")
    ensures c.durationMs == Int(0) && c.cached == Bool(false)
  {
    RequestContext(requestId, timestamp, requestData, DefaultResponseData, DefaultErrorStack, DefaultDurationMs, DefaultCached)
  }

  /** The keys of `to_dict()`, in order. */
  const ContextKeys: seq<string> :=
    ["request_id", "timestamp", "duration_ms", "cached", "request_data", "response_data", "error_stack"]

  /** The values of `to_dict()`, in the order of `ContextKeys`. */
  function ContextValues(c: RequestContext): seq<Value> {
    [c.requestId, c.timestamp, c.durationMs, c.cached, c.requestData, c.responseData, c.errorStack]
  }

  /** No two keys of `to_dict()` coincide: they differ in length, or else in
      their first letter. */
  lemma ContextKeysDistinct()
    ensures forall i, j :: 0 <= i < j < |ContextKeys| ==> ContextKeys[i] != ContextKeys[j]
  {
    assert forall i :: 0 <= i < |ContextKeys| ==> |ContextKeys[i]| > 0;
    assert forall i, j :: 0 <= i < j < |ContextKeys| ==>
      |ContextKeys[i]| != |ContextKeys[j]| || ContextKeys[i][0] != ContextKeys[j][0];
  }

  /** `to_dict()`. */
  function ToDict(c: RequestContext): (d: Dict)
    ensures Keys(d) == ContextKeys
    ensures UniqueKeys(d)
    ensures forall i :: 0 <= i < |d| ==> d[i] == Member(ContextKeys[i], ContextValues(c)[i])
  {
    ContextKeysDistinct();
    seq(|ContextKeys|, i requires 0 <= i < |ContextKeys| => Member(ContextKeys[i], ContextValues(c)[i]))
  }

  /** `data[key]`, raising `KeyError(key)` when it is missing. */
  function Subscript(d: Dict, key: string): (r: Result<Value, PyException>)
    ensures r.Success? <==> HasKey(d, key)
    ensures r.Success? ==> r == Success(Lookup(d, key).value)
    ensures r.Failure? ==> r.error == PyException("KeyError", key)
  {
    match Lookup(d, key)
    case Some(v) => Success(v)
    case None => Failure(PyException("KeyError", key))
  }

  /** `RequestContext.from_dict`: the keyword arguments are read in the
      order they are written, so a missing `request_id` is reported before
      a missing `timestamp`, and that before a missing `request_data`. */
  function FromDict(d: Dict): (r: Result<RequestContext, PyException>)
    ensures r.Success? <==> HasKey(d, "request_id") && HasKey(d, "timestamp") && HasKey(d, "request_data")
    ensures !HasKey(d, "request_id") ==> r == Failure(PyException("KeyError", "request_id"))
    ensures HasKey(d, "request_id") && !HasKey(d, "timestamp") ==> r == Failure(PyException("KeyError", "timestamp"))
    ensures HasKey(d, "request_id") && HasKey(d, "timestamp") && !HasKey(d, "request_data") ==>
      r == Failure(PyException("KeyError", "request_data"))
    ensures r.Success? ==> r.value.requestId == Lookup(d, "request_id").value
    ensures r.Success? ==> r.value.timestamp == Lookup(d, "timestamp").value
    ensures r.Success? ==> r.value.requestData == Lookup(d, "request_data").value
    ensures r.Success? ==> r.value.durationMs == GetOr(d, "duration_ms", DefaultDurationMs)
    ensures r.Success? ==> r.value.cached == GetOr(d, "cached", DefaultCached)
    ensures r.Success? ==> r.value.responseData == GetOr(d, "response_data", DefaultResponseData)
    ensures r.Success? ==> r.value.errorStack == GetOr(d, "error_stack", DefaultErrorStack)
  {
    match RequiredValues(d)
    case Failure(e) => Failure(e)
    case Success(vs) =>
      Success(RequestContext(vs.0, vs.1, vs.2, GetOr(d, "response_data", DefaultResponseData),
        GetOr(d, "error_stack", DefaultErrorStack), GetOr(d, "duration_ms", DefaultDurationMs),
        GetOr(d, "cached", DefaultCached)))
  }

  /** `d["request_id"]`, `d["timestamp"]` and `d["request_data"]`, read in
      that order, the first missing key raising. */
  function RequiredValues(d: Dict): (r: Result<(Value, Value, Value), PyException>)
    ensures r.Success? <==> HasKey(d, "request_id") && HasKey(d, "timestamp") && HasKey(d, "request_data")
    ensures !HasKey(d, "request_id") ==> r == Failure(PyException("KeyError", "request_id"))
    ensures HasKey(d, "request_id") && !HasKey(d, "timestamp") ==> r == Failure(PyException("KeyError", "timestamp"))
    ensures HasKey(d, "request_id") && HasKey(d, "timestamp") && !HasKey(d, "request_data") ==>
      r == Failure(PyException("KeyError", "request_data"))
    ensures r.Success? ==>
      r.value == (Lookup(d, "request_id").value, Lookup(d, "timestamp").value, Lookup(d, "request_data").value)
  {
    var requestId := Subscript(d, "request_id");
    var timestamp := Subscript(d, "timestamp");
    var requestData := Subscript(d, "request_data");
    if requestId.Failure? then Failure(requestId.error)
    else if timestamp.Failure? then Failure(timestamp.error)
    else if requestData.Failure? then Failure(requestData.error)
    else Success((requestId.value, timestamp.value, requestData.value))
  }

  /** A stored context reads back as itself. */
  lemma FromToDict(c: RequestContext)
    ensures FromDict(ToDict(c)) == Success(c)
  {
    ToDictLookups(c);
  }

  lemma ToDictLookups(c: RequestContext)
    ensures Lookup(ToDict(c), "request_id") == Some(c.requestId)
    ensures Lookup(ToDict(c), "timestamp") == Some(c.timestamp)
    ensures Lookup(ToDict(c), "duration_ms") == Some(c.durationMs)
    ensures Lookup(ToDict(c), "cached") == Some(c.cached)
    ensures Lookup(ToDict(c), "request_data") == Some(c.requestData)
    ensures Lookup(ToDict(c), "response_data") == Some(c.responseData)
    ensures Lookup(ToDict(c), "error_stack") == Some(c.errorStack)
  {
    var d := ToDict(c);
    LookupMember(d, 0);
    LookupMember(d, 1);
    LookupMember(d, 2);
    LookupMember(d, 3);
    LookupMember(d, 4);
    LookupMember(d, 5);
    LookupMember(d, 6);
  }

  /** A record holding only the required keys reads back with every
      default, as a newly created context has them. */
  lemma FromDictDefaults(requestId: Value, timestamp: Value, requestData: Value)
    ensures FromDict([Member("request_id", requestId), Member("timestamp", timestamp), Member("request_data", requestData)])
      == Success(NewContext(requestId, timestamp, requestData))
  {
    var d := [Member("request_id", requestId), Member("timestamp", timestamp), Member("request_data", requestData)];
    RequiredOnly(requestId, timestamp, requestData);
    FromRequiredOnly(d);
  }

  /** The three-member record: its lookups, and the optional keys absent. */
  lemma RequiredOnly(requestId: Value, timestamp: Value, requestData: Value)
    ensures var d := [Member("request_id", requestId), Member("timestamp", timestamp), Member("request_data", requestData)];
      && Lookup(d, "request_id") == Some(requestId)
      && Lookup(d, "timestamp") == Some(timestamp)
      && Lookup(d, "request_data") == Some(requestData)
      && !HasKey(d, "duration_ms") && !HasKey(d, "cached") && !HasKey(d, "response_data") && !HasKey(d, "error_stack")
  {
    RequiredOnlyLookups(requestId, timestamp, requestData);
    RequiredOnlyKeys(requestId, timestamp, requestData);
  }

  lemma RequiredOnlyKeys(requestId: Value, timestamp: Value, requestData: Value)
    ensures var d := [Member("request_id", requestId), Member("timestamp", timestamp), Member("request_data", requestData)];
      Keys(d) == ["request_id", "timestamp", "request_data"]
  {
  }

  lemma RequiredOnlyLookups(requestId: Value, timestamp: Value, requestData: Value)
    ensures var d := [Member("request_id", requestId), Member("timestamp", timestamp), Member("request_data", requestData)];
      && Lookup(d, "request_id") == Some(requestId)
      && Lookup(d, "timestamp") == Some(timestamp)
      && Lookup(d, "request_data") == Some(requestData)
  {
    var d := [Member("request_id", requestId), Member("timestamp", timestamp), Member("request_data", requestData)];
    assert UniqueKeys(d);
    LookupMember(d, 0);
    LookupMember(d, 1);
    LookupMember(d, 2);
  }

  /** A dict with the required keys and none of the optional ones reads
      back as a new context. */
  lemma FromRequiredOnly(d: Dict)
    requires HasKey(d, "request_id") && HasKey(d, "timestamp") && HasKey(d, "request_data")
    requires !HasKey(d, "duration_ms") && !HasKey(d, "cached") && !HasKey(d, "response_data") && !HasKey(d, "error_stack")
    ensures FromDict(d) == Success(NewContext(Lookup(d, "request_id").value, Lookup(d, "timestamp").value, Lookup(d, "request_data").value))
  {
  }
}

=== FILE: strings.dfy ===
/** The few pieces of Python's `str` behaviour the servers rely on:
    `strip()`, `split(sep)`, `sep.join(parts)`, `lower()` and the
    code-point order used by `<=` and `sorted()`. */
module Strings {

  /** Python's `str.isspace()`, the characters `str.strip()` removes. */
  predicate IsSpace(c: char) {
    || ('\t' <= c <= '\r')
    || ('\U{1c}' <= c <= '\U{1f}')
    || c == ' '
    || c == '\U{85}'
    || c == '\U{a0}'
    || c == '\U{1680}'
    || ('\U{2000}' <= c <= '\U{200a}')
    || c == '\U{2028}'
    || c == '\U{2029}'
    || c == '\U{202f}'
    || c == '\U{205f}'
    || c == '\U{3000}'
  }

  predicate AllSpace(s: string) {
    forall i :: 0 <= i < |s| ==> IsSpace(s[i])
  }

  /** Neither end of `s` is whitespace (so `s.strip()` leaves it alone). */
  predicate Trimmed(s: string) {
    s == [] || (!IsSpace(s[0]) && !IsSpace(s[|s| - 1]))
  }

  /** `s.lstrip()`: drops the longest all-whitespace prefix. */
  function TrimLeft(s: string): (r: string)
    ensures |r| <= |s| && r == s[|s| - |r|..]
    ensures AllSpace(s[..|s| - |r|])
    ensures r == [] || !IsSpace(r[0])
  {
    if |s| > 0 && IsSpace(s[0]) then
      var r := TrimLeft(s[1..]);
      TrimLeftStep(s, r);
      r
    else s
  }

  /** `s.rstrip()`: drops the longest all-whitespace suffix. */
  function TrimRight(s: string): (r: string)
    ensures |r| <= |s| && r == s[..|r|]
    ensures AllSpace(s[|r|..])
    ensures r == [] || !IsSpace(r[|r| - 1])
  {
    if |s| > 0 && IsSpace(s[|s| - 1]) then
      var r := TrimRight(s[..|s| - 1]);
      TrimRightStep(s, r);
      r
    else s
  }

  lemma TrimLeftStep(s: string, r: string)
    requires 0 < |s| && IsSpace(s[0])
    requires |r| < |s| && r == s[1..][|s| - 1 - |r|..] && AllSpace(s[1..][..|s| - 1 - |r|])
    ensures r == s[|s| - |r|..] && AllSpace(s[..|s| - |r|])
  {
    var t, u := s[..|s| - |r|], s[1..][..|s| - 1 - |r|];
    forall i | 1 <= i < |t|
      ensures IsSpace(t[i])
    {
      assert t[i] == u[i - 1];
    }
  }

  lemma TrimRightStep(s: string, r: string)
    requires 0 < |s| && IsSpace(s[|s| - 1])
    requires |r| < |s| && r == s[..|s| - 1][..|r|] && AllSpace(s[..|s| - 1][|r|..])
    ensures r == s[..|r|] && AllSpace(s[|r|..])
  {
    var t, u := s[|r|..], s[..|s| - 1][|r|..];
    forall i | 0 <= i < |t| - 1
      ensures IsSpace(t[i])
    {
      assert t[i] == u[i];
    }
  }

  /** `s.strip()`: the infix of `s` left after removing whitespace at both
      ends. */
  function Strip(s: string): (r: string)
    ensures |r| <= |TrimLeft(s)|
    ensures r == s[|s| - |TrimLeft(s)|..][..|r|]
    ensures Trimmed(r)
  {
    TrimRight(TrimLeft(s))
  }

  /** `s.strip()` is empty exactly when `s` is all whitespace. */
  lemma StripEmpty(s: string)
    ensures Strip(s) == [] <==> AllSpace(s)
  {
    var l := TrimLeft(s);
    if Strip(s) == [] {
      assert l == [];
      assert s[..|s|] == s;
    }
  }

  /** A string with no whitespace at either end is its own strip. */
  lemma StripTrimmed(s: string)
    requires Trimmed(s)
    ensures Strip(s) == s
  {
    assert TrimLeft(s) == s;
    assert TrimRight(s) == s;
  }

  /** `s.strip().strip() == s.strip()`. */
  lemma StripIdempotent(s: string)
    ensures Strip(Strip(s)) == Strip(s)
  {
    StripTrimmed(Strip(s));
  }

  /** Stripping only removes characters. */
  lemma StripSubset(s: string, c: char)
    requires c in Strip(s)
    ensures c in s
  {
    var k := |s| - |TrimLeft(s)|;
    var i :| 0 <= i < |Strip(s)| && Strip(s)[i] == c;
    assert s[k..][i] == c;
  }

  /** Index of the first occurrence of `c` in `s`. */
  function IndexOf(s: string, c: char): (i: nat)
    requires c in s
    ensures i < |s| && s[i] == c && c !in s[..i]
  {
    if s[0] == c then 0 else 1 + IndexOf(s[1..], c)
  }

  /** `sep.join(parts)`. */
  function Join(parts: seq<string>, sep: string): string {
    if |parts| == 0 then ""
    else if |parts| == 1 then parts[0]
    else parts[0] + sep + Join(parts[1..], sep)
  }

  /** `s.split(sep)` for a one-character separator: at least one piece, no
      piece holds the separator, and joining the pieces gives `s` back. */
  function Split(s: string, sep: char): (r: seq<string>)
    ensures |r| >= 1
    ensures forall i :: 0 <= i < |r| ==> sep !in r[i]
    ensures Join(r, [sep]) == s
    decreases |s|
  {
    if sep in s then
      var i := IndexOf(s, sep);
      var rest := Split(s[i + 1..], sep);
      assert Join([s[..i]] + rest, [sep]) == s[..i] + [sep] + Join(rest, [sep]) by {
        assert ([s[..i]] + rest)[1..] == rest;
      }
      assert s == s[..i] + [sep] + s[i + 1..];
      [s[..i]] + rest
    else
      [s]
  }

  /** Splitting undoes joining when no part holds the separator. */
  lemma {:induction false} SplitJoin(parts: seq<string>, sep: char)
    requires |parts| >= 1
    requires forall i :: 0 <= i < |parts| ==> sep !in parts[i]
    ensures Split(Join(parts, [sep]), sep) == parts
  {
    if |parts| > 1 {
      var rest := Join(parts[1..], [sep]);
      assert Join(parts, [sep]) == parts[0] + [sep] + rest;
      SplitCons(parts[0], sep, rest);
      SplitJoin(parts[1..], sep);
      assert [parts[0]] + parts[1..] == parts;
    }
  }

  /** A first piece free of the separator is split off whole. */
  lemma SplitCons(a: string, sep: char, b: string)
    requires sep !in a
    ensures Split(a + [sep] + b, sep) == [a] + Split(b, sep)
  {
    var s := a + [sep] + b;
    IndexAfterPrefix(a, sep, b);
    assert s[..|a|] == a;
    assert s[|a| + 1..] == b;
  }

  lemma IndexAfterPrefix(a: string, sep: char, b: string)
    requires sep !in a
    ensures sep in a + [sep] + b && IndexOf(a + [sep] + b, sep) == |a|
  {
    var s := a + [sep] + b;
    assert s[|a|] == sep;
  }

  /** ASCII part of `str.lower()`. */
  function LowerChar(c: char): char {
    if 'A' <= c <= 'Z' then (c as int + 32) as char else c
  }

  function Lower(s: string): (r: string)
    ensures |r| == |s|
    ensures forall i :: 0 <= i < |s| ==> r[i] == LowerChar(s[i])
  {
    if |s| == 0 then [] else [LowerChar(s[0])] + Lower(s[1..])
  }

  /** Python's `a <= b` on `str`: lexicographic order of code points, a
      proper prefix coming first. */
  predicate LessEq(a: string, b: string) {
    |a| == 0 || (|b| > 0 && (a[0] < b[0] || (a[0] == b[0] && LessEq(a[1..], b[1..]))))
  }

  lemma LessEqReflexive(a: string)
    ensures LessEq(a, a)
  {
  }

  lemma LessEqAntisymmetric(a: string, b: string)
    requires LessEq(a, b) && LessEq(b, a)
    ensures a == b
  {
    if |a| > 0 {
      LessEqAntisymmetric(a[1..], b[1..]);
      assert a == [a[0]] + a[1..];
      assert b == [b[0]] + b[1..];
    }
  }

  lemma LessEqTransitive(a: string, b: string, c: string)
    requires LessEq(a, b) && LessEq(b, c)
    ensures LessEq(a, c)
  {
    if |a| > 0 && |b| > 0 && |c| > 0 && a[0] == b[0] == c[0] {
      LessEqTransitive(a[1..], b[1..], c[1..]);
    }
  }

  lemma LessEqTotal(a: string, b: string)
    ensures LessEq(a, b) || LessEq(b, a)
  {
    if |a| > 0 && |b| > 0 {
      LessEqTotal(a[1..], b[1..]);
    }
  }
}

=== FILE: validator.dfy ===
/** `validation/validator.py`: choosing where the parameters are, checking
    the common parameters, expanding `section`, converting GET strings and
    checking every requested section's own parameters. */
module Validator {
  import opened Wrappers
  import opened PyValue
  import Strings
  import opened Pydantic
  import PosEnvConfig
  import CommonValidation
  import SectionSchemas

  // ---------------------------------------------------------------------
  // The request record the handlers build.

  /** What a handler passes to validation: a GET carries its query
      arguments (the last value of each, as text), a POST carries whatever
      its JSON body decoded to (`{}` when it does not decode). */
  datatype Request =
    | GetRequest(query: Dict)
    | PostRequest(body: Value)

  /** `parse_get_params` / `parse_post_body`: the `{"method", ...}` dict. */
  function RawParams(req: Request): (raw: Dict)
    ensures UniqueKeys(raw)
    ensures Keys(raw) == ["method", if req.GetRequest? then "query_params" else "body"]
  {
    match req
    case GetRequest(q) => [Member("method", Str("GET")), Member("query_params", Object(q))]
    case PostRequest(b) => [Member("method", Str("POST")), Member("body", b)]
  }

  predicate IsGet(raw: Dict) {
    Lookup(raw, "method") == Some(Str("GET"))
  }

  /** Where the parameters live: `query_params` for a GET, `body` for any
      other method (both defaulting to `{}`), the dict itself when there is
      no `method` key. */
  function SelectSource(raw: Dict): Value {
    if !HasKey(raw, "method") then Object(raw)
    else if IsGet(raw) then GetOr(raw, "query_params", Object([]))
    else GetOr(raw, "body", Object([]))
  }

  /** The source of a handler-built request is what the handler put there. */
  lemma SourceOfRequest(req: Request)
    ensures IsGet(RawParams(req)) <==> req.GetRequest?
    ensures SelectSource(RawParams(req)) == if req.GetRequest? then Object(req.query) else req.body
  {
  }

  // ---------------------------------------------------------------------
  // Python exceptions raised on malformed input.

  function TypeError(message: string): PyException {
    PyException("TypeError", message)
  }

  /** `Model(**v)` for a `v` that is not a dict. */
  function NotMapping(v: Value): PyException {
    TypeError("argument after ** must be a mapping, not " + TypeName(v))
  }

  /** `v.name` for a `v` that has no such attribute. */
  function NoAttribute(v: Value, name: string): PyException {
    PyException("AttributeError", "'" + TypeName(v) + "' object has no attribute '" + name + "'")
  }

  function ValidationError(message: string): PyException {
    PyException("ValidationError", message)
  }

  // ---------------------------------------------------------------------
  // Common parameters.

  /** `validate_common_params`. */
  function ValidateCommonParams(raw: Dict): (r: Result<CommonValidation.CommonParams, PyException>)
    ensures !SelectSource(raw).Object? ==> r == Failure(NotMapping(SelectSource(raw)))
    ensures SelectSource(raw).Object? ==>
      var v := CommonValidation.ValidateCommon(SelectSource(raw).members);
      && (r.Success? <==> v.Success?)
      && (r.Success? ==> r.value == v.value)
      && (r.Failure? ==> r.error == ValidationError(
            "Invalid common parameters: " + Strings.Join(FormatErrors(v.error), "; ")))
  {
    var params := SelectSource(raw);
    if !params.Object? then Failure(NotMapping(params))
    else
      match CommonValidation.ValidateCommon(params.members)
      case Success(c) => Success(c)
      case Failure(es) => Failure(ValidationError("Invalid common parameters: " + Strings.Join(FormatErrors(es), "; ")))
  }

  /** A GET whose query lacks `section` is refused, and the message names
      that field first. */
  lemma MissingSectionReported(q: Dict)
    requires !HasKey(q, "section")
    ensures var r := ValidateCommonParams(RawParams(GetRequest(q)));
      && r.Failure? && r.error.kind == "ValidationError"
      && StartsWith(r.error.message, "Invalid common parameters: " + "section: Field required")
  {
    SourceOfRequest(GetRequest(q));
    var v := CommonValidation.ValidateCommon(q);
    CommonValidation.ErrorsInFieldOrder(q);
    var parts := FormatErrors(v.error);
    SectionRequiredText();
    JoinPrefix("Invalid common parameters: ", parts, "; ");
  }

  predicate StartsWith(s: string, prefix: string) {
    |prefix| <= |s| && s[..|prefix|] == prefix
  }

  lemma JoinPrefix(p: string, parts: seq<string>, sep: string)
    requires |parts| > 0
    ensures StartsWith(p + Strings.Join(parts, sep), p + parts[0])
  {
    if |parts| > 1 {
      assert p + Strings.Join(parts, sep) == (p + parts[0]) + (sep + Strings.Join(parts[1..], sep));
    }
  }

  lemma SectionRequiredText()
    ensures FormatError(ErrorDetail([Field("section")], FieldRequired)) == "section: Field required"
  {
    assert seq(1, i requires 0 <= i < 1 => LocPartText([Field("section")][i])) == ["section"];
  }

  // ---------------------------------------------------------------------
  // Sections to run.

  /** `resolve_sections`. */
  function ResolveSections(section: string): (r: seq<string>)
    ensures |r| > 0
    ensures section == "all" ==> r == PosEnvConfig.ValidSections
    ensures section != "all" ==> r == [section]
  {
    if section == "all" then PosEnvConfig.ValidSections else [section]
  }

  /** Once `section` has passed validation, every section it resolves to is
      configured and has a parameter model. */
  lemma ResolvedSectionsKnown(raw: Dict)
    requires ValidateCommonParams(raw).Success?
    ensures forall s :: s in ResolveSections(ValidateCommonParams(raw).value.section) ==>
      s in PosEnvConfig.ValidSections && s in SectionSchemas.SectionParamsMap
  {
    SectionSchemas.SectionParamsMapShape();
  }

  // ---------------------------------------------------------------------
  // GET string conversion.

  /** `float(v)` when it does not raise. */
  function PyFloat(v: Value): (r: Option<Value>)
    ensures r.Some? ==> r.value.Float?
    ensures v.Str? ==> r == ParseFloat(v.s)
    ensures v.Int? ==> r == Some(Float(v.i, 0))
    ensures v.Bool? ==> r == Some(Float(if v.b then 1 else 0, 0))
    ensures v.Float? ==> r == Some(v)
    ensures v.Null? || v.List? || v.Object? ==> r.None?
  {
    match v
    case Int(i) => Some(Float(i, 0))
    case Float(_, _) => Some(v)
    case Bool(b) => Some(Float(if b then 1 else 0, 0))
    case Str(s) => ParseFloat(s)
    case _ => None
  }

  /** The words a GET bool parameter counts as true. */
  const GetTrueTexts: seq<string> := ["true", "1", "yes"]

  /** The conversion of one present field: float fields through `float()`
      (keeping the value when that raises `ValueError`/`TypeError`), bool
      fields through `.lower()` (which raises on anything but a string),
      everything else as it is. */
  function ConvertValue(kind: FieldKind, v: Value): (r: Result<Value, PyException>)
    ensures r.Failure? <==> kind == BoolKind && !v.Str?
  {
    match kind
    case FloatKind => Success(PyFloat(v).GetOr(v))
    case BoolKind =>
      if v.Str? then Success(Bool(Strings.Lower(v.s) in GetTrueTexts)) else Failure(NoAttribute(v, "lower"))
    case StrKind => Success(v)
  }

  /** The model's field names that the query holds, in model order. */
  function PresentNames(schema: seq<FieldSpec>, params: Dict): (ns: seq<string>)
    ensures forall n :: n in ns <==> n in Names(schema) && HasKey(params, n)
  {
    if |schema| == 0 then []
    else
      var rest := PresentNames(schema[1..], params);
      assert forall n :: n in Names(schema) <==> n == schema[0].name || n in Names(schema[1..]) by {
        assert Names(schema) == [schema[0].name] + Names(schema[1..]);
      }
      (if HasKey(params, schema[0].name) then [schema[0].name] else []) + rest
  }

  /** A field the conversion does not raise on: absent, or convertible. */
  predicate Convertible(params: Dict, f: FieldSpec) {
    HasKey(params, f.name) ==> ConvertValue(f.kind, Lookup(params, f.name).value).Success?
  }

  predicate AllConvertible(params: Dict, schema: seq<FieldSpec>) {
    forall i :: 0 <= i < |schema| ==> Convertible(params, schema[i])
  }

  lemma AllConvertibleCons(params: Dict, schema: seq<FieldSpec>)
    requires |schema| > 0
    ensures AllConvertible(params, schema) <==> Convertible(params, schema[0]) && AllConvertible(params, schema[1..])
  {
    assert forall i :: 0 <= i < |schema[1..]| ==> schema[1..][i] == schema[i + 1];
  }

  /** `_convert_get_params`. */
  function ConvertGetParams(params: Dict, schema: seq<FieldSpec>): (r: Result<Dict, PyException>)
    ensures r.Success? <==> AllConvertible(params, schema)
    ensures r.Success? ==> Keys(r.value) == PresentNames(schema, params)
    ensures r.Failure? ==> r.error.kind == "AttributeError"
  {
    if |schema| == 0 then Success([])
    else
      var f := schema[0];
      var rest := ConvertGetParams(params, schema[1..]);
      AllConvertibleCons(params, schema);
      if !HasKey(params, f.name) then rest
      else
        match ConvertValue(f.kind, Lookup(params, f.name).value)
        case Failure(e) => Failure(e)
        case Success(c) =>
          if rest.Failure? then rest
          else
            assert ([Member(f.name, c)] + rest.value)[1..] == rest.value;
            Success([Member(f.name, c)] + rest.value)
  }

  /** The converted dict holds, for each present field, the conversion of
      that field's value. */
  lemma {:induction false} ConvertedLookup(params: Dict, schema: seq<FieldSpec>, i: nat)
    requires SectionSchemas.UniqueNames(schema)
    requires ConvertGetParams(params, schema).Success?
    requires i < |schema| && HasKey(params, schema[i].name)
    ensures Lookup(ConvertGetParams(params, schema).value, schema[i].name) ==
      Some(ConvertValue(schema[i].kind, Lookup(params, schema[i].name).value).value)
  {
    ConvertStep(params, schema);
    if i > 0 {
      UniqueTail(schema);
      assert schema[1..][i - 1] == schema[i];
      ConvertedLookup(params, schema[1..], i - 1);
      assert schema[0].name != schema[i].name;
    }
  }

  /** One step of the conversion: the first field, when present, is looked
      up in front of the rest's result. */
  lemma ConvertStep(params: Dict, schema: seq<FieldSpec>)
    requires |schema| > 0 && ConvertGetParams(params, schema).Success?
    ensures ConvertGetParams(params, schema[1..]).Success?
    ensures forall k ::
              Lookup(ConvertGetParams(params, schema).value, k) ==
              if HasKey(params, schema[0].name) && k == schema[0].name
              then Some(ConvertValue(schema[0].kind, Lookup(params, k).value).value)
              else Lookup(ConvertGetParams(params, schema[1..]).value, k)
  {
  }

  /** Dropping the first field keeps the names distinct. */
  lemma UniqueTail(schema: seq<FieldSpec>)
    requires |schema| > 0 && SectionSchemas.UniqueNames(schema)
    ensures SectionSchemas.UniqueNames(schema[1..])
  {
    forall a, b | 0 <= a < b < |schema[1..]| ensures schema[1..][a].name != schema[1..][b].name {
      assert schema[1..][a] == schema[a + 1] && schema[1..][b] == schema[b + 1];
    }
  }

  /** What the conversion does to each present field: a bool field is true
      exactly when its lower-cased text is one of "true", "1", "yes"; a
      float field takes `float()` of its text, or keeps the text when that
      does not parse; a str field is unchanged. */
  lemma ConvertedValues(params: Dict, schema: seq<FieldSpec>, i: nat)
    requires SectionSchemas.UniqueNames(schema)
    requires ConvertGetParams(params, schema).Success?
    requires i < |schema| && HasKey(params, schema[i].name)
    ensures var v := Lookup(params, schema[i].name).value;
      var out := Lookup(ConvertGetParams(params, schema).value, schema[i].name);
      && (schema[i].kind == BoolKind ==> v.Str? && out == Some(Bool(Strings.Lower(v.s) in GetTrueTexts)))
      && (schema[i].kind == FloatKind && v.Str? && ParseFloat(v.s).None? ==> out == Some(v))
      && (schema[i].kind == FloatKind && v.Str? && ParseFloat(v.s).Some? ==> out == ParseFloat(v.s))
      && (schema[i].kind == StrKind ==> out == Some(v))
  {
    ConvertedLookup(params, schema, i);
  }

  /** `{k: v for k, v in params.items() if k in model_fields}`. */
  function FilterFields(params: Dict, names: seq<string>): (r: Dict)
    ensures forall k :: Lookup(r, k) == if k in names then Lookup(params, k) else None
  {
    if |params| == 0 then []
    else
      var rest := FilterFields(params[1..], names);
      if params[0].key in names then [params[0]] + rest else rest
  }

  /** Filtering to the model's fields before converting changes nothing:
      the conversion reads only those fields. */
  lemma {:induction false} FilterBeforeConvert(params: Dict, schema: seq<FieldSpec>)
    ensures ConvertGetParams(FilterFields(params, Names(schema)), schema) == ConvertGetParams(params, schema)
  {
    FilterBeforeConvertTail(params, schema, Names(schema));
  }

  lemma {:induction false} FilterBeforeConvertTail(params: Dict, schema: seq<FieldSpec>, names: seq<string>)
    requires forall i :: 0 <= i < |schema| ==> schema[i].name in names
    ensures ConvertGetParams(FilterFields(params, names), schema) == ConvertGetParams(params, schema)
  {
    var filtered := FilterFields(params, names);
    assert forall i :: 0 <= i < |schema| ==> Lookup(filtered, schema[i].name) == Lookup(params, schema[i].name);
    ConvertReadsSchemaFields(filtered, params, schema);
  }

  /** The conversion depends only on what the two dicts give for the
      schema's fields. */
  lemma {:induction false} ConvertReadsSchemaFields(a: Dict, b: Dict, schema: seq<FieldSpec>)
    requires forall i :: 0 <= i < |schema| ==> Lookup(a, schema[i].name) == Lookup(b, schema[i].name)
    ensures ConvertGetParams(a, schema) == ConvertGetParams(b, schema)
  {
    if |schema| > 0 {
      ConvertReadsSchemaFields(a, b, schema[1..]);
      assert Lookup(a, schema[0].name) == Lookup(b, schema[0].name);
    }
  }

  // ---------------------------------------------------------------------
  // Section parameters.

  /** Where each section's parameters come from: for a GET, the shared
      query; otherwise the `section_params` dict of the source. */
  datatype SectionInput =
    | QueryInput(params: Value)
    | NestedInput(sectionParams: Value)

  /** The lines before the loop: reading `section_params` with `.get`. */
  function SectionInputOf(raw: Dict): (r: Result<SectionInput, PyException>)
    ensures IsGet(raw) ==> r == Success(QueryInput(SelectSource(raw)))
    ensures !IsGet(raw) && SelectSource(raw).Object? ==>
      r == Success(NestedInput(GetOr(SelectSource(raw).members, "section_params", Object([]))))
    ensures !IsGet(raw) && !SelectSource(raw).Object? ==> r == Failure(NoAttribute(SelectSource(raw), "get"))
  {
    var params := SelectSource(raw);
    if IsGet(raw) then Success(QueryInput(params))
    else if params.Object? then Success(NestedInput(GetOr(params.members, "section_params", Object([]))))
    else Failure(NoAttribute(params, "get"))
  }

  /** The data one section's model is called with. */
  function SectionData(input: SectionInput, section: string, schema: seq<FieldSpec>): Result<Value, PyException> {
    match input
    case QueryInput(p) =>
      if !p.Object? then Failure(NoAttribute(p, "items"))
      else
        var converted :- ConvertGetParams(FilterFields(p.members, Names(schema)), schema);
        Success(Object(converted))
    case NestedInput(sp) =>
      if !sp.Object? then Failure(NoAttribute(sp, "get"))
      else Success(GetOr(sp.members, section, Object([])))
  }

  /** One section's outcome: its validated model or its error lines. */
  datatype Verdict = Accepted(model: Dict) | Rejected(messages: seq<string>)

  function NoModelMessage(section: string): string {
    "No parameter model for section '" + section + "'"
  }

  /** `f"Section '{section}', {field}: {msg}"` for each pydantic error. */
  function SectionMessages(section: string, es: seq<ErrorDetail>): (ms: seq<string>)
    ensures |ms| == |es|
    ensures forall i :: 0 <= i < |es| ==> ms[i] == "Section '" + section + "', " + FormatError(es[i])
  {
    seq(|es|, i requires 0 <= i < |es| => "Section '" + section + "', " + FormatError(es[i]))
  }

  /** One pass of the loop body of `validate_section_params`. */
  function CheckSection(input: SectionInput, section: string): (r: Result<Verdict, PyException>)
    ensures section !in SectionSchemas.SectionParamsMap ==> r == Success(Rejected([NoModelMessage(section)]))
    ensures r.Success? && r.value.Rejected? ==> |r.value.messages| > 0
    ensures r.Success? && r.value.Accepted? ==>
      && section in SectionSchemas.SectionParamsMap
      && Keys(r.value.model) == Names(SectionSchemas.SectionParamsMap[section])
    ensures section in SectionSchemas.SectionParamsMap ==>
      var data := SectionData(input, section, SectionSchemas.SectionParamsMap[section]);
      && (data.Failure? ==> r == Failure(data.error))
      && (data.Success? && !data.value.Object? ==> r == Failure(NotMapping(data.value)))
      && (data.Success? && data.value.Object? ==>
            var v := ValidateModel(SectionSchemas.SectionParamsMap[section], data.value.members);
            && (v.Success? ==> r == Success(Accepted(v.value)))
            && (v.Failure? ==> r == Success(Rejected(SectionMessages(section, v.error)))))
  {
    if section !in SectionSchemas.SectionParamsMap then Success(Rejected([NoModelMessage(section)]))
    else
      var schema := SectionSchemas.SectionParamsMap[section];
      var data :- SectionData(input, section, schema);
      if !data.Object? then Failure(NotMapping(data))
      else
        match ValidateModel(schema, data.members)
        case Success(m) => Success(Accepted(m))
        case Failure(es) => Success(Rejected(SectionMessages(section, es)))
  }

  /** What the loop has built so far: `validated` and `errors`. */
  datatype Collected = Collected(validated: Dict, errors: seq<string>)

  predicate AllChecked(input: SectionInput, sections: seq<string>) {
    forall i :: 0 <= i < |sections| ==> CheckSection(input, sections[i]).Success?
  }

  predicate AllAccepted(input: SectionInput, sections: seq<string>)
    requires AllChecked(input, sections)
  {
    forall i :: 0 <= i < |sections| ==> CheckSection(input, sections[i]).value.Accepted?
  }

  /** The loop over `sections`: every section is checked, in order, an
      exception ends it, and an error in one section does not stop the
      next. */
  function Collect(input: SectionInput, sections: seq<string>): (r: Result<Collected, PyException>)
    ensures r.Success? <==> AllChecked(input, sections)
    ensures r.Success? ==> (r.value.errors == [] <==> AllAccepted(input, sections))
    decreases |sections|
  {
    if |sections| == 0 then Success(Collected([], []))
    else
      var init := sections[..|sections| - 1];
      var last := sections[|sections| - 1];
      assert sections == init + [last];
      var prior := Collect(input, init);
      if prior.Failure? then prior
      else
        var step := CheckSection(input, last);
        AllCheckedSnoc(input, init, last);
        if step.Failure? then Failure(step.error)
        else if step.value.Accepted? then
          Success(Collected(Put(prior.value.validated, last, Object(step.value.model)), prior.value.errors))
        else
          Success(Collected(prior.value.validated, prior.value.errors + step.value.messages))
  }

  lemma AllCheckedSnoc(input: SectionInput, init: seq<string>, last: string)
    ensures AllChecked(input, init + [last]) <==> AllChecked(input, init) && CheckSection(input, last).Success?
    ensures AllChecked(input, init + [last]) ==>
      (AllAccepted(input, init + [last]) <==> AllAccepted(input, init) && CheckSection(input, last).value.Accepted?)
  {
    var s := init + [last];
    assert forall i :: 0 <= i < |init| ==> s[i] == init[i];
    assert s[|init|] == last;
  }

  /** After the loop, `validated` holds exactly the accepted sections, each
      once, with its model. */
  lemma {:induction false} CollectKeys(input: SectionInput, sections: seq<string>)
    requires AllChecked(input, sections)
    ensures UniqueKeys(Collect(input, sections).value.validated)
    ensures forall k :: k in Keys(Collect(input, sections).value.validated) <==>
      k in sections && CheckSection(input, k).value.Accepted?
    ensures forall k :: k in sections && CheckSection(input, k).value.Accepted? ==>
      Lookup(Collect(input, sections).value.validated, k) == Some(Object(CheckSection(input, k).value.model))
    decreases |sections|
  {
    if |sections| > 0 {
      var init := sections[..|sections| - 1];
      var last := sections[|sections| - 1];
      assert sections == init + [last];
      assert forall i :: 0 <= i < |init| ==> init[i] == sections[i];
      CollectKeys(input, init);
      var prior := Collect(input, init).value;
      if CheckSection(input, last).value.Accepted? {
        var m := CheckSection(input, last).value.model;
        PutUnique(prior.validated, last, Object(m));
        forall k ensures Lookup(Put(prior.validated, last, Object(m)), k) == if k == last then Some(Object(m)) else Lookup(prior.validated, k) {
          PutLookup(prior.validated, last, Object(m), k);
        }
      }
    }
  }

  /** No short-circuit: every message of every rejected section is in the
      final error list, and nothing else is. */
  lemma {:induction false} CollectErrors(input: SectionInput, sections: seq<string>)
    requires AllChecked(input, sections)
    ensures forall i, m :: (0 <= i < |sections| && CheckSection(input, sections[i]).value.Rejected? &&
      m in CheckSection(input, sections[i]).value.messages) ==> m in Collect(input, sections).value.errors
    ensures forall m :: m in Collect(input, sections).value.errors ==>
      (exists i :: 0 <= i < |sections| && CheckSection(input, sections[i]).value.Rejected? &&
         m in CheckSection(input, sections[i]).value.messages)
    decreases |sections|
  {
    if |sections| > 0 {
      var init := sections[..|sections| - 1];
      var last := sections[|sections| - 1];
      assert forall i :: 0 <= i < |init| ==> init[i] == sections[i];
      CollectErrors(input, init);
    }
  }

  /** The messages a section contributes: its own when it is rejected,
      none otherwise. */
  function MessagesOf(input: SectionInput, section: string): seq<string> {
    var v := CheckSection(input, section);
    if v.Success? && v.value.Rejected? then v.value.messages else []
  }

  /** The lists of `xs` one after another. */
  function Flatten<T>(xs: seq<seq<T>>): seq<T> {
    if |xs| == 0 then [] else xs[0] + Flatten(xs[1..])
  }

  lemma {:induction false} FlattenSnoc<T>(xs: seq<seq<T>>, x: seq<T>)
    ensures Flatten(xs + [x]) == Flatten(xs) + x
  {
    var ys := xs + [x];
    if |xs| == 0 {
      assert ys[1..] == [];
    } else {
      assert ys[0] == xs[0] && ys[1..] == xs[1..] + [x];
      FlattenSnoc(xs[1..], x);
    }
  }

  /** The messages of the rejected sections, concatenated in section order. */
  function RejectedMessages(input: SectionInput, sections: seq<string>): seq<string> {
    Flatten(seq(|sections|, i requires 0 <= i < |sections| => MessagesOf(input, sections[i])))
  }

  lemma RejectedSnoc(input: SectionInput, init: seq<string>, last: string)
    ensures RejectedMessages(input, init + [last]) == RejectedMessages(input, init) + MessagesOf(input, last)
  {
    var s := init + [last];
    var xs := seq(|init|, i requires 0 <= i < |init| => MessagesOf(input, init[i]));
    assert seq(|s|, i requires 0 <= i < |s| => MessagesOf(input, s[i])) == xs + [MessagesOf(input, last)];
    FlattenSnoc(xs, MessagesOf(input, last));
  }

  /** The loop's error list is the rejected sections' messages in section
      order, each section's in its own order. */
  lemma {:induction false} CollectErrorsInOrder(input: SectionInput, sections: seq<string>)
    requires AllChecked(input, sections)
    ensures Collect(input, sections).value.errors == RejectedMessages(input, sections)
    decreases |sections|
  {
    if |sections| > 0 {
      var init := sections[..|sections| - 1];
      var last := sections[|sections| - 1];
      assert sections == init + [last];
      AllCheckedSnoc(input, init, last);
      CollectErrorsInOrder(input, init);
      RejectedSnoc(input, init, last);
    }
  }

  /** `validate_section_params`. */
  function ValidateSectionParams(raw: Dict, sections: seq<string>): (r: Result<Dict, PyException>)
    ensures r.Success? ==> UniqueKeys(r.value) && forall k :: k in Keys(r.value) <==> k in sections
    ensures r.Success? <==> (SectionInputOf(raw).Success? &&
      AllChecked(SectionInputOf(raw).value, sections) && AllAccepted(SectionInputOf(raw).value, sections))
    ensures r.Success? ==> forall i :: 0 <= i < |sections| ==>
      Lookup(r.value, sections[i]) == Some(Object(CheckSection(SectionInputOf(raw).value, sections[i]).value.model))
    ensures r.Failure? && SectionInputOf(raw).Success? && AllChecked(SectionInputOf(raw).value, sections) ==>
      && r.error.kind == "ValidationError"
      && r.error == ValidationError("Invalid section parameters: " +
           Strings.Join(RejectedMessages(SectionInputOf(raw).value, sections), "; "))
    ensures SectionInputOf(raw).Failure? ==> r == Failure(SectionInputOf(raw).error)
    ensures SectionInputOf(raw).Success? && !AllChecked(SectionInputOf(raw).value, sections) ==>
      r == Failure(Collect(SectionInputOf(raw).value, sections).error)
  {
    var input :- SectionInputOf(raw);
    var c :- Collect(input, sections);
    CollectKeys(input, sections);
    CollectErrorsInOrder(input, sections);
    if c.errors != [] then
      Failure(ValidationError("Invalid section parameters: " + Strings.Join(c.errors, "; ")))
    else Success(c.validated)
  }

  /** For a POST (or a request without `method`), a section missing from
      `section_params` is validated against `{}`. */
  lemma NestedAbsentSectionUsesEmpty(raw: Dict, section: string)
    requires !IsGet(raw) && SelectSource(raw).Object?
    requires GetOr(SelectSource(raw).members, "section_params", Object([])).Object?
    requires !HasKey(GetOr(SelectSource(raw).members, "section_params", Object([])).members, section)
    requires section in SectionSchemas.SectionParamsMap
    ensures var schema := SectionSchemas.SectionParamsMap[section];
      var v := ValidateModel(schema, []);
      CheckSection(SectionInputOf(raw).value, section) ==
        if v.Success? then Success(Accepted(v.value)) else Success(Rejected(SectionMessages(section, v.error)))
  {
  }

  /** For a GET, every section reads the same query, and only its own
      model's fields of it, converted. */
  lemma QuerySharedAcrossSections(q: Dict, section: string)
    requires section in SectionSchemas.SectionParamsMap
    ensures SectionInputOf(RawParams(GetRequest(q))) == Success(QueryInput(Object(q)))
    ensures var c := ConvertGetParams(q, SectionSchemas.SectionParamsMap[section]);
      SectionData(QueryInput(Object(q)), section, SectionSchemas.SectionParamsMap[section]) ==
        if c.Success? then Success(Object(c.value)) else Failure(c.error)
  {
    SourceOfRequest(GetRequest(q));
    FilterBeforeConvert(q, SectionSchemas.SectionParamsMap[section]);
  }
}

=== FILE: wrappers.dfy ===
/** Failure-compatible Option and Result datatypes, used for Python's
    `None` returns and for raised exceptions. */
module Wrappers {

  /** Some/None: a Python value that may be `None`. */
  datatype Option<+T> = None | Some(value: T) {

    predicate IsFailure() {
      None?
    }

    function PropagateFailure<U>(): Option<U>
      requires None?
    {
      None
    }

    function Extract(): T
      requires Some?
    {
      value
    }

    /** The value, or `default` when there is none. */
    function GetOr(default: T): T {
      match this
      case Some(v) => v
      case None => default
    }
  }

  /** A returned value, or the exception that was raised instead. */
  datatype Result<+R, +E> = Success(value: R) | Failure(error: E) {

    predicate IsFailure() {
      Failure?
    }

    function PropagateFailure<U>(): Result<U, E>
      requires Failure?
    {
      Failure(error)
    }

    function Extract(): R
      requires Success?
    {
      value
    }
  }
}
